=== FILE: README.md ===
# Kolejki-Fizjo: import, queue and cohort engine

A Dafny model of the import, queue and cohort logic of the physiotherapy queue app
(`main.jsx`). The React handlers are written out as pure functions over an
explicit `AppState`:

- the patient registry (card number to `Patient`);
- the per-kind treatment queues;
- the pending "remove this entry in 10 s" timers;
- the registered list;
- the per-cohort day counters, start dates and last imported file names;
- the per-cohort archive of closed tours.

Modules follow the program's structure:

| module | file | covers |
|---|---|---|
| `Text` | text.dfy | `trim`, `toLowerCase`, `includes`, `normalizeHeader` |
| `Columns` | columns.dfy | `letterToIndex` and its inverse |
| `Model` | model.dfy | entities, `ALL_TREATMENTS`, the alias table `mapQ`, the initial state |
| `Accumulation` | accumulate.dfy | how every parser folds rows into records: first row creates, later rows fill empty name/time and append treatments |
| `Layouts` | layouts.dfy | `parseNewFormatA`, `parseByBlocksA1` and the fallback between them |
| `HeaderRows` | headerrows.dfy | `addRowToParsed` |
| `Import` | import.dfy | the pure body of `handleFile`: header check, issues, duplicates, stamp, commit, cohort start, and the positional-parse override both as written and as intended |
| `Queues` | queues.dfy | `addToQueues`, `toggleDone` with its timer, `moveUpInQueue`, `moveTopInQueue`, `countsActive`, `kindsToShow`, and the queue invariant every queue operation keeps |
| `Cohorts` | cohorts.dfy | `incCohortDay`, `resetCohortDay`, `setCohortStarted`, `clearQueuesForCohort`, `closeCohort` |
| `Registry` | registry.dfy | patients view edits (`deleteOne`, `deleteMany`, `addRow`, `saveEdit`), `restorePatient`, both searches |
| `ArchiveView` | archive.dfy | the 20-day expiry, tour search, archived record edit, tour delete, and the two mounted views each writing back its own copy |
| `Dates` | dates.dfy | the text branch of `formatDateCell` |
| `Accounts` | accounts.dfy | the registration checks |

## How the model is set up

**Timers.** The 10-second removal scheduled by `toggleDone` is a multiset of
`TimerKey(kind, id)`:

- `ToggleDone` adds a key when an entry goes to done and removes one when it goes back.
- `Fire` is the callback running: it filters that id out of the kind's queue.
- It is a multiset because deleting a patient does not cancel its timers.

**Queue invariant.** `Queues.QueueInvariant` says the ids in each queue are
unique and every done entry has a pending removal. The initial state has it,
and enrolment, the toggle, a removal firing, both manual moves, clearing or
closing a cohort and both deletions keep it.

**Archive views.** The "Tura" section mounts one archive view per cohort, and
each view works on its own copy of the whole archive (`ArchiveView.Views`).
`EditArchived` and `DeleteTour` act on such a copy; the copy then replaces
what is stored, which can undo the other view's changes (see "## Findings").

**Inputs.** The spreadsheet reader's two outputs are independent inputs of
`Import.ImportFile`:

- the header-keyed rows (`sheet_to_json(sheet, {defval:""})`);
- the raw cell matrix (`header:1`).

As written, the raw matrix never reaches the commit: see "## Findings".

`Date.now`, `Date.parse`, `new Date().toISOString()`, the random salt and
SHA-256 are also parameters.

**Enumeration order.** `Object.entries` order of the registry and of a tour is
an explicit `order` parameter of the searches.

**Text.** Strings are `seq<char>`:

- `trim` and `\s` use the full ECMAScript white-space set.
- `toLowerCase` covers ASCII, Latin-1 and the Polish letters.
- The `normalize('NFD')` + `\p{Diacritic}` step of `normalizeHeader` is a fixed
  table:
  - Polish letters map to their base letters (`Ł`/`ł` have no decomposition and stay).
  - The spacing and combining diacritic marks are removed.

**Quirks kept as written:**

- The alias table maps `mtc`, `magnetoterapia` and `magnetronik` to
  "Magnetronik", which is not in `ALL_TREATMENTS`. Enrolment creates that queue,
  but it is never rendered or counted (`Queues.MagnetronikNeverShown`).
- Tokens are matched after lower-casing only. `ultradźwięki` and `ultradzwieki`
  are separate keys.
- The commit replaces each parsed card's record whole.
- `saveEdit` in the patients view drops the time and the cohort.
- `moveTopInQueue` at the head is a no-op.
- Queue ids use the trimmed description, but the entry keeps it untrimmed.
- In the new format, a current type alone makes slot 1 emit a "Prądy"
  treatment. A slot-1 token with neither type nor area emits nothing, because
  the description must be non-empty.
- Only an import sets a cohort's start date; `incCohortDay` never does.
- The cohort's last file name is recorded at the start of `handleFile`, before
  any check. A rejected file still names the next closed tour.

## Model

| member | source | states |
|---|---|---|
| Text.Trim | main.jsx:743-744 | the result has no white space at either end and is no longer than the input |
| Text.TrimBlank | main.jsx:745 | a cell trims to "" exactly when it is all white space, so such a card counts as missing |
| Text.TrimIdentity | main.jsx:743 | trimming changes a string exactly when it starts or ends with white space |
| Text.TrimIdempotent | main.jsx:743 | trimming twice is trimming once |
| Text.TrimJoin | main.jsx:810 | the final `.trim()` on "type area" of two trimmed, non-empty parts changes nothing |
| Text.LowerIdempotent | main.jsx:828 | lower-casing a lower-cased token changes nothing |
| Text.NormalizeIsCanonical | main.jsx:769-772 | every normalised header is lower case, diacritic-free, single-spaced and trimmed |
| Text.CanonicalFixed | main.jsx:769-772 | normalisation leaves canonical strings alone |
| Text.NormalizeIdempotent | main.jsx:769-772 | normalising a header twice is normalising it once |
| Text.ContainsSound | main.jsx:205 | a positive `includes` has an offset where the query occurs |
| Text.ContainsComplete | main.jsx:205 | every occurrence of the query makes `includes` true |
| Text.NormalizeHeader | main.jsx:769-772 | the operation: decompose, drop diacritics, lower-case, collapse white space, trim; its properties are `NormalizeIsCanonical` and `NormalizeIdempotent` |
| Columns.LetterToIndex | main.jsx:764-768 | the left-to-right loop computes the base-26 value (A=1..Z=26) minus one, non-negative for a non-empty label |
| Columns.IndexOfColumnLabel | main.jsx:764-768 | reading back the label of any index gives that index |
| Columns.ColumnLabelOfIndex | main.jsx:764-768 | every non-empty upper-case label is the label of its own index, so the decoder is a bijection |
| Columns.SingleLetter | main.jsx:764-768 | a single letter decodes to its zero-based position in the alphabet |
| Model.InitialState | main.jsx:639-656 | a fresh state has exactly one empty queue per `ALL_TREATMENTS` kind and both day counters at 0 |
| Accumulation.AccumulateSpec | main.jsx:875-888 | the fold gives a record exactly to the cards of the rows; each holds the first non-empty name and time among its rows and all their treatments in row order |
| Accumulation.AccumulateHasTreatments | main.jsx:947 | the parse result has a treatment exactly when some accepted row has one |
| Layouts.FirstColumnsSpec | main.jsx:842 | the header map holds exactly the non-empty normalised headers, each with the first column that holds it |
| Layouts.FindColumnSpec | main.jsx:843 | the aliases are tried in order: -1 exactly when none is in the map, otherwise the column of the first that is |
| Layouts.LocateSpec | main.jsx:841-843 | `idx(...names)` finds the first column of the first alias that some header normalises to, and -1 exactly when no alias matches |
| Layouts.JoinPresentNonEmpty | main.jsx:895 | the space-join of the present parts is empty exactly when both parts are |
| Layouts.AliasKindRange | main.jsx:864-873 | a recognised token gives one of Laser, Magnetronik, Sollux, Ultradźwięki, never "Prądy" or "Kineza" |
| Layouts.AliasSlot | main.jsx:909-914 | a token/area pair gives at most one treatment, of an alias kind |
| Layouts.AliasSlotSpec | main.jsx:909-914 | a pair gives a treatment exactly when the lower-cased token is an alias key, of that key's kind and described by the area |
| Layouts.AliasSlotUntrimmed | main.jsx:824-829 | the same for an untrimmed area: the description is the trimmed area |
| Layouts.AliasSlots | main.jsx:915-918 | slots 3 to 5 give at most three treatments, all of alias kinds |
| Layouts.TypedSlotSpec | main.jsx:890-906 | slots 1 and 2 emit exactly when a type or an area is present, described by "type area"; the slot's own token never matters |
| Layouts.TypedSlotCount | main.jsx:890-906 | a typed slot gives one treatment of its kind when a type or area is present, none otherwise |
| Layouts.LabelledCellShape | main.jsx:805-812 | a filled fixed cell gives one treatment described by "header cell" (or the cell under an empty header), already trimmed; a blank cell gives none |
| Layouts.LabelledCellBoth | main.jsx:808-811 | with a header label and a cell, the description is the label, one space, the cell |
| Layouts.LabelledCellArea | main.jsx:808-811 | under an empty header label, the description is the cell alone |
| Layouts.LabelledCells | main.jsx:805-822 | a run of fixed columns gives one treatment per filled cell, each of the run's kind with a non-blank trimmed description |
| Layouts.PairCells | main.jsx:823-830 | the M/N, O/P, Q/R pairs give at most one treatment each, only of alias kinds |
| Layouts.BlockColumnIndices | main.jsx:781-783 | the fixed columns are `letterToIndex` of A, B, C, of D-H, of I-L and of the pairs M/N, O/P, Q/R |
| Layouts.ParseNewFormat | main.jsx:836-922 | the operation: the header row locates the columns, each later row with a card becomes a record, folded by card; an empty sheet gives an empty result. Its properties are the `NewFormat…` and `NoSlotColumns…` lemmas |
| Layouts.ParseBlocks | main.jsx:775-833 | the operation: each data row with a card in column A becomes a record read from the fixed columns, folded by card. Its properties are `BlockKeys`, `BlockRowCounts` and `BlockRowWithTreatment` |
| Layouts.ChooseLayout | main.jsx:946-949 | the operation: the new-format result when it holds a treatment, else the block result. Its properties are `ChooseLayoutSpec`, `NewFormatChosen`, `NoSlotColumnsFallsBack` and `ParserFallback` |
| Layouts.NewFormatRowCard | main.jsx:884-885 | a new-format row gives a record exactly when its trimmed card cell is non-empty, under that card |
| Layouts.NewFormatRowCounts | main.jsx:882-918 | a row gives at most five treatments, one "Prądy" exactly when slot 1 has a type or area, one "Kineza" exactly when slot 2 has |
| Layouts.BlockRowCard | main.jsx:797-798 | a block row gives a record exactly when column A is non-blank, under that card |
| Layouts.BlockRowCounts | main.jsx:805-830 | a block row has one "Prądy" per filled D-H cell, one "Kineza" per filled I-L cell, and at most twelve treatments |
| Layouts.BlockKeys | main.jsx:796-801 | the block layout keys exactly the data rows with a non-blank column A, by that trimmed cell |
| Layouts.NewFormatKeys | main.jsx:882-888 | the new format keys exactly the data rows whose card column is non-blank |
| Layouts.NoCardColumnNoRecords | main.jsx:884-885 | without a card column no row is read |
| Layouts.NoCardColumn | main.jsx:845 | a sheet with no card header gives the new format an empty result |
| Layouts.NoSlotColumnsRow | main.jsx:890-918 | with no type, area or slot 3-5 column a row has no treatment |
| Layouts.NoSlotColumnsNoTreatments | main.jsx:882-918 | such columns give the new format no treatment for any rows |
| Layouts.NoSlotColumnsNoNewFormat | main.jsx:836-922 | a header row without those columns gives the new format no treatment |
| Layouts.NoSlotColumnsFallsBack | main.jsx:946-949 | for such a sheet the block layout is the one used |
| Layouts.BlockRowHasTreatment | main.jsx:805-822 | a block row with a card and any filled D-L cell has a treatment |
| Layouts.BlockRowWithTreatment | main.jsx:796-822 | such a data row makes the block layout's result hold a treatment |
| Layouts.BlockRecordsWithTreatment | main.jsx:796-822 | the same for the data rows alone |
| Layouts.ChooseLayoutSpec | main.jsx:946-949 | the chosen result has a treatment exactly when either layout finds one |
| Layouts.NewFormatChosen | main.jsx:946-949 | a data row with a card and a filled slot-1 type or area gives the new format a treatment, so its result is used |
| Layouts.NewFormatRecordsWithTreatment | main.jsx:882-906 | the same for the data rows read through given columns |
| Layouts.EmptyHeaderRow | main.jsx:839-843 | a header row without cells locates no column, so none of the slot columns is found |
| Layouts.ParserFallback | main.jsx:946-949 | a sheet in the fixed block layout falls back to the block parse and yields treatments |
| HeaderRows.AddRowToParsed | main.jsx:742-761 | the operation: a row with a blank card is ignored, otherwise it creates or extends its card's record. Its property is `AddRowToParsedSpec` |
| HeaderRows.ParseRows | main.jsx:969-977 | the operation: `addRowToParsed` over the rows in order, from an empty result. Its properties are `ParseRowsSpec` and `ParseRowsCards` |
| HeaderRows.DescribeSpec | main.jsx:753-756 | the description starts with the area and is the bare area exactly when no current or kinesitherapy type applies |
| HeaderRows.SlotsFromSpec | main.jsx:748-760 | slots i..5 give at most 6-i treatments, each from a slot with both cells filled, with that slot's kind |
| HeaderRows.RowTreatmentsSpec | main.jsx:748-760 | a row gives at most five treatments, each from a filled kind/area slot |
| HeaderRows.NoKindsNoSlots | main.jsx:753 | with no kind cell filled a row has no treatment |
| HeaderRows.FilledSlotEmits | main.jsx:753-758 | a slot with kind and area filled always yields its treatment |
| HeaderRows.AddRowToParsedSpec | main.jsx:742-761 | a blank card is ignored; otherwise only that card's record changes: created with the row's name, or extended with the row's treatments and the name filled if empty |
| HeaderRows.AddRowKeys | main.jsx:745-746 | the step adds the row's card, when filled, to the known cards |
| HeaderRows.ParseRowsAccumulate | main.jsx:969-977 | the row-by-row parse is the common fold over the rows with a card |
| HeaderRows.ParseRowsSpec | main.jsx:969-977 | repeated cards merge: first filled name, all treatments in row order, no time, no cohort |
| HeaderRows.NoTimes | main.jsx:746 | this parser never records an arrival time |
| HeaderRows.ParseRowsCards | main.jsx:969-977 | the parse holds exactly the non-blank card cells of the rows |
| Import.ImportWith | main.jsx:934-1019 | the operation, with the positional parse as the override sees it as a parameter: record the file name, check the headers, list the issues, count duplicates, then commit. Its properties are `ImportCommits`, `ImportGate`, `ImportMissingSpec` and `ImportFailureKeepsState` |
| Import.ImportFile | main.jsx:940-1001 | `handleFile` as written: the override sees no positional parse. Its properties are `ImportFileCommitsRowParse`, `RowParseCommitted` and `OverrideNeverApplied` |
| Import.ImportFileIntended | main.jsx:996-1001 | `handleFile` with the override reaching the positional parse. Its property is `ImportFileIntendedCommits` |
| Import.Commit | main.jsx:1006-1019 | the operation: merge the stamped parse over the registry, set the start date when unset, and set day 1 from 0 or unset. Its properties are `CommitSpec`, `CommitStartsCohort` and `CommitIsMergeThenStart` |
| Import.MissingFrom | main.jsx:958-960 | the missing list holds exactly the required headers no row has |
| Import.MissingHeadersSpec | main.jsx:958-961 | the header check passes exactly when some row has "Numer karty" and some row has "Imię" |
| Import.ValidRows | main.jsx:969-976 | the rows given to the row parser are exactly those with a card and a name |
| Import.IssuesSpec | main.jsx:969-975 | the issue list holds exactly one entry per row without card or name, at line index+2 with the trimmed card and name |
| Import.IssueListed | main.jsx:972-973 | each row without card or name is listed at its line |
| Import.IssuesEmpty | main.jsx:987 | there are no issues exactly when every row has a card and a name |
| Import.CountTwice | main.jsx:980-982 | a card is counted more than once exactly when two different rows carry it |
| Import.DuplicatesSpec | main.jsx:980-982 | the duplicate report lists exactly the non-blank cards of two or more rows, issue rows included, with their counts |
| Import.Stamp | main.jsx:1006-1010 | stamping keeps the parsed cards |
| Import.CommitIsMergeThenStart | main.jsx:1013-1019 | the commit is the `{...prev, ...parsed}` merge, then `setCohortStarted`, then day 1 for an unset or zero counter |
| Import.CommitSpec | main.jsx:1013 | every parsed card is written stamped with the cohort, replacing the old record whole; other cards, queues, timers, archive and file names stay |
| Import.CommitStartsCohort | main.jsx:1015-1019 | the start date is set only when unset, the day becomes 1 only from 0 or unset, and the other cohort is untouched |
| Import.ImportMissingSpec | main.jsx:958-964 | a missing required header aborts with exactly the missing names; only the recorded file name changes |
| Import.EmptyImportRejected | main.jsx:958-961 | a sheet without rows is always rejected with both headers missing |
| Import.ImportGate | main.jsx:987-992 | any row without card or name blocks the commit; the outcome lists it and carries the row parse of the valid rows |
| Import.ImportCommits | main.jsx:958-1013 | an import commits exactly when both headers exist and no row lacks a card or a name, whatever positional parse the override sees |
| Import.ImportFileCommitsRowParse | main.jsx:940-1013 | as written, a committing import writes the row parse of the valid rows, and the sheet has no effect on the result |
| Import.ImportFileIntendedCommits | main.jsx:996-1013 | with the override working, a committing import writes the positional parse when it holds a treatment and the row parse otherwise; the outcome is the same as written |
| Import.ImportFailureKeepsState | main.jsx:934-992 | a failed import changes nothing but the recorded file name |
| Import.RowParseCommitted | main.jsx:969-1013 | as written, each card of a committing import holds its rows' first filled name and all their treatments, with no time and stamped with the cohort |
| Import.StampTreatments | main.jsx:1006-1010 | stamping keeps whether any record holds a treatment |
| Import.OverrideNeverApplied | main.jsx:940-1001 | into an empty registry, rows without treatments and a sheet whose positional parse has one: as written no treatment is committed, as intended one is |
| Import.OverrideCounterexample | main.jsx:940-1001 | the sheet `[["Numer karty", "Imię", "", ""], ["1", "A", "", "x"]]`, read as the row `{"Numer karty": "1", "Imię": "A", "__EMPTY": "", "__EMPTY_1": "x"}` and as that cell matrix, commits card "1" without a treatment as written and with one as intended |
| Queues.AddToQueues | main.jsx:1031-1046 | the operation: a registered card's treatments are enrolled in their kinds' queues; an unknown card changes nothing. Its properties are the `EnrollAll…` lemmas and `AddToQueuesIdempotent` |
| Queues.ToggleDone | main.jsx:1080-1100 | the operation: flip `done` on the entry with the id and schedule or cancel its removal. Its properties are `ToggleDoneSpec`, `ToggleDoneAbsent`, `ToggleTwice` and `ToggleDoneKeepsInvariant` |
| Queues.Fire | main.jsx:1087-1093 | the operation: a pending removal runs and filters the id out of its kind's queue. Its properties are `FireSpec`, `FireKeepsInvariant` and `DoneThenFireRemoves` |
| Queues.MoveUp | main.jsx:694-703 | the operation: swap the entry with its predecessor. Its property is `MoveUpSpec` |
| Queues.MoveTop | main.jsx:705-717 | the operation: move the entry to the head, marked manual at `now`. Its properties are `MoveTopSpec` and `MoveTopKeepsInvariant` |
| Queues.IndexOf | main.jsx:1082 | `findIndex` returns the first position holding the id, or -1 exactly when none does |
| Queues.WithoutId | main.jsx:1090 | the timer's filter keeps exactly the entries with another id; `WithoutIdAppend` states that it keeps their order |
| Queues.WithoutIdAppend | main.jsx:1090 | the id filter distributes over concatenation, so the kept entries stay in order |
| Queues.WithoutCards | main.jsx:663-666 | the cohort filter keeps exactly the entries of other cards |
| Queues.WithoutCardsAppend | main.jsx:663-666 | the filter keeps the entries' relative order |
| Queues.DropCards | main.jsx:660-669 | filtering every queue keeps the set of kinds |
| Queues.EnrollAllExtends | main.jsx:1034-1042 | enrolment keeps every existing queue as a prefix and adds only the treatments' kinds |
| Queues.EnrollQueue | main.jsx:1037-1041 | one treatment appends its entry to its own kind's queue only when that id is absent |
| Queues.EnrollAllAppends | main.jsx:1038-1040 | every appended entry is a pending, unprioritised entry of this card for one of its treatments, under that treatment's id |
| Queues.EnrollAllCovers | main.jsx:1039-1041 | afterwards every treatment has an entry under its id in its kind's queue |
| Queues.EnrollAllUnique | main.jsx:1039 | enrolment never duplicates an id in a queue |
| Queues.EnrollAllPresent | main.jsx:1039 | when every treatment's entry is already there, enrolment changes nothing |
| Queues.EnrollAllIdempotent | main.jsx:1035-1042 | enrolling the same treatments twice equals enrolling once |
| Queues.AddToQueuesIdempotent | main.jsx:1031-1046 | `addToQueues` twice leaves the queues of once; an unknown card is a no-op |
| Queues.TrimmedDescriptionsShareEntry | main.jsx:1038 | descriptions differing only in outer white space share an id, so the second adds nothing |
| Queues.ReplaceById | main.jsx:1098 | the map replaces exactly the entries holding the id |
| Queues.ToggleDoneSpec | main.jsx:1080-1100 | the toggle flips `done` on exactly the entry with the id; the order, every other entry and every other queue stay |
| Queues.ToggleDoneAbsent | main.jsx:1082-1083 | a missing id (or kind) makes the toggle a no-op |
| Queues.RescheduleTwice | main.jsx:1087-1096 | scheduling then cancelling a removal restores the pending removals |
| Queues.FlipTwice | main.jsx:1084-1098 | flipping twice restores the queue, and the first flip keeps the entry's place |
| Queues.ToggleTwice | main.jsx:1080-1100 | under the invariant, toggling twice restores the whole state, pending removals included |
| Queues.ToggleDoneKeepsInvariant | main.jsx:1080-1100 | the toggle keeps ids unique and every done entry with a pending removal |
| Queues.FireSpec | main.jsx:1087-1093 | a pending removal is used up and filters exactly the entries with its id out of its own kind's queue; the other queues, the registry, counters, dates, file names and archive stay; a removal not pending does nothing |
| Queues.FireKeepsInvariant | main.jsx:1087-1093 | the removal firing keeps that invariant |
| Queues.InitialStateInvariant | main.jsx:639-656 | the fresh state satisfies the invariant |
| Queues.AddToQueuesKeepsInvariant | main.jsx:1031-1046 | enrolling a card keeps ids unique and adds only pending entries |
| Queues.MoveUpKeepsInvariant | main.jsx:694-703 | moving up keeps the invariant |
| Queues.MoveTopKeepsInvariant | main.jsx:705-717 | moving to the front keeps the invariant; the moved entry keeps its id and done flag |
| Queues.FrontUnique | main.jsx:710-712 | moving an entry to the front under its own id keeps the ids unique |
| Queues.FrontMembers | main.jsx:710-712 | after moving to the front every entry is the moved one or an old one |
| Queues.WithoutCardsUnique | main.jsx:658-670 | dropping cards from a queue never repeats an id |
| Queues.DropCardsKeepsInvariant | main.jsx:658-670 | dropping cards from every queue keeps the invariant |
| Cohorts.CohortOpsKeepInvariant | main.jsx:653-670 | clearing and advancing a cohort, and closing it (main.jsx:1048-1075), keep the invariant |
| Registry.DeleteOneKeepsInvariant | main.jsx:192-196 | deleting one card keeps the invariant |
| Registry.DeleteManyKeepsInvariant | main.jsx:197-200 | deleting a list of cards keeps the invariant |
| Queues.DoneThenFireRemoves | main.jsx:1085-1093 | toggling a pending entry to done and letting its removal fire removes it from the queue |
| Queues.DoneThenUndoneCancels | main.jsx:1094-1097 | toggling to done and back before the removal fires cancels it: the state is as before and a late firing does nothing |
| Queues.MoveUpSpec | main.jsx:694-703 | move-up swaps the entry with its predecessor, keeps the queue's multiset and other positions, and is a no-op at the head or when absent |
| Queues.SwapAdjacent | main.jsx:699 | swapping neighbours keeps the multiset and every other position |
| Queues.MoveTopSpec | main.jsx:705-717 | move-to-top puts the entry first marked manual at `now`, keeps the others in order and the ids as a multiset, and is a no-op at the head or when absent |
| Queues.CountsActive | main.jsx:1102 | counts exist for exactly the `ALL_TREATMENTS` kinds |
| Queues.CountsActiveSpec | main.jsx:1102 | a kind's count is at most its queue length, equal to it exactly when nothing is done, 0 exactly when everything is, and 0 for a missing queue |
| Queues.ToggleDoneCount | main.jsx:1080-1102 | toggling to done lowers the kind's pending count by one; toggling back raises it by one |
| Queues.KindsToShow | main.jsx:1132 | the rendered kinds are exactly the visible `ALL_TREATMENTS` kinds |
| Queues.MagnetronikNeverShown | main.jsx:1132 | the alias target "Magnetronik" is never rendered or counted, whatever is visible |
| Cohorts.ClearQueuesForCohort | main.jsx:658-670 | the operation: drop the queue entries of the cohort's registered cards. Its properties are `IncCohortDaySpec` and `ClearQueuesKeepsOthers` |
| Cohorts.IncCohortDay | main.jsx:653 | the operation: clear the cohort's queue entries and add one to its day. Its property is `IncCohortDaySpec` |
| Cohorts.ResetCohortDay | main.jsx:654 | the operation: the cohort's day becomes 1. Its property is `ResetCohortDaySpec` |
| Cohorts.SetCohortStarted | main.jsx:655 | the operation: write today's date as the start when it is unset. Its property is `SetCohortStartedSpec` |
| Cohorts.CloseCohort | main.jsx:1048-1075 | the operation: move the cohort's patients into a new archived tour and drop their queue entries. Its properties are `CloseCohortPartition`, `CloseCohortSpec` and `CloseCohortTwice` |
| Cohorts.CohortCards | main.jsx:664-665 | the cohort's cards are exactly the registered cards whose cohort it is |
| Cohorts.SelectCohort | main.jsx:1049-1055 | selecting keeps exactly the records inside (or outside) the cohort, unchanged |
| Cohorts.IncCohortDaySpec | main.jsx:653-670 | a new day drops exactly the queue entries of the cohort's registered cards, adds one to its day, and keeps the registry, start dates and the other counter |
| Cohorts.ClearQueuesKeepsOthers | main.jsx:658-670 | a queue with no entry of the cohort's cards is left whole |
| Cohorts.ResetCohortDaySpec | main.jsx:654 | the reset sets the day to 1 and changes nothing else |
| Cohorts.SetCohortStartedSpec | main.jsx:655 | the start date is written only when empty, so a second start keeps the first date |
| Cohorts.CloseCohortPartition | main.jsx:1049-1066 | closing splits the registry: the rest are the other cohorts' patients, the tour holds the cohort's, and together they are the old registry |
| Cohorts.CloseCohortSpec | main.jsx:1048-1075 | closing appends exactly one tour, stamped and named after the last file, drops exactly the cohort's entries from every queue, and keeps counters, start dates and the other archive |
| Cohorts.DropNoCards | main.jsx:1058-1063 | filtering with no card leaves every queue as it was |
| Cohorts.CloseEmptyCohort | main.jsx:1048-1075 | closing a cohort without patients archives an empty tour and changes no patient or queue |
| Cohorts.CloseCohortTwice | main.jsx:1048-1075 | after a close the cohort is empty, so closing again changes no patient or queue |
| Registry.DeleteOne | main.jsx:192-194 | the operation: drop one card and its queue entries. Its property is `DeleteOneIsDeleteMany` |
| Registry.DeleteMany | main.jsx:197-200 | the operation: drop the listed cards and their queue entries. Its property is `DeleteManySpec` |
| Registry.AddRow | main.jsx:222-231 | the operation: add a trimmed card and name when both are non-blank and the card is new. Its property is `AddRowSpec` |
| Registry.SaveEdit | main.jsx:212-218 | the operation: write the edited name and treatments as a fresh record. Its property is `SaveEditLeavesCohort` |
| Registry.RestorePatient | main.jsx:405-411 | the operation: add an archived patient to the viewed cohort unless the card is registered. Its properties are `RestoreKeeps` and `CloseThenRestore` |
| Registry.DeleteManySpec | main.jsx:197-200 | deleting removes exactly the listed cards and their queue entries, and nothing else |
| Registry.DeleteOneIsDeleteMany | main.jsx:192-194 | deleting one card equals deleting the one-card list |
| Registry.AddRowSpec | main.jsx:222-231 | adding never overwrites, adds the trimmed card exactly when it is new and card and name are non-blank, and is idempotent |
| Registry.SaveEditLeavesCohort | main.jsx:212-218 | an edited record keeps name and treatments but leaves every cohort; other records stay |
| Registry.RestoreKeeps | main.jsx:405-411 | restoring never overwrites a registered card; a new one joins the viewed cohort |
| Registry.CloseThenRestore | main.jsx:405-411 | restoring an archived patient into the cohort it was closed from gives back the same name, time, treatments and cohort |
| Registry.PatientRows | main.jsx:205 | the patients table lists exactly the registered cards whose lower-cased card contains the term, with name and treatment count |
| Registry.AllMatches | main.jsx:1027-1028 | the quick-search hits are exactly the cards matching by card as typed or lower-cased name |
| Registry.MatchesSpec | main.jsx:1027-1029 | the quick search returns at most ten real hits in order, all of them when fewer than eleven, and none for an empty query |
| Registry.QuickMatchCase | main.jsx:1027-1028 | for all inputs: a query with a character the card lacks matches exactly through the lower-cased name; a query occurring in the card as typed matches; a name hit survives any change of case |
| Registry.QuickMatchCaseSensitiveCard | main.jsx:1028 | an instance: card "ab" is not found by "AB", while name "AB" is found by "ab" |
| ArchiveView.Expire | main.jsx:374-391 | the operation: keep each cohort's tours of the last twenty days, storing only when something was dropped. Its properties are `ExpireSpec` and `ExpireIdempotent` |
| ArchiveView.EditArchived | main.jsx:419-430 | the operation: rewrite one record of one archived tour in a view's copy. Its properties are `EditArchivedSpec` and `EditMissingTour` |
| ArchiveView.DeleteTour | main.jsx:443 | the operation: remove one archived tour from a view's copy. Its property is `DeleteTourSpec` |
| ArchiveView.Persist | main.jsx:370-373 | the operation: a view's whole copy becomes its copy and what is stored |
| ArchiveView.ViewDelete | main.jsx:443 | the operation as written: delete from the view's copy and store that copy. Its property is `DeletedTourComesBack` |
| ArchiveView.ViewEdit | main.jsx:419-430 | the operation as written: edit the view's copy and store it. Its properties are `ViewEditStoresStaleCopy` and `DeletedTourComesBack` |
| ArchiveView.SharedDelete | main.jsx:443 | the corrected operation: delete from what is stored. Its properties are `SharedWritesKeepOtherCohort` and `DeletedTourStaysDeleted` |
| ArchiveView.SharedEdit | main.jsx:419-430 | the corrected operation: edit what is stored. Its properties are `SharedWritesKeepOtherCohort` and `DeletedTourStaysDeleted` |
| ArchiveView.FreshTours | main.jsx:381-384 | the filter keeps exactly the tours whose stamp parses to a time at or after the cutoff |
| ArchiveView.FreshToursAll | main.jsx:387 | a filter that drops nothing returns its input |
| ArchiveView.ExpireSpec | main.jsx:374-391 | after the expiry each cohort holds exactly its tours of the last twenty days, in order |
| ArchiveView.ExpireIdempotent | main.jsx:374-391 | running the expiry twice at the same time removes nothing more |
| ArchiveView.TourSearch | main.jsx:398-403 | the tour search finds exactly the cards whose lower-cased card or name contains the lower-cased query, none for an empty query |
| ArchiveView.EditArchivedSpec | main.jsx:419-430 | in the view's copy, an edit sets the new card's name and treatments, drops a renamed card and keeps every other record and tour, and the view's copy of the other cohort |
| ArchiveView.EditMissingTour | main.jsx:424-425 | editing a missing tour changes nothing |
| ArchiveView.DeleteTourSpec | main.jsx:443 | in the view's copy, deleting removes exactly that tour and shifts the later ones by one, and keeps the view's copy of the other cohort |
| ArchiveView.Mount | main.jsx:367-369 | both views mounted at main.jsx:1383 start from a copy of what is stored |
| ArchiveView.ViewEditStoresStaleCopy | main.jsx:419-430 | as written, a saved edit stores the view's own copy of the other cohort, whatever is stored for it |
| ArchiveView.DeletedTourComesBack | main.jsx:367-373 | as written, a tour deleted in the AMBU view (main.jsx:443) is stored again once the DZIENNI view saves an edit |
| ArchiveView.SharedWritesKeepOtherCohort | main.jsx:419-430 | corrected edits and deletes, made on what is stored, leave the other cohort's stored tours unchanged |
| ArchiveView.DeletedTourStaysDeleted | main.jsx:443 | with the corrected writes, the deleted tour stays deleted after the other view's edit |
| Dates.FormatDateText | main.jsx:724-738 | the operation: an empty cell gives ""; a day-month-year date becomes ISO; an ISO date stays; anything else is returned trimmed. Its properties are `DayMonthYearGivesIso`, `IsoFixed` and `FormatDateIdempotent` |
| Dates.Dashes | main.jsx:730 | every dot and slash becomes a dash and nothing else changes |
| Dates.DayMonthYearToIso | main.jsx:729-734 | d.m.yyyy, d/m/yyyy or d-m-yyyy becomes yyyy-mm-dd with zero-padded month and day |
| Dates.DashesFound | main.jsx:731 | a day-month-year match has its dashes at the only places the pattern allows |
| Dates.IsoFixed | main.jsx:736-737 | an ISO date is returned unchanged |
| Dates.DayMonthYearGivesIso | main.jsx:731-734 | the day-month-year branch always yields an ISO date |
| Dates.Pad2Digits | main.jsx:734 | padding one or two digits gives two digits |
| Dates.FormatDateIdempotent | main.jsx:724-738 | normalising a normalised date changes nothing |
| Accounts.Register | main.jsx:555-570 | the operation: the checks in order, then one appended user. Its properties are `RegisterSpec` and `RegisterKeepsNamesDistinct` |
| Accounts.RegisterSpec | main.jsx:555-567 | registration succeeds exactly when every check passes and then appends one user; a refusal names the first failed check: that check fails and every earlier one passes |
| Accounts.RegisterKeepsNamesDistinct | main.jsx:561-567 | registration keeps user names distinct up to letter case |
| Accounts.CaseVariantRefused | main.jsx:561-562 | a name differing from a stored one only in case is refused as taken |

## Left out

- Reading the workbook (`XLSX.read`, `sheet_to_json`), the file size guard and `arrayBuffer` I/O. Both reader outputs are inputs.
- The numeric branch of `formatDateCell` (`XLSX.SSF.format`), a call into a library.
- The unused top-level `formatDateCell` (main.jsx:151-170), which the App's own definition shadows.
- `localStorage`: every persisted value is a plain state field, except the archive, whose per-view copies are modelled by `ArchiveView.Views`. The removal of the saved patients on close is not modelled.
- React rendering, menus, long-press timers, dark mode, navigation, `alert`, `confirm` and `onLogout`. These are UI only.
- Real time. The 10 s delay is not modelled: a pending removal fires whenever `Fire` is applied.
- Clock and parsing inputs. `Date.now`, `Date.parse` and the ISO stamp are parameters. Only the text branch of the date normaliser is modelled.
- `sha256`, `randomSalt` and `crypto.subtle`. The hash and salt are parameters.
- supabase.js and the cloud status check. They are network code around a library that is not part of this model.
- Unicode beyond the listed letters. `normalize('NFD')` and `\p{Diacritic}` are modelled as a table for the Polish letters plus the ASCII, Latin-1 and combining diacritic marks. `toLowerCase` covers ASCII, Latin-1 and Polish only.
- JavaScript prototype keys. A card or token such as `constructor` or `__proto__` is not modelled.
- The text of the duplicate alert and the order of its entries. The report is a map from card to count.
- The fix dialog after a blocked import. It never commits, and the pending parse is only carried in the outcome.
- Accounts.RegisterSpec: the password length is counted in code points, not the UTF-16 code units the source counts. Non-BMP characters are out of scope.
- Layouts.LocateColumns: the alias lists are written already normalised (`CardKeys` and the others beside the source's own lists). That each equals `normalizeHeader` of the source's spellings is checked by eye, not proved. Evaluating the normaliser on literal strings is too costly for the verifier.
- Queues.ToggleDone: `toggleDone` on a kind with no queue throws in the source. The model returns the state unchanged.
- Registry.CloseThenRestore: the restored object also carries a `card` property, because the button at main.jsx:469 passes `{card, ...p}`. A record here has no such field, so the restored record equals the archived one only up to that extra property.
- ArchiveView.EditArchived: `a` is one archive view's copy, not what is stored. The two mounted views can overwrite each other's changes; `ArchiveView.Views` models that, and the finding below records it.
- ArchiveView.DeleteTour: `a` is one archive view's copy, not what is stored. The two mounted views can overwrite each other's changes; `ArchiveView.Views` models that, and the finding below records it.
- Queues.MoveUpSpec: the source's fallback id `${card}-${desc}` for entries without an id is not modelled. Every entry built by enrolment has an id.

## Findings

| source | as written | input that shows it | evidently intended | confidence | as-written member | corrected member |
|---|---|---|---|---|---|---|
| main.jsx:996 | `parsedV2` is declared with `let` inside the `try` block at lines 940-950, so at line 996 the name is unbound, `typeof parsedV2` is "undefined", and the override never replaces the row parse | an empty registry and the sheet `[["Numer karty", "Imię", "", ""], ["1", "A", "", "x"]]`, which the reader gives as the row `{"Numer karty": "1", "Imię": "A", "__EMPTY": "", "__EMPTY_1": "x"}` and as that cell matrix. The new format finds no slot column, the block layout reads "x" in column D as a "Prądy" treatment, yet card "1" is committed without any | commit the positional parse (new format, else block layout) whenever it holds a treatment, as the `OVERRIDE_V2` comment says | high; not executed | Import.ImportFile, Import.OverrideNeverApplied, Import.OverrideCounterexample | Import.ImportFileIntended, Import.ImportFileIntendedCommits |
| main.jsx:367-373 | the "Tura" section (line 1383) mounts two archive views; each reads the whole `archivedTours` once, when it mounts, and every edit or delete writes that whole copy back | one AMBU tour and one DZIENNI tour stored; delete the AMBU tour in the AMBU view, then save an edit of the DZIENNI tour in the DZIENNI view: the stored archive holds the AMBU tour again | each view's write changes only its own cohort in what is stored | medium; not executed | ArchiveView.ViewDelete, ArchiveView.ViewEdit, ArchiveView.DeletedTourComesBack | ArchiveView.SharedDelete, ArchiveView.SharedEdit, ArchiveView.DeletedTourStaysDeleted |

=== FILE: accounts.dfy ===
/** The local account registration checks (main.jsx:557-568). The salt, the
    clock and the hash are parameters: the source draws the salt at random and
    hashes with SHA-256. */
module Accounts {
  import opened Text

  datatype User = User(username: string, salt: string, hash: string, createdAt: int)

  /** Why a registration is refused, in the order the form checks. */
  datatype Refusal = NoUsername | ShortPassword | PasswordsDiffer | UsernameTaken

  datatype Registration = Refused(why: Refusal) | Registered(users: seq<User>)

  /** The message the form shows for each refusal. */
  function Message(why: Refusal): string {
    match why
    case NoUsername => "Podaj nazwę użytkownika."
    case ShortPassword => "Hasło musi mieć min. 6 znaków."
    case PasswordsDiffer => "Hasła się nie zgadzają."
    case UsernameTaken => "Taki użytkownik już istnieje."
  }

  const MinPasswordLength: nat := 6

  /** Some stored user has the same name up to letter case. */
  predicate Taken(users: seq<User>, username: string) {
    exists i :: 0 <= i < |users| && Lower(users[i].username) == Lower(username)
  }

  /** The registration form's submit: the name must not be blank, the password
      at least six characters and typed twice alike, and the name free up to
      case; then the user is appended with the name as typed (untrimmed) and the
      hash of `password + ":" + salt`. */
  function Register(users: seq<User>, username: string, password: string, repeat: string,
                    salt: string, now: int, hash: string -> string): Registration
  {
    if Trim(username) == "" then Refused(NoUsername)
    else if |password| < MinPasswordLength then Refused(ShortPassword)
    else if password != repeat then Refused(PasswordsDiffer)
    else if Taken(users, username) then Refused(UsernameTaken)
    else Registered(users + [User(username, salt, hash(password + ":" + salt), now)])
  }

  /** No two stored users share a name up to letter case. */
  predicate DistinctNames(users: seq<User>) {
    forall i, j :: 0 <= i < j < |users| ==> Lower(users[i].username) != Lower(users[j].username)
  }

  /** A registration succeeds exactly when every check passes, and then appends
      exactly one user; a refusal names the first check that failed. */
  lemma RegisterSpec(users: seq<User>, username: string, password: string, repeat: string,
                     salt: string, now: int, hash: string -> string)
    ensures var r := Register(users, username, password, repeat, salt, now, hash);
      && (r.Registered? <==>
            Trim(username) != "" && |password| >= MinPasswordLength && password == repeat && !Taken(users, username))
      && (r.Registered? ==>
            r.users[..|users|] == users && |r.users| == |users| + 1
            && r.users[|users|] == User(username, salt, hash(password + ":" + salt), now))
      && (r.Refused? && r.why == NoUsername ==> Trim(username) == "")
      && (r.Refused? && r.why == ShortPassword ==> Trim(username) != "" && |password| < MinPasswordLength)
      && (r.Refused? && r.why == PasswordsDiffer ==>
            Trim(username) != "" && |password| >= MinPasswordLength && password != repeat)
      && (r.Refused? && r.why == UsernameTaken ==>
            Trim(username) != "" && |password| >= MinPasswordLength && password == repeat && Taken(users, username))
  {
  }

  /** Registration keeps user names distinct up to case. */
  lemma RegisterKeepsNamesDistinct(users: seq<User>, username: string, password: string, repeat: string,
                                   salt: string, now: int, hash: string -> string)
    requires DistinctNames(users)
    ensures var r := Register(users, username, password, repeat, salt, now, hash);
      r.Registered? ==> DistinctNames(r.users)
  {
    var r := Register(users, username, password, repeat, salt, now, hash);
    if r.Registered? {
      var us := r.users;
      forall i, j | 0 <= i < j < |us| ensures Lower(us[i].username) != Lower(us[j].username) {
        assert us[i] == users[i];
        if j < |users| {
          assert us[j] == users[j];
        }
      }
    }
  }

  /** A name that differs from a stored one only in letter case is refused. */
  lemma CaseVariantRefused(users: seq<User>, k: int, username: string, password: string,
                           salt: string, now: int, hash: string -> string)
    requires 0 <= k < |users| && Lower(users[k].username) == Lower(username)
    requires Trim(username) != "" && |password| >= MinPasswordLength
    ensures Register(users, username, password, password, salt, now, hash) == Refused(UsernameTaken)
  {
  }
}

=== FILE: accumulate.dfy ===
/** How every parser folds its rows into a parse result (main.jsx:742-747,
    796-803, 875-888): the first row of a card creates its record, a later row
    fills the name or time only while they are still empty, and each row's
    treatments are appended in row order. */
module Accumulation {
  import opened Model

  /** What one accepted spreadsheet row contributes: its card, name, arrival
      time ("" when the parser reads none) and treatments. */
  datatype RowRecord = RowRecord(card: string, name: string, time: string, treatments: seq<Treatment>)

  /** `x || y` on strings: the first unless it is empty. */
  function OrElse(x: string, y: string): string {
    if x != "" then x else y
  }

  /** One parser step on the card of `r`. */
  function Merge(parsed: Registry, r: RowRecord): Registry {
    if r.card in parsed then
      var p := parsed[r.card];
      parsed[r.card := p.(name := OrElse(p.name, r.name),
                          time := OrElse(p.time, r.time),
                          treatments := p.treatments + r.treatments)]
    else
      parsed[r.card := Patient(r.name, r.time, r.treatments, None)]
  }

  /** The parse result of a sequence of accepted rows, folded left to right. */
  function Accumulate(recs: seq<RowRecord>): Registry {
    if recs == [] then map[] else Merge(Accumulate(recs[..|recs| - 1]), recs[|recs| - 1])
  }

  // Reference definitions, read per card straight off the rows.

  /** The cards that occur in the rows. */
  function Cards(recs: seq<RowRecord>): set<string> {
    set i | 0 <= i < |recs| :: recs[i].card
  }

  /** All treatments of the rows of `card`, in row order. */
  function TreatmentsOf(recs: seq<RowRecord>, card: string): seq<Treatment> {
    if recs == [] then []
    else (if recs[0].card == card then recs[0].treatments else []) + TreatmentsOf(recs[1..], card)
  }

  /** The first non-empty value of `field` among the rows of `card`, or "". */
  function FirstFilled(recs: seq<RowRecord>, card: string, field: RowRecord -> string): string {
    if recs == [] then ""
    else if recs[0].card == card && field(recs[0]) != "" then field(recs[0])
    else FirstFilled(recs[1..], card, field)
  }

  function NameField(r: RowRecord): string { r.name }
  function TimeField(r: RowRecord): string { r.time }

  /** The record a card ends up with, described without the fold. */
  function Expected(recs: seq<RowRecord>, card: string): Patient {
    Patient(FirstFilled(recs, card, NameField), FirstFilled(recs, card, TimeField), TreatmentsOf(recs, card), None)
  }

  lemma {:induction false} TreatmentsOfSnoc(recs: seq<RowRecord>, r: RowRecord, card: string)
    ensures TreatmentsOf(recs + [r], card) == TreatmentsOf(recs, card) + (if r.card == card then r.treatments else [])
  {
    if recs != [] {
      assert (recs + [r])[1..] == recs[1..] + [r];
      TreatmentsOfSnoc(recs[1..], r, card);
    } else {
      assert [r][1..] == [];
    }
  }

  lemma {:induction false} FirstFilledSnoc(recs: seq<RowRecord>, r: RowRecord, card: string, field: RowRecord -> string)
    ensures FirstFilled(recs + [r], card, field) == OrElse(FirstFilled(recs, card, field), if r.card == card then field(r) else "")
  {
    if recs != [] {
      assert (recs + [r])[1..] == recs[1..] + [r];
      FirstFilledSnoc(recs[1..], r, card, field);
    } else {
      assert [r][1..] == [];
    }
  }

  lemma {:induction false} AbsentCard(recs: seq<RowRecord>, card: string, field: RowRecord -> string)
    requires card !in Cards(recs)
    ensures TreatmentsOf(recs, card) == []
    ensures FirstFilled(recs, card, field) == ""
  {
    if recs != [] {
      assert Cards(recs[1..]) <= Cards(recs) by {
        forall c | c in Cards(recs[1..]) ensures c in Cards(recs) {
          var i :| 0 <= i < |recs[1..]| && recs[1..][i].card == c;
          assert recs[i + 1].card == c;
        }
      }
      assert recs[0].card in Cards(recs);
      AbsentCard(recs[1..], card, field);
    }
  }

  /** The fold agrees with the per-card reading: a card has a record exactly
      when some row carries it, and that record holds the first non-empty name
      and time of its rows and all their treatments in row order. */
  lemma {:induction false} AccumulateSpec(recs: seq<RowRecord>)
    ensures Accumulate(recs).Keys == Cards(recs)
    ensures forall card :: card in Accumulate(recs) ==> Accumulate(recs)[card] == Expected(recs, card)
  {
    if recs != [] {
      var init := recs[..|recs| - 1];
      var r := recs[|recs| - 1];
      assert recs == init + [r];
      AccumulateSpec(init);
      CardsSnoc(init, r);
      forall card | card in Accumulate(recs) ensures Accumulate(recs)[card] == Expected(recs, card) {
        MergeStep(init, r, card);
      }
    }
  }

  lemma CardsSnoc(init: seq<RowRecord>, r: RowRecord)
    ensures Cards(init + [r]) == Cards(init) + {r.card}
  {
    var recs := init + [r];
    forall c | c in Cards(recs) ensures c in Cards(init) + {r.card} {
      var i :| 0 <= i < |recs| && recs[i].card == c;
      if i < |init| { assert init[i].card == c; }
    }
    forall c | c in Cards(init) ensures c in Cards(recs) {
      var i :| 0 <= i < |init| && init[i].card == c;
      assert recs[i].card == c;
    }
    assert recs[|init|].card == r.card;
  }

  /** One more row keeps the fold equal to the per-card reading for `card`. */
  lemma MergeStep(init: seq<RowRecord>, r: RowRecord, card: string)
    requires Accumulate(init).Keys == Cards(init)
    requires card in Accumulate(init) ==> Accumulate(init)[card] == Expected(init, card)
    requires card in Merge(Accumulate(init), r)
    ensures Merge(Accumulate(init), r)[card] == Expected(init + [r], card)
  {
    TreatmentsOfSnoc(init, r, card);
    FirstFilledSnoc(init, r, card, NameField);
    FirstFilledSnoc(init, r, card, TimeField);
    if card !in Cards(init) {
      AbsentCard(init, card, NameField);
      AbsentCard(init, card, TimeField);
    }
  }

  /** A card's treatment list is non-empty exactly when one of its rows has a treatment. */
  lemma {:induction false} TreatmentsOfNonEmpty(recs: seq<RowRecord>, card: string)
    ensures TreatmentsOf(recs, card) != [] <==>
      exists i :: 0 <= i < |recs| && recs[i].card == card && recs[i].treatments != []
  {
    if recs != [] {
      TreatmentsOfNonEmpty(recs[1..], card);
      if exists i :: 0 <= i < |recs| && recs[i].card == card && recs[i].treatments != [] {
        var i :| 0 <= i < |recs| && recs[i].card == card && recs[i].treatments != [];
        if i > 0 { assert recs[1..][i - 1] == recs[i]; }
      }
      if exists i :: 0 <= i < |recs[1..]| && recs[1..][i].card == card && recs[1..][i].treatments != [] {
        var i :| 0 <= i < |recs[1..]| && recs[1..][i].card == card && recs[1..][i].treatments != [];
        assert recs[i + 1] == recs[1..][i];
      }
    }
  }

  /** The parse result has a treatment exactly when some accepted row has one. */
  lemma AccumulateHasTreatments(recs: seq<RowRecord>)
    ensures HasTreatments(Accumulate(recs)) <==> exists i :: 0 <= i < |recs| && recs[i].treatments != []
  {
    AccumulateSpec(recs);
    var m := Accumulate(recs);
    if HasTreatments(m) {
      var card :| card in m && m[card].treatments != [];
      TreatmentsOfNonEmpty(recs, card);
    }
    if i :| 0 <= i < |recs| && recs[i].treatments != [] {
      var card := recs[i].card;
      assert card in Cards(recs);
      TreatmentsOfNonEmpty(recs, card);
      assert m[card].treatments != [];
    }
  }
}

=== FILE: archive.dfy ===
/** The archive of closed tours as the archive view handles it (main.jsx:365-443):
    the 20-day expiry when the view opens, the search inside a tour, the edit of
    an archived record and the deletion of a tour. */
module ArchiveView {
  import opened Text
  import opened Model

  /** Twenty days in milliseconds. */
  const ExpiryMillis: int := 20 * 24 * 60 * 60 * 1000

  /** The stamp a tour is dated by: `t.id || t.archivedAt || ""`. */
  function StampOf(t: ArchivedTour): string {
    if t.id != "" then t.id else t.archivedAt
  }

  /** A tour survives when its stamp parses and is not older than the cutoff.
      `parse` stands for `Date.parse`, with `None` for NaN. */
  predicate Fresh(t: ArchivedTour, cutoff: int, parse: string -> Option<int>) {
    parse(StampOf(t)).Some? && parse(StampOf(t)).value >= cutoff
  }

  /** The fresh tours of a list, in order. */
  function FreshTours(ts: seq<ArchivedTour>, cutoff: int, parse: string -> Option<int>): (r: seq<ArchivedTour>)
    ensures |r| <= |ts|
    ensures forall t :: t in r <==> t in ts && Fresh(t, cutoff, parse)
  {
    if ts == [] then []
    else (if Fresh(ts[0], cutoff, parse) then [ts[0]] else []) + FreshTours(ts[1..], cutoff, parse)
  }

  /** The expiry run at time `now`: both cohorts' lists are filtered, and the
      result is kept only when some list got shorter. */
  function Expire(a: Archive, now: int, parse: string -> Option<int>): Archive {
    var cutoff := now - ExpiryMillis;
    var next := map[Ambu := FreshTours(Tours(a, Ambu), cutoff, parse), Dzienni := FreshTours(Tours(a, Dzienni), cutoff, parse)];
    if |next[Ambu]| != |Tours(a, Ambu)| || |next[Dzienni]| != |Tours(a, Dzienni)| then next else a
  }

  /** A filter that removes nothing returns its input. */
  lemma {:induction false} FreshToursAll(ts: seq<ArchivedTour>, cutoff: int, parse: string -> Option<int>)
    requires |FreshTours(ts, cutoff, parse)| == |ts|
    ensures FreshTours(ts, cutoff, parse) == ts
  {
    if ts != [] {
      var rest := FreshTours(ts[1..], cutoff, parse);
      if !Fresh(ts[0], cutoff, parse) {
        assert false;
      } else {
        FreshToursAll(ts[1..], cutoff, parse);
      }
    }
  }

  /** After the expiry each cohort's archive holds exactly its tours stamped
      within the last twenty days, in their original order. */
  lemma ExpireSpec(a: Archive, now: int, parse: string -> Option<int>, c: Cohort)
    ensures Tours(Expire(a, now, parse), c) == FreshTours(Tours(a, c), now - ExpiryMillis, parse)
    ensures forall t :: t in Tours(Expire(a, now, parse), c) <==>
      t in Tours(a, c) && parse(StampOf(t)).Some? && parse(StampOf(t)).value >= now - ExpiryMillis
  {
    var cutoff := now - ExpiryMillis;
    if Expire(a, now, parse) == a {
      if |FreshTours(Tours(a, Ambu), cutoff, parse)| == |Tours(a, Ambu)| {
        FreshToursAll(Tours(a, Ambu), cutoff, parse);
      }
      if |FreshTours(Tours(a, Dzienni), cutoff, parse)| == |Tours(a, Dzienni)| {
        FreshToursAll(Tours(a, Dzienni), cutoff, parse);
      }
    }
  }

  /** Running the expiry twice at the same time removes nothing more. */
  lemma ExpireIdempotent(a: Archive, now: int, parse: string -> Option<int>, c: Cohort)
    ensures Tours(Expire(Expire(a, now, parse), now, parse), c) == Tours(Expire(a, now, parse), c)
  {
    var e := Expire(a, now, parse);
    ExpireSpec(a, now, parse, c);
    ExpireSpec(e, now, parse, c);
    FreshTwice(Tours(a, c), now - ExpiryMillis, parse);
  }

  lemma {:induction false} FreshTwice(ts: seq<ArchivedTour>, cutoff: int, parse: string -> Option<int>)
    ensures FreshTours(FreshTours(ts, cutoff, parse), cutoff, parse) == FreshTours(ts, cutoff, parse)
  {
    if ts != [] {
      FreshTwice(ts[1..], cutoff, parse);
      var rest := FreshTours(ts[1..], cutoff, parse);
      if Fresh(ts[0], cutoff, parse) {
        var r := [ts[0]] + rest;
        assert FreshTours(ts, cutoff, parse) == r;
        assert r[0] == ts[0] && r[1..] == rest;
        assert FreshTours(r, cutoff, parse) == [ts[0]] + FreshTours(rest, cutoff, parse);
      } else {
        assert FreshTours(ts, cutoff, parse) == rest;
      }
    }
  }

  // ---------------------------------------------------------------------------
  // Search inside a tour (main.jsx:397-403)

  /** The cards of a tour (in the tour's enumeration order `order`) whose
      lower-cased card or name contains the lower-cased query; nothing for an
      empty query. */
  function TourSearch(tour: ArchivedTour, order: seq<string>, s: string): (hits: seq<string>)
    ensures forall c :: c in hits <==>
      s != "" && c in order && c in tour.patients
      && (Contains(Lower(c), Lower(s)) || Contains(Lower(tour.patients[c].name), Lower(s)))
  {
    if s == "" || order == [] then []
    else
      var c := order[0];
      (if c in tour.patients && (Contains(Lower(c), Lower(s)) || Contains(Lower(tour.patients[c].name), Lower(s))) then [c] else [])
      + TourSearch(tour, order[1..], s)
  }

  // ---------------------------------------------------------------------------
  // Edit and delete (main.jsx:419-430, 443)

  /** `saveEdit` of the archive view on tour `idx` of cohort `c`: a renamed record
      leaves its old card, and the new card's record (or an empty one) gets the
      edited name and treatments. Nothing happens for a missing tour. */
  function EditArchived(a: Archive, c: Cohort, idx: nat, origCard: string, card: string, name: string, treatments: seq<Treatment>): Archive {
    var tours := Tours(a, c);
    if idx >= |tours| then a
    else
      var t := tours[idx];
      var pats := if origCard != card then t.patients - {origCard} else t.patients;
      var base := if card in pats then pats[card] else Patient("", "", [], None);
      a[c := tours[idx := t.(patients := pats[card := base.(name := name, treatments := treatments)])]]
  }

  /** The tour delete button: tour `idx` of cohort `c` is removed; nothing happens
      for a missing tour. */
  function DeleteTour(a: Archive, c: Cohort, idx: nat): Archive {
    var tours := Tours(a, c);
    if idx >= |tours| then a else a[c := tours[..idx] + tours[idx + 1..]]
  }

  /** An edit touches one record of one tour: the edited card holds the new name
      and treatments, a renamed card is gone, and the other records, tours and
      cohort stay. The edited fields land on the record already held by the new
      card, keeping its time and cohort; a rename onto a card the tour lacks
      creates a record with neither, so the renamed patient loses both. */
  lemma EditArchivedSpec(a: Archive, c: Cohort, other: Cohort, idx: nat, origCard: string, card: string, name: string, treatments: seq<Treatment>)
    requires other != c && idx < |Tours(a, c)|
    ensures var r := EditArchived(a, c, idx, origCard, card, name, treatments);
      var before := Tours(a, c)[idx].patients; var after := Tours(r, c)[idx].patients;
      && |Tours(r, c)| == |Tours(a, c)|
      && (forall j :: 0 <= j < |Tours(a, c)| && j != idx ==> Tours(r, c)[j] == Tours(a, c)[j])
      && Tours(r, other) == Tours(a, other)
      && Tours(r, c)[idx].id == Tours(a, c)[idx].id && Tours(r, c)[idx].name == Tours(a, c)[idx].name
      && card in after && after[card].name == name && after[card].treatments == treatments
      && (origCard != card ==> origCard !in after)
      && (forall k :: k in before && k != origCard && k != card ==> k in after && after[k] == before[k])
      && (forall k :: k in after ==> k in before || k == card)
      && (card in before ==> after[card] == before[card].(name := name, treatments := treatments))
      && (card !in before ==> after[card] == Patient(name, "", treatments, None))
  {
  }

  /** Editing a missing tour changes nothing. */
  lemma EditMissingTour(a: Archive, c: Cohort, idx: nat, origCard: string, card: string, name: string, treatments: seq<Treatment>)
    requires idx >= |Tours(a, c)|
    ensures EditArchived(a, c, idx, origCard, card, name, treatments) == a
  {
  }

  /** Deleting a tour removes exactly it: the tours before keep their places and
      those after move up by one; the other cohort is untouched. */
  lemma DeleteTourSpec(a: Archive, c: Cohort, other: Cohort, idx: nat)
    requires other != c
    ensures var r := DeleteTour(a, c, idx); var ts := Tours(a, c);
      && Tours(r, other) == Tours(a, other)
      && (idx >= |ts| ==> r == a)
      && (idx < |ts| ==>
            && |Tours(r, c)| == |ts| - 1
            && (forall j :: 0 <= j < idx ==> Tours(r, c)[j] == ts[j])
            && (forall j :: idx <= j < |ts| - 1 ==> Tours(r, c)[j] == ts[j + 1]))
  {
  }

  // ---------------------------------------------------------------------------
  // The two mounted views (main.jsx:367-373, 1383)

  /** What is stored, and the copy each of the two archive views holds: the
      section mounts one view per cohort, and each reads the whole archive once,
      when it mounts. */
  datatype Views = Views(stored: Archive, ambuCopy: Archive, dzienniCopy: Archive)

  /** Both views open on what is stored. */
  function Mount(stored: Archive): (v: Views)
    ensures v.stored == v.ambuCopy == v.dzienniCopy == stored
  {
    Views(stored, stored, stored)
  }

  /** The copy held by the view of cohort `c`. */
  function CopyOf(v: Views, c: Cohort): Archive {
    if c == Ambu then v.ambuCopy else v.dzienniCopy
  }

  /** `persistArchived` of the view of cohort `c`: the whole `next` becomes both
      that view's copy and what is stored. */
  function Persist(v: Views, c: Cohort, next: Archive): Views {
    if c == Ambu then v.(stored := next, ambuCopy := next) else v.(stored := next, dzienniCopy := next)
  }

  /** As written: the delete button of view `c` deletes from its own copy and
      stores that copy, even when nothing was deleted. */
  function ViewDelete(v: Views, c: Cohort, idx: nat): Views {
    Persist(v, c, DeleteTour(CopyOf(v, c), c, idx))
  }

  /** As written: a saved edit in view `c` rewrites its own copy and stores it;
      for a missing tour nothing is stored. */
  function ViewEdit(v: Views, c: Cohort, idx: nat, origCard: string, card: string, name: string, treatments: seq<Treatment>): Views {
    if idx >= |Tours(CopyOf(v, c), c)| then v
    else Persist(v, c, EditArchived(CopyOf(v, c), c, idx, origCard, card, name, treatments))
  }

  /** As written, a write from one view stores that view's copy of the other
      cohort, whatever is stored for it at the time. */
  lemma ViewEditStoresStaleCopy(v: Views, c: Cohort, other: Cohort, idx: nat, origCard: string, card: string, name: string, treatments: seq<Treatment>)
    requires other != c && idx < |Tours(CopyOf(v, c), c)|
    ensures Tours(ViewEdit(v, c, idx, origCard, card, name, treatments).stored, other) == Tours(CopyOf(v, c), other)
  {
    EditArchivedSpec(CopyOf(v, c), c, other, idx, origCard, card, name, treatments);
  }

  /** As written, deleting a tour in the AMBU view and then saving an edit in the
      DZIENNI view puts the deleted tour back into what is stored. */
  lemma DeletedTourComesBack(a: Archive, idx: nat, j: nat, origCard: string, card: string, name: string, treatments: seq<Treatment>)
    requires idx < |Tours(a, Ambu)| && j < |Tours(a, Dzienni)|
    ensures var v1 := ViewDelete(Mount(a), Ambu, idx);
      var v2 := ViewEdit(v1, Dzienni, j, origCard, card, name, treatments);
      && |Tours(v1.stored, Ambu)| == |Tours(a, Ambu)| - 1
      && Tours(v2.stored, Ambu) == Tours(a, Ambu)
  {
    var v1 := ViewDelete(Mount(a), Ambu, idx);
    DeleteTourSpec(a, Ambu, Dzienni, idx);
    assert CopyOf(v1, Dzienni) == a;
    ViewEditStoresStaleCopy(v1, Dzienni, Ambu, j, origCard, card, name, treatments);
  }

  /** Corrected: the delete of view `c` works on what is stored at that moment. */
  function SharedDelete(v: Views, c: Cohort, idx: nat): Views {
    Persist(v, c, DeleteTour(v.stored, c, idx))
  }

  /** Corrected: a saved edit of view `c` works on what is stored at that moment. */
  function SharedEdit(v: Views, c: Cohort, idx: nat, origCard: string, card: string, name: string, treatments: seq<Treatment>): Views {
    if idx >= |Tours(v.stored, c)| then v
    else Persist(v, c, EditArchived(v.stored, c, idx, origCard, card, name, treatments))
  }

  /** With the corrected writes, what one view stores leaves the other cohort as
      it is stored, whatever either view's copy holds. */
  lemma SharedWritesKeepOtherCohort(v: Views, c: Cohort, other: Cohort, idx: nat, origCard: string, card: string, name: string, treatments: seq<Treatment>)
    requires other != c
    ensures Tours(SharedDelete(v, c, idx).stored, other) == Tours(v.stored, other)
    ensures Tours(SharedEdit(v, c, idx, origCard, card, name, treatments).stored, other) == Tours(v.stored, other)
  {
    DeleteTourSpec(v.stored, c, other, idx);
    if idx < |Tours(v.stored, c)| {
      EditArchivedSpec(v.stored, c, other, idx, origCard, card, name, treatments);
    }
  }

  /** With the corrected writes, a tour deleted in the AMBU view stays deleted
      after an edit is saved in the DZIENNI view. */
  lemma DeletedTourStaysDeleted(a: Archive, idx: nat, j: nat, origCard: string, card: string, name: string, treatments: seq<Treatment>)
    requires idx < |Tours(a, Ambu)|
    ensures var v1 := SharedDelete(Mount(a), Ambu, idx);
      var v2 := SharedEdit(v1, Dzienni, j, origCard, card, name, treatments);
      && |Tours(v2.stored, Ambu)| == |Tours(a, Ambu)| - 1
      && Tours(v2.stored, Ambu) == Tours(DeleteTour(a, Ambu, idx), Ambu)
  {
    var v1 := SharedDelete(Mount(a), Ambu, idx);
    DeleteTourSpec(a, Ambu, Dzienni, idx);
    SharedWritesKeepOtherCohort(v1, Dzienni, Ambu, j, origCard, card, name, treatments);
  }
}

=== FILE: cohorts.dfy ===
/** The cohort lifecycle (main.jsx:653-670, 1048-1075): the day counters, the
    start date, clearing a cohort's queue entries and closing a cohort into the
    archive. */
module Cohorts {
  import opened Model
  import opened Queues

  /** The registered cards of a cohort. */
  function CohortCards(reg: Registry, which: Cohort): (cards: set<string>)
    ensures forall c :: c in cards <==> c in reg && reg[c].cohort == Some(which)
  {
    set c | c in reg && reg[c].cohort == Some(which)
  }

  /** `clearQueuesForCohort`: every queue drops the entries whose card is a
      registered patient of the cohort. */
  function ClearQueuesForCohort(st: AppState, which: Cohort): AppState {
    st.(queues := DropCards(st.queues, CohortCards(st.patients, which)))
  }

  /** `incCohortDay`: a new day clears the cohort's queue entries and advances
      its counter (an unset counter counts as 0). */
  function IncCohortDay(st: AppState, which: Cohort): AppState {
    var cleared := ClearQueuesForCohort(st, which);
    cleared.(cohortDays := cleared.cohortDays[which := Day(st, which) + 1])
  }

  /** `resetCohortDay`: the cohort's day counter goes back to 1. */
  function ResetCohortDay(st: AppState, which: Cohort): AppState {
    st.(cohortDays := st.cohortDays[which := 1])
  }

  /** `setCohortStarted`: records `today` unless a start date is already set. */
  function SetCohortStarted(st: AppState, which: Cohort, today: string): AppState {
    st.(cohortStart := st.cohortStart[which := if StartDate(st, which) != "" then StartDate(st, which) else today])
  }

  /** The patients of `reg` whose cohort is `which` (`keep`) or is not (`!keep`). */
  function SelectCohort(reg: Registry, which: Cohort, keep: bool): (r: Registry)
    ensures forall c :: c in r <==> c in reg && (reg[c].cohort == Some(which)) == keep
    ensures forall c :: c in r ==> r[c] == reg[c]
  {
    map c | c in reg && (reg[c].cohort == Some(which)) == keep :: reg[c]
  }

  /** The name a closed tour gets: the last file imported for the cohort, if any. */
  function TourName(st: AppState, which: Cohort): Option<string> {
    if which in st.lastFileName && st.lastFileName[which] != "" then Some(st.lastFileName[which]) else None
  }

  /** `closeCohort` at time `stamp`: the cohort's patients leave the registry and
      every queue, and one tour holding exactly them is appended to the cohort's
      archive. */
  function CloseCohort(st: AppState, which: Cohort, stamp: string): AppState {
    var removed := SelectCohort(st.patients, which, true);
    st.(patients := SelectCohort(st.patients, which, false),
        queues := DropCards(st.queues, removed.Keys),
        archived := st.archived[which := Tours(st.archived, which) + [ArchivedTour(stamp, "", TourName(st, which), removed)]])
  }

  // ---------------------------------------------------------------------------
  // Properties

  /** A filter that drops nothing returns the queue unchanged. */
  lemma {:induction false} WithoutCardsKeeps(q: seq<QueueEntry>, drop: set<string>)
    requires forall e :: e in q ==> e.card !in drop
    ensures WithoutCards(q, drop) == q
  {
    if q != [] {
      assert forall e :: e in q[1..] ==> e in q;
      WithoutCardsKeeps(q[1..], drop);
    }
  }

  /** A new day: the registry, the start dates and the other cohort's counter are
      untouched, the counter goes up by one, and a queue entry stays exactly when
      its card is not a registered patient of the cohort. */
  lemma IncCohortDaySpec(st: AppState, which: Cohort, other: Cohort)
    requires other != which
    ensures var r := IncCohortDay(st, which);
      && r.patients == st.patients && r.cohortStart == st.cohortStart && r.archived == st.archived
      && Day(r, which) == Day(st, which) + 1
      && Day(r, other) == Day(st, other)
      && r.queues.Keys == st.queues.Keys
      && (forall k, e :: k in st.queues ==>
            (e in r.queues[k] <==> e in st.queues[k] && !(e.card in st.patients && st.patients[e.card].cohort == Some(which))))
  {
  }

  /** Entries of cards outside the cohort, and of cards not in the registry, are
      never cleared; a queue without such cards is left whole. */
  lemma ClearQueuesKeepsOthers(st: AppState, which: Cohort, k: string)
    requires k in st.queues
    requires forall e :: e in st.queues[k] ==> e.card !in CohortCards(st.patients, which)
    ensures ClearQueuesForCohort(st, which).queues[k] == st.queues[k]
  {
    WithoutCardsKeeps(st.queues[k], CohortCards(st.patients, which));
  }

  /** Resetting sets the counter to 1 and touches nothing else. */
  lemma ResetCohortDaySpec(st: AppState, which: Cohort, other: Cohort)
    requires other != which
    ensures var r := ResetCohortDay(st, which);
      Day(r, which) == 1 && Day(r, other) == Day(st, other) && r.(cohortDays := st.cohortDays) == st
  {
  }

  /** The start date is written only when empty, so a second start with any date
      keeps the first one. */
  lemma SetCohortStartedSpec(st: AppState, which: Cohort, today: string, later: string)
    requires today != ""
    ensures var r := SetCohortStarted(st, which, today);
      && StartDate(r, which) == (if StartDate(st, which) == "" then today else StartDate(st, which))
      && SetCohortStarted(r, which, later) == r
  {
  }

  /** Closing a cohort partitions the registry: the patients that remain are
      exactly those of other cohorts (or none), the archived tour holds exactly
      the cohort's patients, and together they are the registry before. */
  lemma CloseCohortPartition(st: AppState, which: Cohort, stamp: string)
    ensures var r := CloseCohort(st, which, stamp); var tour := Tours(r.archived, which)[|Tours(r.archived, which)| - 1];
      && (forall c :: c in r.patients <==> c in st.patients && st.patients[c].cohort != Some(which))
      && (forall c :: c in tour.patients <==> c in st.patients && st.patients[c].cohort == Some(which))
      && r.patients.Keys !! tour.patients.Keys
      && r.patients + tour.patients == st.patients
  {
    var r := CloseCohort(st, which, stamp);
    var tour := Tours(r.archived, which)[|Tours(r.archived, which)| - 1];
    assert r.patients + tour.patients == st.patients by {
      forall c | c in st.patients ensures c in r.patients + tour.patients && (r.patients + tour.patients)[c] == st.patients[c] {
      }
    }
  }

  /** Closing appends exactly one tour, stamped and named after the last import,
      to the cohort's archive; the other cohort's archive, the day counters, the
      start dates and the pending removals are untouched; every queue keeps
      exactly the entries of cards that were not removed. */
  lemma CloseCohortSpec(st: AppState, which: Cohort, other: Cohort, stamp: string)
    requires other != which
    ensures var r := CloseCohort(st, which, stamp);
      && |Tours(r.archived, which)| == |Tours(st.archived, which)| + 1
      && Tours(r.archived, which)[..|Tours(st.archived, which)|] == Tours(st.archived, which)
      && Tours(r.archived, which)[|Tours(st.archived, which)|].id == stamp
      && Tours(r.archived, which)[|Tours(st.archived, which)|].name == TourName(st, which)
      && Tours(r.archived, other) == Tours(st.archived, other)
      && r.cohortDays == st.cohortDays && r.cohortStart == st.cohortStart && r.timers == st.timers
      && r.queues.Keys == st.queues.Keys
      && (forall k, e :: k in st.queues ==>
            (e in r.queues[k] <==> e in st.queues[k] && e.card !in CohortCards(st.patients, which)))
  {
    var removed := SelectCohort(st.patients, which, true);
    assert removed.Keys == CohortCards(st.patients, which);
  }

  /** Dropping no card leaves every queue as it was. */
  lemma DropNoCards(qs: Model.Queues)
    ensures DropCards(qs, {}) == qs
  {
    forall k | k in qs ensures DropCards(qs, {})[k] == qs[k] {
      WithoutNoCards(qs[k]);
    }
  }

  /** A close for a cohort without patients removes nothing. */
  lemma CloseEmptyCohort(st: AppState, which: Cohort, stamp: string)
    requires CohortCards(st.patients, which) == {}
    ensures var r := CloseCohort(st, which, stamp);
      r.patients == st.patients && r.queues == st.queues
      && Tours(r.archived, which)[|Tours(r.archived, which)| - 1].patients == map[]
  {
    var removed := SelectCohort(st.patients, which, true);
    assert removed.Keys == {};
    DropNoCards(st.queues);
  }

  /** After a close the cohort has no patients left, so closing again archives an
      empty tour and leaves the registry and queues as they are. */
  lemma CloseCohortTwice(st: AppState, which: Cohort, stamp: string, stamp2: string)
    ensures var r := CloseCohort(st, which, stamp); var r2 := CloseCohort(r, which, stamp2);
      && CohortCards(r.patients, which) == {}
      && r2.patients == r.patients
      && r2.queues == r.queues
      && Tours(r2.archived, which)[|Tours(r2.archived, which)| - 1].patients == map[]
  {
    var r := CloseCohort(st, which, stamp);
    assert CohortCards(r.patients, which) == {};
    CloseEmptyCohort(r, which, stamp2);
  }

  /** Clearing, advancing and closing a cohort keep the queue invariant: they only
      drop entries and leave the pending removals alone. */
  lemma CohortOpsKeepInvariant(st: AppState, which: Cohort, stamp: string)
    requires QueueInvariant(st)
    ensures QueueInvariant(ClearQueuesForCohort(st, which))
    ensures QueueInvariant(IncCohortDay(st, which))
    ensures QueueInvariant(CloseCohort(st, which, stamp))
  {
    DropCardsKeepsInvariant(st, CohortCards(st.patients, which));
    DropCardsKeepsInvariant(st, SelectCohort(st.patients, which, true).Keys);
  }
}

=== FILE: columns.dfy ===
/** Spreadsheet column letters (`letterToIndex`, main.jsx:764-768). */
module Columns {

  /** A column label: upper-case ASCII letters only. */
  predicate IsLabel(s: string) {
    forall i :: 0 <= i < |s| ==> 'A' <= s[i] <= 'Z'
  }

  /** The label read as a base-26 numeral whose digits are character codes minus 64
      ('A' is 1, 'Z' is 26), most significant letter first. */
  function LabelValue(letters: string): int
  {
    if letters == [] then 0
    else LabelValue(letters[..|letters| - 1]) * 26 + (letters[|letters| - 1] as int - 64)
  }

  /** Zero-based column index of a label, as `letterToIndex` returns it. */
  function ColumnIndex(letters: string): int {
    LabelValue(letters) - 1
  }

  /** `letterToIndex`: the left-to-right accumulation loop of the source. */
  method LetterToIndex(letter: string) returns (index: int)
    ensures index == ColumnIndex(letter)
    ensures IsLabel(letter) && letter != [] ==> index >= 0
  {
    var num := 0;
    var i := 0;
    while i < |letter|
      invariant 0 <= i <= |letter|
      invariant num == LabelValue(letter[..i])
      invariant IsLabel(letter) ==> num >= 0
      invariant IsLabel(letter) && i > 0 ==> num >= 1
    {
      assert letter[..i + 1][..i] == letter[..i];
      num := num * 26 + (letter[i] as int - 64);
      i := i + 1;
    }
    assert letter[..|letter|] == letter;
    index := num - 1;
  }

  /** Bijective base-26 numeral of `v`; the empty label for 0. */
  function Numeral(v: nat): (s: string)
    ensures IsLabel(s)
    ensures v > 0 <==> s != []
    decreases v
  {
    if v == 0 then [] else Numeral((v - 1) / 26) + [(65 + (v - 1) % 26) as char]
  }

  /** The label of a zero-based column index: the inverse of `letterToIndex`. */
  function ColumnLabel(index: nat): string {
    Numeral(index + 1)
  }

  lemma {:induction false} ValueOfNumeral(v: nat)
    ensures LabelValue(Numeral(v)) == v
    decreases v
  {
    if v > 0 {
      var p := Numeral((v - 1) / 26);
      var s := Numeral(v);
      ValueOfNumeral((v - 1) / 26);
      assert s[..|s| - 1] == p;
      assert LabelValue(s) == LabelValue(p) * 26 + (v - 1) % 26 + 1;
    }
  }

  lemma {:induction false} NumeralOfValue(s: string)
    requires IsLabel(s)
    ensures LabelValue(s) >= 0
    ensures Numeral(LabelValue(s)) == s
    decreases |s|
  {
    if s != [] {
      var p := s[..|s| - 1];
      var d := s[|s| - 1] as int - 64;
      NumeralOfValue(p);
      var v := LabelValue(s);
      assert v == LabelValue(p) * 26 + d;
      assert 1 <= d <= 26;
      assert (v - 1) / 26 == LabelValue(p) && (v - 1) % 26 == d - 1 by {
        assert v - 1 == LabelValue(p) * 26 + (d - 1);
      }
      assert (65 + (d - 1)) as char == s[|s| - 1];
      assert s == p + [s[|s| - 1]];
    }
  }

  /** Reading back the label of an index gives the index. */
  lemma IndexOfColumnLabel(index: nat)
    ensures ColumnIndex(ColumnLabel(index)) == index
  {
    ValueOfNumeral(index + 1);
  }

  /** Every non-empty label is the label of its own index. */
  lemma ColumnLabelOfIndex(letters: string)
    requires IsLabel(letters) && letters != []
    ensures ColumnIndex(letters) >= 0
    ensures ColumnLabel(ColumnIndex(letters)) == letters
  {
    NumeralOfValue(letters);
  }

  /** A single letter names its position in the alphabet. */
  lemma SingleLetter(c: char)
    requires 'A' <= c <= 'Z'
    ensures ColumnIndex([c]) == c as int - 65
  {
    assert [c][..0] == [];
    assert LabelValue([c]) == LabelValue([]) * 26 + (c as int - 64);
  }
}

=== FILE: dates.dfy ===
/** The string branch of the spreadsheet date normaliser `formatDateCell`
    (main.jsx:724-738): dots and slashes become dashes, a day-month-year date
    becomes year-month-day with two-digit month and day, a year-month-day date is
    kept, and anything else is returned trimmed. */
module Dates {
  import opened Text

  /** `\d` in a JavaScript regular expression: an ASCII digit. */
  predicate IsDigit(c: char) {
    '0' <= c <= '9'
  }

  predicate AllDigits(s: string) {
    forall i :: 0 <= i < |s| ==> IsDigit(s[i])
  }

  /** Every dot and slash becomes a dash (`.replace(/\./g, "-").replace(/\//g, "-")`). */
  function Dashes(s: string): (r: string)
    ensures |r| == |s|
    ensures forall i :: 0 <= i < |s| ==> r[i] == (if s[i] == '.' || s[i] == '/' then '-' else s[i])
  {
    seq(|s|, i requires 0 <= i < |s| => if s[i] == '.' || s[i] == '/' then '-' else s[i])
  }

  /** Left-padded with "0" to two characters; a text of two or more stays as it is (`padStart(2, "0")`). */
  function Pad2(s: string): (r: string)
    ensures |s| <= 2 ==> |r| == 2
  {
    if |s| >= 2 then s else seq(2 - |s|, _ => '0') + s
  }

  /** Whether `s` is `d-m-y` with one or two digits of day and month and four of
      year, and where its two dashes are. */
  predicate DayMonthYearAt(s: string, i: int, j: int) {
    && 0 < i < j < |s|
    && s[i] == '-' && s[j] == '-'
    && 1 <= i <= 2 && 1 <= j - i - 1 <= 2 && |s| - j - 1 == 4
    && AllDigits(s[..i]) && AllDigits(s[i + 1..j]) && AllDigits(s[j + 1..])
  }

  /** An ISO date: four digits, a dash, two digits, a dash, two digits, nothing else. */
  predicate IsIsoDate(s: string) {
    |s| == 10 && s[4] == '-' && s[7] == '-'
    && AllDigits(s[..4]) && AllDigits(s[5..7]) && AllDigits(s[8..])
  }

  /** The first dash of a day-month-year string: after the first or the second character. */
  function FirstDash(s: string): int {
    if |s| > 1 && s[1] == '-' then 1 else 2
  }

  /** The second dash, the one four characters before the end. */
  function SecondDash(s: string): int {
    |s| - 5
  }

  /** The date branch for text cells. An empty value gives "". */
  function FormatDateText(val: string): (r: string)
  {
    if val == "" then ""
    else
      var s := Trim(val);
      var n := Dashes(s);
      if DayMonthYearAt(n, FirstDash(n), SecondDash(n)) then
        var i := FirstDash(n);
        var j := SecondDash(n);
        n[j + 1..] + "-" + Pad2(n[i + 1..j]) + "-" + Pad2(n[..i])
      else if IsIsoDate(n) then n
      else s
  }

  /** The dashes of a day-month-year date are where `FirstDash` and `SecondDash`
      look: any two positions that match are those. */
  lemma DashesFound(s: string, i: int, j: int)
    requires DayMonthYearAt(s, i, j)
    ensures i == FirstDash(s) && j == SecondDash(s)
  {
    if i == 2 {
      assert s[..i][1] == s[1];
    }
  }

  /** A day-month-year date written with dots, slashes or dashes becomes an
      ISO date whose year, month and day are the input's, zero-padded. */
  lemma DayMonthYearToIso(d: string, m: string, y: string, sep1: char, sep2: char)
    requires 1 <= |d| <= 2 && 1 <= |m| <= 2 && |y| == 4
    requires AllDigits(d) && AllDigits(m) && AllDigits(y)
    requires sep1 in "./-" && sep2 in "./-"
    ensures FormatDateText(d + [sep1] + m + [sep2] + y) == y + "-" + Pad2(m) + "-" + Pad2(d)
    ensures IsIsoDate(FormatDateText(d + [sep1] + m + [sep2] + y))
  {
    var v := d + [sep1] + m + [sep2] + y;
    DateTrimmed(d, m, y, sep1, sep2);
    var n := Dashes(v);
    var i := |d|;
    var j := |d| + 1 + |m|;
    DateDashed(d, m, y, sep1, sep2);
    DashesFound(n, i, j);
    DayMonthYearGivesIso(n);
  }

  lemma DateTrimmed(d: string, m: string, y: string, sep1: char, sep2: char)
    requires 1 <= |d| && |y| == 4 && AllDigits(d) && AllDigits(y)
    ensures Trim(d + [sep1] + m + [sep2] + y) == d + [sep1] + m + [sep2] + y
  {
    var v := d + [sep1] + m + [sep2] + y;
    assert v[0] == d[0] && v[|v| - 1] == y[3];
    assert Trimmed(v);
    TrimIdentity(v);
  }

  lemma DateDashed(d: string, m: string, y: string, sep1: char, sep2: char)
    requires 1 <= |d| <= 2 && 1 <= |m| <= 2 && |y| == 4
    requires AllDigits(d) && AllDigits(m) && AllDigits(y)
    requires sep1 in "./-" && sep2 in "./-"
    ensures var n := Dashes(d + [sep1] + m + [sep2] + y); var i := |d|; var j := |d| + 1 + |m|;
      && n[..i] == d && n[i + 1..j] == m && n[j + 1..] == y && DayMonthYearAt(n, i, j)
  {
    var n := Dashes(d + [sep1] + m + [sep2] + y);
    var i := |d|;
    var j := |d| + 1 + |m|;
    assert n[..i] == d;
    assert n[i + 1..j] == m;
    assert n[j + 1..] == y;
  }

  /** A string of ASCII digits and dashes has no white space at its ends and no
      dots or slashes to replace. */
  lemma DigitsAndDashes(s: string)
    requires forall k :: 0 <= k < |s| ==> IsDigit(s[k]) || s[k] == '-'
    requires s != [] ==> IsDigit(s[0]) && IsDigit(s[|s| - 1])
    ensures Trim(s) == s && Dashes(s) == s
  {
    TrimIdentity(s);
  }

  /** `padStart(2, "0")` of one or two digits is two digits. */
  lemma Pad2Digits(s: string)
    requires 1 <= |s| <= 2 && AllDigits(s)
    ensures |Pad2(s)| == 2 && AllDigits(Pad2(s))
  {
  }

  /** An ISO date is returned as it is. */
  lemma IsoFixed(r: string)
    requires IsIsoDate(r)
    ensures FormatDateText(r) == r
  {
    assert forall k :: 0 <= k < 4 ==> r[k] == r[..4][k];
    assert forall k :: 5 <= k < 7 ==> r[k] == r[5..7][k - 5];
    assert forall k :: 8 <= k < 10 ==> r[k] == r[8..][k - 8];
    DigitsAndDashes(r);
    assert r[1] == r[..4][1] && r[2] == r[..4][2];
  }

  /** The day-month-year branch produces an ISO date. */
  lemma DayMonthYearGivesIso(n: string)
    requires DayMonthYearAt(n, FirstDash(n), SecondDash(n))
    ensures var i := FirstDash(n); var j := SecondDash(n);
      IsIsoDate(n[j + 1..] + "-" + Pad2(n[i + 1..j]) + "-" + Pad2(n[..i]))
  {
    var i := FirstDash(n);
    var j := SecondDash(n);
    Pad2Digits(n[i + 1..j]);
    Pad2Digits(n[..i]);
    var r := n[j + 1..] + "-" + Pad2(n[i + 1..j]) + "-" + Pad2(n[..i]);
    assert r[..4] == n[j + 1..] && r[5..7] == Pad2(n[i + 1..j]) && r[8..] == Pad2(n[..i]);
  }

  /** Normalising is idempotent: a normalised value normalises to itself. */
  lemma FormatDateIdempotent(val: string)
    ensures FormatDateText(FormatDateText(val)) == FormatDateText(val)
  {
    if val != "" {
      var s := Trim(val);
      var n := Dashes(s);
      if DayMonthYearAt(n, FirstDash(n), SecondDash(n)) {
        DayMonthYearGivesIso(n);
        IsoFixed(FormatDateText(val));
      } else if IsIsoDate(n) {
        IsoFixed(n);
      } else if s != "" {
        TrimIdempotent(val);
      }
    }
  }
}

=== FILE: headerrows.dfy ===
/** The header-keyed row parser `addRowToParsed` (main.jsx:742-761). A row is the
    object the spreadsheet reader builds from one data line: header text to cell
    text, every header present (an empty cell reads as ""). */
module HeaderRows {
  import opened Text
  import opened Model
  import opened Accumulation

  type Row = map<string, string>

  const CardHeader: string := "Numer karty"
  const NameHeader: string := "Imię"

  /** The cell under a header, or "" when the row lacks that header. */
  function Get(row: Row, key: string): string {
    if key in row then row[key] else ""
  }

  /** The trimmed cell under a header; a missing header reads as "". */
  function Value(row: Row, key: string): string {
    Trim(Get(row, key))
  }

  /** The header of slot `i` under `prefix`: "Zabieg 1", "Okolica 3", ... */
  function SlotKey(prefix: string, i: nat): string
    requires 1 <= i <= 5
  {
    prefix + " " + [(48 + i) as char]
  }

  /** The description of one slot: the area, followed by the current type in
      parentheses for "Prądy" and by the kinesitherapy type for "Kineza" when
      those are filled. */
  function Describe(kind: string, area: string, currentType: string, kineType: string): string {
    if kind == Currents && currentType != "" then area + " (" + currentType + ")"
    else if kind == Kinesio && kineType != "" then area + " (" + kineType + ")"
    else area
  }

  /** Slot `i` of a row: a treatment only when both its kind and area cells are
      filled. The kind is the cell text as it stands (trimmed, not looked up). */
  function SlotTreatment(row: Row, i: nat): seq<Treatment>
    requires 1 <= i <= 5
  {
    var kind := Value(row, SlotKey("Zabieg", i));
    var area := Value(row, SlotKey("Okolica", i));
    if kind != "" && area != "" then
      [Treatment(kind, Describe(kind, area, Value(row, SlotKey("Rodzaj prądu", i)), Value(row, SlotKey("Rodzaj kinezy", i))))]
    else []
  }

  /** Slots `i` to 5, in order. */
  function SlotsFrom(row: Row, i: nat): seq<Treatment>
    requires 1 <= i <= 6
    decreases 6 - i
  {
    if i == 6 then [] else SlotTreatment(row, i) + SlotsFrom(row, i + 1)
  }

  /** The treatments of a row: slots 1 to 5. */
  function RowTreatments(row: Row): seq<Treatment> {
    SlotsFrom(row, 1)
  }

  /** What a row contributes to the parse; this parser reads no arrival time. */
  function RowRecordOf(row: Row): RowRecord {
    RowRecord(Value(row, CardHeader), Value(row, NameHeader), "", RowTreatments(row))
  }

  /** `addRowToParsed`: a row with a blank card is ignored; otherwise it creates
      or extends its card's record. */
  function AddRowToParsed(parsed: Registry, row: Row): Registry {
    if Value(row, CardHeader) == "" then parsed else Merge(parsed, RowRecordOf(row))
  }

  // ---------------------------------------------------------------------------
  // Properties

  /** The area always leads the description; the description is the bare area
      exactly when no type applies to the kind. */
  lemma DescribeSpec(kind: string, area: string, currentType: string, kineType: string)
    ensures var d := Describe(kind, area, currentType, kineType);
      && area <= d
      && (d == area <==> (kind != Currents || currentType == "") && (kind != Kinesio || kineType == ""))
  {
    var d := Describe(kind, area, currentType, kineType);
    if d != area {
      assert |d| > |area|;
    }
  }

  /** Every treatment of slots `i`..5 comes from a slot whose kind and area cells
      are filled, with that kind, and there are at most `6 - i` of them. */
  lemma {:induction false} SlotsFromSpec(row: Row, i: nat)
    requires 1 <= i <= 6
    ensures |SlotsFrom(row, i)| <= 6 - i
    ensures forall t :: t in SlotsFrom(row, i) ==>
      exists j :: i <= j <= 5 && t.kind == Value(row, SlotKey("Zabieg", j)) && t.kind != ""
        && Value(row, SlotKey("Okolica", j)) != "" && Value(row, SlotKey("Okolica", j)) <= t.desc
    decreases 6 - i
  {
    if i < 6 {
      SlotsFromSpec(row, i + 1);
      var kind := Value(row, SlotKey("Zabieg", i));
      var area := Value(row, SlotKey("Okolica", i));
      DescribeSpec(kind, area, Value(row, SlotKey("Rodzaj prądu", i)), Value(row, SlotKey("Rodzaj kinezy", i)));
    }
  }

  /** A row yields at most five treatments, each from a filled kind/area slot. */
  lemma RowTreatmentsSpec(row: Row)
    ensures |RowTreatments(row)| <= 5
    ensures forall t :: t in RowTreatments(row) ==>
      exists j :: 1 <= j <= 5 && t.kind == Value(row, SlotKey("Zabieg", j)) && t.kind != ""
        && Value(row, SlotKey("Okolica", j)) != "" && Value(row, SlotKey("Okolica", j)) <= t.desc
  {
    SlotsFromSpec(row, 1);
  }

  /** Slots `i`..5 are empty when none of their kind cells is filled. */
  lemma {:induction false} NoKindsNoSlots(row: Row, i: nat)
    requires 1 <= i <= 6
    requires forall j :: i <= j <= 5 ==> Value(row, SlotKey("Zabieg", j)) == ""
    ensures SlotsFrom(row, i) == []
    decreases 6 - i
  {
    if i < 6 {
      NoKindsNoSlots(row, i + 1);
    }
  }

  /** A slot whose kind and area are filled yields its treatment, whatever the other slots hold. */
  lemma {:induction false} FilledSlotEmits(row: Row, i: nat, j: nat)
    requires 1 <= i <= j <= 5
    requires Value(row, SlotKey("Zabieg", j)) != "" && Value(row, SlotKey("Okolica", j)) != ""
    ensures exists t :: t in SlotsFrom(row, i) && t.kind == Value(row, SlotKey("Zabieg", j))
    decreases 6 - i
  {
    if i == j {
      var t := SlotTreatment(row, i)[0];
      assert t in SlotsFrom(row, i);
    } else {
      FilledSlotEmits(row, i + 1, j);
      var t :| t in SlotsFrom(row, i + 1) && t.kind == Value(row, SlotKey("Zabieg", j));
      assert t in SlotsFrom(row, i);
    }
  }

  /** The row step leaves every other card alone, ignores blank cards, and gives
      the row's card a record holding the row's treatments at its end. */
  lemma AddRowToParsedSpec(parsed: Registry, row: Row)
    ensures var r := AddRowToParsed(parsed, row); var card := Value(row, CardHeader);
      && (card == "" ==> r == parsed)
      && (card != "" ==>
            && r.Keys == parsed.Keys + {card}
            && (forall c :: c in parsed && c != card ==> r[c] == parsed[c])
            && (card !in parsed ==> r[card] == Patient(Value(row, NameHeader), "", RowTreatments(row), None))
            && (card in parsed ==> r[card].treatments == parsed[card].treatments + RowTreatments(row)
                                   && r[card].name == (if parsed[card].name != "" then parsed[card].name else Value(row, NameHeader))))
  {
  }

  /** The cards the row step knows: the old ones, and the row's card when filled. */
  lemma AddRowKeys(parsed: Registry, row: Row)
    ensures AddRowToParsed(parsed, row).Keys ==
      if Value(row, CardHeader) == "" then parsed.Keys else parsed.Keys + {Value(row, CardHeader)}
  {
  }

  // ---------------------------------------------------------------------------
  // A sequence of rows

  /** `rows.forEach(row => addRowToParsed(row, parsed))` from an empty result. */
  function ParseRows(rows: seq<Row>): Registry {
    if rows == [] then map[] else AddRowToParsed(ParseRows(rows[..|rows| - 1]), rows[|rows| - 1])
  }

  /** The records of the rows with a filled card, in row order. */
  function RecordsOf(rows: seq<Row>): (recs: seq<RowRecord>)
    ensures |recs| <= |rows|
  {
    if rows == [] then []
    else
      var last := rows[|rows| - 1];
      RecordsOf(rows[..|rows| - 1]) + (if Value(last, CardHeader) != "" then [RowRecordOf(last)] else [])
  }

  /** The row-by-row parse is the common accumulation over the rows with a card. */
  lemma {:induction false} ParseRowsAccumulate(rows: seq<Row>)
    ensures ParseRows(rows) == Accumulate(RecordsOf(rows))
  {
    if rows != [] {
      var init := rows[..|rows| - 1];
      var last := rows[|rows| - 1];
      ParseRowsAccumulate(init);
      if Value(last, CardHeader) != "" {
        var recs := RecordsOf(init) + [RowRecordOf(last)];
        assert recs[..|recs| - 1] == RecordsOf(init);
      } else {
        assert RecordsOf(rows) == RecordsOf(init);
      }
    }
  }

  /** Repeated cards merge: a card has a record exactly when one of its rows has
      it filled in; the record's name is the first filled name among its rows,
      its treatments those of all its rows in row order, and it has no arrival
      time and no cohort. */
  lemma ParseRowsSpec(rows: seq<Row>)
    ensures var parsed := ParseRows(rows); var recs := RecordsOf(rows);
      && parsed.Keys == Cards(recs)
      && forall card :: card in parsed ==>
           parsed[card] == Patient(FirstFilled(recs, card, NameField), "", TreatmentsOf(recs, card), None)
  {
    ParseRowsAccumulate(rows);
    var recs := RecordsOf(rows);
    AccumulateSpec(recs);
    forall card ensures FirstFilled(recs, card, TimeField) == "" {
      NoTimes(rows, card);
    }
  }

  /** This parser records no arrival time. */
  lemma {:induction false} NoTimes(rows: seq<Row>, card: string)
    ensures FirstFilled(RecordsOf(rows), card, TimeField) == ""
  {
    if rows != [] {
      var init := rows[..|rows| - 1];
      var last := rows[|rows| - 1];
      NoTimes(init, card);
      if Value(last, CardHeader) != "" {
        FirstFilledSnoc(RecordsOf(init), RowRecordOf(last), card, TimeField);
      } else {
        assert RecordsOf(rows) == RecordsOf(init);
      }
    }
  }

  /** The card cell of every row, in row order. */
  function CardCells(rows: seq<Row>): (cells: seq<string>)
    ensures |cells| == |rows|
  {
    if rows == [] then [] else CardCells(rows[..|rows| - 1]) + [Value(rows[|rows| - 1], CardHeader)]
  }

  /** The parse holds exactly the filled cards of the rows. */
  lemma {:induction false} ParseRowsCards(rows: seq<Row>)
    ensures forall c :: c in ParseRows(rows) <==> c != "" && c in CardCells(rows)
  {
    if rows != [] {
      var init := rows[..|rows| - 1];
      var last := rows[|rows| - 1];
      ParseRowsCards(init);
      assert ParseRows(rows) == AddRowToParsed(ParseRows(init), last);
      AddRowKeys(ParseRows(init), last);
    }
  }

  /** The card cells are the rows' trimmed card entries, position by position. */
  lemma {:induction false} CardCellsAt(rows: seq<Row>, i: nat)
    requires i < |rows|
    ensures CardCells(rows)[i] == Value(rows[i], CardHeader)
  {
    if i < |rows| - 1 {
      CardCellsAt(rows[..|rows| - 1], i);
      assert rows[..|rows| - 1][i] == rows[i];
    }
  }
}

=== FILE: import.dfy ===
/** The pure part of `handleFile` once the spreadsheet has been read
    (main.jsx:934-1019): the required-header check, the issue list, the
    duplicate count, the row parse, the cohort stamp, the commit and the cohort
    start. The positional parse of the sheet and the override that was meant to
    commit it are modelled too; as written the override never fires (see
    `ImportFile` and `OverrideNeverApplied`).

    The reader's two outputs are inputs here: `rows`, one header-keyed object per
    data line, and `sheet`, the same sheet as rows of cells. */
module Import {
  import opened Text
  import opened Model
  import opened Accumulation
  import opened Layouts
  import opened HeaderRows
  import opened Cohorts

  /** A row that cannot be imported: its spreadsheet line number (the header is
      line 1, so data row `i` is line `i + 2`), its trimmed card and name, and the row. */
  datatype Issue = Issue(line: nat, card: string, name: string, row: Row)

  datatype Outcome =
    | MissingColumns(missing: seq<string>)
    | NeedsFix(issues: seq<Issue>, pending: Registry, duplicates: map<string, nat>)
    | Committed(duplicates: map<string, nat>)

  datatype ImportResult = ImportResult(st: AppState, outcome: Outcome)

  const RequiredHeaders: seq<string> := [CardHeader, NameHeader]

  // ---------------------------------------------------------------------------
  // Header check

  /** Some row carries header `h` (the set of all rows' keys holds it). */
  predicate HasHeader(rows: seq<Row>, h: string) {
    exists i :: 0 <= i < |rows| && h in rows[i]
  }

  /** The names of `required` that no row has, in order. */
  function MissingFrom(required: seq<string>, rows: seq<Row>): (m: seq<string>)
    ensures forall h :: h in m <==> h in required && !HasHeader(rows, h)
  {
    if required == [] then []
    else (if HasHeader(rows, required[0]) then [] else [required[0]]) + MissingFrom(required[1..], rows)
  }

  function MissingHeaders(rows: seq<Row>): seq<string> {
    MissingFrom(RequiredHeaders, rows)
  }

  // ---------------------------------------------------------------------------
  // Issues, valid rows, duplicates

  /** A row whose trimmed card or trimmed name is empty. */
  predicate IsIssueRow(row: Row) {
    Value(row, CardHeader) == "" || Value(row, NameHeader) == ""
  }

  function IssueAt(rows: seq<Row>, i: nat): Option<Issue>
    requires i < |rows|
  {
    if IsIssueRow(rows[i]) then Some(Issue(i + 2, Value(rows[i], CardHeader), Value(rows[i], NameHeader), rows[i])) else None
  }

  function Issues(rows: seq<Row>): seq<Issue> {
    Somes(seq(|rows|, i requires 0 <= i < |rows| => IssueAt(rows, i)))
  }

  /** The rows that go to the row parser, in order. */
  function ValidRows(rows: seq<Row>): (valid: seq<Row>)
    ensures forall row :: row in valid <==> row in rows && !IsIssueRow(row)
  {
    if rows == [] then []
    else ValidRows(rows[..|rows| - 1]) + (if IsIssueRow(rows[|rows| - 1]) then [] else [rows[|rows| - 1]])
  }

  /** How many rows carry `c` as their trimmed card. */
  function CountCard(rows: seq<Row>, c: string): nat {
    if rows == [] then 0 else (if Value(rows[0], CardHeader) == c then 1 else 0) + CountCard(rows[1..], c)
  }

  /** The filled cards of the rows. */
  function FilledCards(rows: seq<Row>): set<string> {
    set i | 0 <= i < |rows| && Value(rows[i], CardHeader) != "" :: Value(rows[i], CardHeader)
  }

  /** The duplicate warning: every filled card on more than one row, with its count.
      It is computed over all rows, issue rows included. */
  function Duplicates(rows: seq<Row>): map<string, nat> {
    map c | c in FilledCards(rows) && CountCard(rows, c) > 1 :: CountCard(rows, c)
  }

  // ---------------------------------------------------------------------------
  // Commit

  /** The cohort written onto every record of the chosen parse. */
  function Stamp(parsed: Registry, cohort: Cohort): (r: Registry)
    ensures r.Keys == parsed.Keys
  {
    map c | c in parsed :: parsed[c].(cohort := Some(cohort))
  }

  /** `{...prev, ...parsed}` followed by the cohort start: the start date when
      unset, and day 1 when the counter is unset or 0. */
  function Commit(st: AppState, cohort: Cohort, chosen: Registry, today: string): AppState {
    st.(patients := st.patients + Stamp(chosen, cohort),
        cohortStart := st.cohortStart[cohort := if StartDate(st, cohort) != "" then StartDate(st, cohort) else today],
        cohortDays := if Day(st, cohort) == 0 then st.cohortDays[cohort := 1] else st.cohortDays)
  }

  /** The commit is the patient merge followed by `setCohortStarted` and, for an
      unset or zero counter, `resetCohortDay`. */
  lemma CommitIsMergeThenStart(st: AppState, cohort: Cohort, chosen: Registry, today: string)
    ensures var started := SetCohortStarted(st.(patients := st.patients + Stamp(chosen, cohort)), cohort, today);
      Commit(st, cohort, chosen, today) == if Day(st, cohort) == 0 then ResetCohortDay(started, cohort) else started
  {
  }

  /** The registry the override commits: the positional parse when it is bound
      and holds a treatment, otherwise the row parse (main.jsx:996-1001). */
  function Chosen(v2: Option<Registry>, parsed: Registry): Registry {
    if v2.Some? && HasTreatments(v2.value) then v2.value else parsed
  }

  /** `handleFile` into cohort `cohort` for a file named `fileName`. `v2` is the
      positional parse as the override at main.jsx:996 sees it: `None` when the
      name `parsedV2` is not bound there. The file name is recorded for the
      cohort before anything is checked. */
  function ImportWith(st: AppState, cohort: Cohort, fileName: string, rows: seq<Row>, v2: Option<Registry>, today: string): ImportResult {
    var named := st.(lastFileName := st.lastFileName[cohort := fileName]);
    var missing := MissingHeaders(rows);
    if missing != [] then ImportResult(named, MissingColumns(missing))
    else
      var issues := Issues(rows);
      var parsed := ParseRows(ValidRows(rows));
      if issues != [] then ImportResult(named, NeedsFix(issues, parsed, Duplicates(rows)))
      else ImportResult(Commit(named, cohort, Chosen(v2, parsed), today), Committed(Duplicates(rows)))
  }

  /** `handleFile` as written. The positional parse is bound with `let` inside
      the block that reads the file (main.jsx:940-950), so at the override
      (main.jsx:996) the name is unbound, `typeof` yields "undefined", and the
      sheet never reaches the commit: the row parse is always committed. */
  function ImportFile(st: AppState, cohort: Cohort, fileName: string, rows: seq<Row>, sheet: Sheet, today: string): ImportResult {
    ImportWith(st, cohort, fileName, rows, None, today)
  }

  /** `handleFile` as its override comment intends: the new-format parse, or the
      block parse when that finds no treatment, replaces the row parse whenever
      it holds a treatment. */
  function ImportFileIntended(st: AppState, cohort: Cohort, fileName: string, rows: seq<Row>, sheet: Sheet, today: string): ImportResult {
    ImportWith(st, cohort, fileName, rows, Some(ChooseLayout(sheet)), today)
  }

  // ---------------------------------------------------------------------------
  // Properties

  /** The issue list has one entry per issue row, at that row's line number. */
  lemma IssuesSpec(rows: seq<Row>)
    ensures forall x :: x in Issues(rows) <==>
      exists i :: 0 <= i < |rows| && IsIssueRow(rows[i]) && x == Issue(i + 2, Value(rows[i], CardHeader), Value(rows[i], NameHeader), rows[i])
  {
    var os := seq(|rows|, i requires 0 <= i < |rows| => IssueAt(rows, i));
    assert Issues(rows) == Somes(os);
    forall x ensures x in Issues(rows) <==>
      exists i :: 0 <= i < |rows| && IsIssueRow(rows[i]) && x == Issue(i + 2, Value(rows[i], CardHeader), Value(rows[i], NameHeader), rows[i])
    {
      if Some(x) in os {
        var i :| 0 <= i < |os| && os[i] == Some(x);
        assert IsIssueRow(rows[i]);
      }
      if exists i :: 0 <= i < |rows| && IsIssueRow(rows[i]) && x == Issue(i + 2, Value(rows[i], CardHeader), Value(rows[i], NameHeader), rows[i]) {
        var i :| 0 <= i < |rows| && IsIssueRow(rows[i]) && x == Issue(i + 2, Value(rows[i], CardHeader), Value(rows[i], NameHeader), rows[i]);
        assert os[i] == Some(x);
      }
    }
  }

  /** There are no issues exactly when every row has a card and a name. */
  lemma IssuesEmpty(rows: seq<Row>)
    ensures Issues(rows) == [] <==> forall i :: 0 <= i < |rows| ==> !IsIssueRow(rows[i])
  {
    IssuesSpec(rows);
    if Issues(rows) != [] {
      assert Issues(rows)[0] in Issues(rows);
    }
    if exists i :: 0 <= i < |rows| && IsIssueRow(rows[i]) {
      var i :| 0 <= i < |rows| && IsIssueRow(rows[i]);
      assert Issue(i + 2, Value(rows[i], CardHeader), Value(rows[i], NameHeader), rows[i]) in Issues(rows);
    }
  }

  /** A card is reported as duplicated exactly when two different rows carry it. */
  lemma DuplicatesSpec(rows: seq<Row>, c: string)
    ensures c in Duplicates(rows) <==>
      c != "" && exists i, j :: 0 <= i < j < |rows| && Value(rows[i], CardHeader) == c && Value(rows[j], CardHeader) == c
    ensures c in Duplicates(rows) ==> Duplicates(rows)[c] == CountCard(rows, c)
  {
    CountTwice(rows, c);
    if c != "" && CountCard(rows, c) > 1 {
      var i, j :| 0 <= i < j < |rows| && Value(rows[i], CardHeader) == c && Value(rows[j], CardHeader) == c;
      assert c in FilledCards(rows);
    }
  }

  lemma {:induction false} CountOnce(rows: seq<Row>, c: string)
    ensures CountCard(rows, c) > 0 <==> exists i :: 0 <= i < |rows| && Value(rows[i], CardHeader) == c
  {
    if rows != [] {
      CountOnce(rows[1..], c);
      if exists i :: 0 <= i < |rows| && Value(rows[i], CardHeader) == c {
        var i :| 0 <= i < |rows| && Value(rows[i], CardHeader) == c;
        if i > 0 { assert rows[1..][i - 1] == rows[i]; }
      }
      if exists i :: 0 <= i < |rows[1..]| && Value(rows[1..][i], CardHeader) == c {
        var i :| 0 <= i < |rows[1..]| && Value(rows[1..][i], CardHeader) == c;
        assert rows[i + 1] == rows[1..][i];
      }
    }
  }

  lemma CountTwice(rows: seq<Row>, c: string)
    ensures CountCard(rows, c) > 1 <==>
      exists i, j :: 0 <= i < j < |rows| && Value(rows[i], CardHeader) == c && Value(rows[j], CardHeader) == c
  {
    if CountCard(rows, c) > 1 {
      CountTwiceFound(rows, c);
    }
    if exists i, j :: 0 <= i < j < |rows| && Value(rows[i], CardHeader) == c && Value(rows[j], CardHeader) == c {
      var i, j :| 0 <= i < j < |rows| && Value(rows[i], CardHeader) == c && Value(rows[j], CardHeader) == c;
      CountPair(rows, c, i, j);
    }
  }

  lemma {:induction false} CountTwiceFound(rows: seq<Row>, c: string)
    requires CountCard(rows, c) > 1
    ensures exists i, j :: 0 <= i < j < |rows| && Value(rows[i], CardHeader) == c && Value(rows[j], CardHeader) == c
  {
    var tail := rows[1..];
    if Value(rows[0], CardHeader) == c {
      CountOnce(tail, c);
      var j :| 0 <= j < |tail| && Value(tail[j], CardHeader) == c;
      assert rows[j + 1] == tail[j];
    } else {
      CountTwiceFound(tail, c);
      var i, j :| 0 <= i < j < |tail| && Value(tail[i], CardHeader) == c && Value(tail[j], CardHeader) == c;
      assert rows[i + 1] == tail[i] && rows[j + 1] == tail[j];
    }
  }

  lemma {:induction false} CountPair(rows: seq<Row>, c: string, i: nat, j: nat)
    requires i < j < |rows| && Value(rows[i], CardHeader) == c && Value(rows[j], CardHeader) == c
    ensures CountCard(rows, c) > 1
  {
    var tail := rows[1..];
    assert rows[j] == tail[j - 1];
    if i == 0 {
      CountOnce(tail, c);
    } else {
      assert rows[i] == tail[i - 1];
      CountPair(tail, c, i - 1, j - 1);
    }
  }

  /** The header check passes exactly when some row has each required header. */
  lemma MissingHeadersSpec(rows: seq<Row>)
    ensures MissingHeaders(rows) == [] <==> HasHeader(rows, CardHeader) && HasHeader(rows, NameHeader)
    ensures forall h :: h in MissingHeaders(rows) <==> h in RequiredHeaders && !HasHeader(rows, h)
  {
    var m := MissingHeaders(rows);
    if m != [] {
      assert m[0] in m;
    }
    assert RequiredHeaders[0] == CardHeader && RequiredHeaders[1] == NameHeader;
    if !HasHeader(rows, CardHeader) {
      assert CardHeader in m;
    }
    if !HasHeader(rows, NameHeader) {
      assert NameHeader in m;
    }
  }

  /** The commit writes every parsed card stamped with the cohort, replacing any
      earlier record of that card whole, and leaves every other card, the queues,
      the pending removals, the archive and the file names alone. */
  lemma CommitSpec(st: AppState, cohort: Cohort, chosen: Registry, today: string)
    ensures var r := Commit(st, cohort, chosen, today);
      && r.patients.Keys == st.patients.Keys + chosen.Keys
      && (forall c :: c in chosen ==> r.patients[c] == chosen[c].(cohort := Some(cohort)))
      && (forall c :: c in st.patients && c !in chosen ==> r.patients[c] == st.patients[c])
      && r.queues == st.queues && r.archived == st.archived && r.timers == st.timers
      && r.lastFileName == st.lastFileName && r.registered == st.registered
  {
    OverlayStamp(st.patients, chosen, cohort);
  }

  lemma OverlayStamp(base: Registry, chosen: Registry, cohort: Cohort)
    ensures var m := base + Stamp(chosen, cohort);
      && m.Keys == base.Keys + chosen.Keys
      && (forall c :: c in chosen ==> m[c] == chosen[c].(cohort := Some(cohort)))
      && (forall c :: c in base && c !in chosen ==> m[c] == base[c])
  {
  }

  /** The commit starts the cohort: the start date is set only when unset, the
      day counter becomes 1 only when it was unset or 0, and the other cohort's
      counter and date stay. */
  lemma CommitStartsCohort(st: AppState, cohort: Cohort, other: Cohort, chosen: Registry, today: string)
    requires other != cohort
    ensures var r := Commit(st, cohort, chosen, today);
      && StartDate(r, cohort) == (if StartDate(st, cohort) == "" then today else StartDate(st, cohort))
      && Day(r, cohort) == (if Day(st, cohort) == 0 then 1 else Day(st, cohort))
      && StartDate(r, other) == StartDate(st, other)
      && Day(r, other) == Day(st, other)
  {
  }

  /** A missing required header aborts the import: the outcome names exactly the
      required headers no row has, and only the recorded file name changes. */
  lemma ImportMissingSpec(st: AppState, cohort: Cohort, fileName: string, rows: seq<Row>, v2: Option<Registry>, today: string)
    ensures var r := ImportWith(st, cohort, fileName, rows, v2, today);
      && (r.outcome.MissingColumns? <==> !HasHeader(rows, CardHeader) || !HasHeader(rows, NameHeader))
      && (r.outcome.MissingColumns? ==>
            && (forall h :: h in r.outcome.missing <==> h in RequiredHeaders && !HasHeader(rows, h))
            && r.st == st.(lastFileName := st.lastFileName[cohort := fileName]))
  {
    MissingHeadersSpec(rows);
  }

  /** With no rows there are no headers, so an empty sheet is always rejected
      and both required headers are reported. */
  lemma EmptyImportRejected(st: AppState, cohort: Cohort, fileName: string, v2: Option<Registry>, today: string)
    ensures var r := ImportWith(st, cohort, fileName, [], v2, today);
      r.outcome.MissingColumns? && CardHeader in r.outcome.missing && NameHeader in r.outcome.missing
  {
    MissingHeadersSpec([]);
    assert CardHeader in RequiredHeaders && NameHeader in RequiredHeaders;
  }

  /** The gate: when a row lacks a card or a name nothing is committed; the
      outcome lists the issue rows and carries the row parse of the valid rows. */
  lemma ImportGate(st: AppState, cohort: Cohort, fileName: string, rows: seq<Row>, v2: Option<Registry>, today: string, i: int)
    requires HasHeader(rows, CardHeader) && HasHeader(rows, NameHeader)
    requires 0 <= i < |rows| && IsIssueRow(rows[i])
    ensures var r := ImportWith(st, cohort, fileName, rows, v2, today);
      && r.outcome.NeedsFix?
      && Issue(i + 2, Value(rows[i], CardHeader), Value(rows[i], NameHeader), rows[i]) in r.outcome.issues
      && r.outcome.pending == ParseRows(ValidRows(rows))
      && r.st == st.(lastFileName := st.lastFileName[cohort := fileName])
  {
    MissingHeadersSpec(rows);
    IssueListed(rows, i);
    assert Issues(rows) != [];
    var named := st.(lastFileName := st.lastFileName[cohort := fileName]);
    assert ImportWith(st, cohort, fileName, rows, v2, today)
      == ImportResult(named, NeedsFix(Issues(rows), ParseRows(ValidRows(rows)), Duplicates(rows)));
  }

  /** Each issue row is listed at its line number. */
  lemma IssueListed(rows: seq<Row>, i: int)
    requires 0 <= i < |rows| && IsIssueRow(rows[i])
    ensures Issue(i + 2, Value(rows[i], CardHeader), Value(rows[i], NameHeader), rows[i]) in Issues(rows)
  {
    var os := seq(|rows|, i requires 0 <= i < |rows| => IssueAt(rows, i));
    assert os[i] == Some(Issue(i + 2, Value(rows[i], CardHeader), Value(rows[i], NameHeader), rows[i]));
  }

  /** A commit happens exactly when the headers are there and every row has a
      card and a name. */
  lemma ImportCommits(st: AppState, cohort: Cohort, fileName: string, rows: seq<Row>, v2: Option<Registry>, today: string)
    ensures var r := ImportWith(st, cohort, fileName, rows, v2, today);
      r.outcome.Committed? <==>
        HasHeader(rows, CardHeader) && HasHeader(rows, NameHeader) && forall i :: 0 <= i < |rows| ==> !IsIssueRow(rows[i])
  {
    MissingHeadersSpec(rows);
    IssuesEmpty(rows);
  }

  /** As written, a committing import writes the row parse of the valid rows,
      whatever the sheet holds: two sheets give the same result. */
  lemma ImportFileCommitsRowParse(st: AppState, cohort: Cohort, fileName: string, rows: seq<Row>, sheet: Sheet, other: Sheet, today: string)
    ensures var r := ImportFile(st, cohort, fileName, rows, sheet, today);
      var named := st.(lastFileName := st.lastFileName[cohort := fileName]);
      && (r.outcome.Committed? ==> r.st == Commit(named, cohort, ParseRows(ValidRows(rows)), today))
      && r == ImportFile(st, cohort, fileName, rows, other, today)
  {
    var named := st.(lastFileName := st.lastFileName[cohort := fileName]);
    var parsed := ParseRows(ValidRows(rows));
    if MissingHeaders(rows) == [] && Issues(rows) == [] {
      assert Chosen(None, parsed) == parsed;
      assert ImportFile(st, cohort, fileName, rows, sheet, today) == ImportResult(Commit(named, cohort, parsed, today), Committed(Duplicates(rows)));
    }
  }

  /** With the override working, a committing import writes the positional
      parse when it holds a treatment and the row parse otherwise. */
  lemma ImportFileIntendedCommits(st: AppState, cohort: Cohort, fileName: string, rows: seq<Row>, sheet: Sheet, today: string)
    ensures var r := ImportFileIntended(st, cohort, fileName, rows, sheet, today);
      var named := st.(lastFileName := st.lastFileName[cohort := fileName]);
      r.outcome.Committed? ==>
        && (HasTreatments(ChooseLayout(sheet)) ==> r.st == Commit(named, cohort, ChooseLayout(sheet), today))
        && (!HasTreatments(ChooseLayout(sheet)) ==> r.st == Commit(named, cohort, ParseRows(ValidRows(rows)), today))
    ensures ImportFileIntended(st, cohort, fileName, rows, sheet, today).outcome
         == ImportFile(st, cohort, fileName, rows, sheet, today).outcome
  {
    var named := st.(lastFileName := st.lastFileName[cohort := fileName]);
    var parsed := ParseRows(ValidRows(rows));
    var v2 := ChooseLayout(sheet);
    if MissingHeaders(rows) == [] && Issues(rows) == [] {
      assert ImportFileIntended(st, cohort, fileName, rows, sheet, today)
          == ImportResult(Commit(named, cohort, Chosen(Some(v2), parsed), today), Committed(Duplicates(rows)));
    }
  }

  /** Every failed import leaves the registry, the queues and the cohort counters
      and dates as they were. */
  lemma ImportFailureKeepsState(st: AppState, cohort: Cohort, fileName: string, rows: seq<Row>, v2: Option<Registry>, today: string)
    ensures var r := ImportWith(st, cohort, fileName, rows, v2, today);
      !r.outcome.Committed? ==> r.st == st.(lastFileName := st.lastFileName[cohort := fileName])
  {
  }

  /** The record committed for a card merges all of that card's valid rows:
      first filled name, all treatments in row order, no time, the cohort. */
  lemma RowParseCommitted(st: AppState, cohort: Cohort, fileName: string, rows: seq<Row>, sheet: Sheet, today: string, c: string)
    ensures var r := ImportFile(st, cohort, fileName, rows, sheet, today); var recs := RecordsOf(ValidRows(rows));
      r.outcome.Committed? && c in ParseRows(ValidRows(rows)) ==>
        c in r.st.patients && r.st.patients[c] == Patient(FirstFilled(recs, c, NameField), "", TreatmentsOf(recs, c), Some(cohort))
  {
    var parsed := ParseRows(ValidRows(rows));
    ParseRowsSpec(ValidRows(rows));
    ImportFileCommitsRowParse(st, cohort, fileName, rows, sheet, sheet, today);
    CommitSpec(st.(lastFileName := st.lastFileName[cohort := fileName]), cohort, parsed, today);
  }

  /** Stamping keeps whether any record holds a treatment. */
  lemma StampTreatments(parsed: Registry, cohort: Cohort)
    ensures HasTreatments(Stamp(parsed, cohort)) <==> HasTreatments(parsed)
  {
    if HasTreatments(parsed) {
      var c :| c in parsed && parsed[c].treatments != [];
      assert Stamp(parsed, cohort)[c].treatments != [];
    }
  }

  /** The override never fires: into an empty registry, an import whose valid
      rows carry no treatment commits no treatment as written, although the
      sheet's positional parse holds one and the intended override would have
      committed it. */
  lemma OverrideNeverApplied(st: AppState, cohort: Cohort, fileName: string, rows: seq<Row>, sheet: Sheet, today: string)
    requires st.patients == map[]
    requires HasHeader(rows, CardHeader) && HasHeader(rows, NameHeader) && forall i :: 0 <= i < |rows| ==> !IsIssueRow(rows[i])
    requires !HasTreatments(ParseRows(ValidRows(rows))) && HasTreatments(ChooseLayout(sheet))
    ensures ImportFile(st, cohort, fileName, rows, sheet, today).outcome.Committed?
    ensures !HasTreatments(ImportFile(st, cohort, fileName, rows, sheet, today).st.patients)
    ensures HasTreatments(ImportFileIntended(st, cohort, fileName, rows, sheet, today).st.patients)
  {
    MissingHeadersSpec(rows);
    IssuesEmpty(rows);
    ImportFileCommitsRowParse(st, cohort, fileName, rows, sheet, sheet, today);
    ImportFileIntendedCommits(st, cohort, fileName, rows, sheet, today);
    var named := st.(lastFileName := st.lastFileName[cohort := fileName]);
    var parsed := ParseRows(ValidRows(rows));
    var v2 := ChooseLayout(sheet);
    var written := ImportFile(st, cohort, fileName, rows, sheet, today);
    var intended := ImportFileIntended(st, cohort, fileName, rows, sheet, today);
    assert written.outcome.Committed?;
    assert written.st.patients == named.patients + Stamp(parsed, cohort);
    assert intended.st.patients == named.patients + Stamp(v2, cohort);
    assert named.patients == map[];
    StampTreatments(parsed, cohort);
    StampTreatments(v2, cohort);
    OverlayEmpty(Stamp(parsed, cohort));
    OverlayEmpty(Stamp(v2, cohort));
  }

  /** A witness: into an empty registry (the initial state, say), the sheet
      `[["Numer karty", "Imię", "", ""], ["1", "A", "", "x"]]` read both ways.
      The header-keyed reader names the two unlabelled columns `__EMPTY` and
      `__EMPTY_1`, so its one row has no treatment header. The positional parse
      finds no slot header, falls back to the block layout and reads "x" in
      column D as a "Prądy" treatment; yet as written card "1" is committed
      without any. */
  lemma OverrideCounterexample(st: AppState, rows: seq<Row>, sheet: Sheet)
    requires st.patients == map[]
    requires |rows| == 1 && rows[0].Keys == {CardHeader, NameHeader, BlankHeader0, BlankHeader1}
    requires rows[0][CardHeader] == "1" && rows[0][NameHeader] == "A"
    requires rows[0][BlankHeader0] == "" && rows[0][BlankHeader1] == "x"
    requires |sheet| == 2 && |sheet[0]| == 4 && |sheet[1]| == 4
    requires sheet[0][0] == CardHeader && sheet[0][1] == NameHeader && sheet[0][2] == "" && sheet[0][3] == ""
    requires sheet[1][0] == "1" && sheet[1][1] == "A" && sheet[1][2] == "" && sheet[1][3] == "x"
    ensures ImportFile(st, Dzienni, "plik.xlsx", rows, sheet, "2024-03-01").outcome.Committed?
    ensures !HasTreatments(ImportFile(st, Dzienni, "plik.xlsx", rows, sheet, "2024-03-01").st.patients)
    ensures HasTreatments(ImportFileIntended(st, Dzienni, "plik.xlsx", rows, sheet, "2024-03-01").st.patients)
  {
    WitnessRows(rows);
    SingleRowParse(rows);
    WitnessSheet(sheet);
    OverrideNeverApplied(st, Dzienni, "plik.xlsx", rows, sheet, "2024-03-01");
  }

  /** The keys the header-keyed reader gives the first and second columns whose
      header cell is empty. */
  const BlankHeader0: string := "__EMPTY"
  const BlankHeader1: string := "__EMPTY_1"

  /** The witness rows pass both checks and carry no treatment. */
  lemma WitnessRows(rows: seq<Row>)
    requires |rows| == 1 && rows[0].Keys == {CardHeader, NameHeader, BlankHeader0, BlankHeader1}
    requires rows[0][CardHeader] == "1" && rows[0][NameHeader] == "A"
    ensures HasHeader(rows, CardHeader) && HasHeader(rows, NameHeader) && forall i :: 0 <= i < |rows| ==> !IsIssueRow(rows[i])
    ensures RowTreatments(rows[0]) == []
  {
    WitnessRowComplete(rows);
    WitnessRowNoTreatments(rows[0]);
  }

  /** One complete row without treatment cells gives the row parse no treatment. */
  lemma SingleRowParse(rows: seq<Row>)
    requires |rows| == 1 && !IsIssueRow(rows[0]) && RowTreatments(rows[0]) == []
    ensures !HasTreatments(ParseRows(ValidRows(rows)))
  {
    SingleValidRow(rows);
    SingleRowRecord(rows);
  }

  lemma SingleValidRow(rows: seq<Row>)
    requires |rows| == 1 && !IsIssueRow(rows[0])
    ensures ValidRows(rows) == rows
  {
    assert rows[..0] == [];
    assert rows == [rows[0]];
  }

  lemma SingleRowRecord(rows: seq<Row>)
    requires |rows| == 1 && RowTreatments(rows[0]) == []
    ensures !HasTreatments(ParseRows(rows))
  {
    assert rows[..0] == [] && ParseRows(rows[..0]) == map[];
    var p := ParseRows(rows);
    assert p == AddRowToParsed(map[], rows[0]);
    AddRowToParsedSpec(map[], rows[0]);
  }

  /** The witness rows pass the header and issue checks. */
  lemma WitnessRowComplete(rows: seq<Row>)
    requires |rows| == 1 && CardHeader in rows[0] && NameHeader in rows[0]
    requires rows[0][CardHeader] == "1" && rows[0][NameHeader] == "A"
    ensures HasHeader(rows, CardHeader) && HasHeader(rows, NameHeader)
    ensures Value(rows[0], CardHeader) == "1" && !IsIssueRow(rows[0])
  {
    TrimIdentity("1");
    TrimIdentity("A");
    assert Value(rows[0], CardHeader) == "1" && Value(rows[0], NameHeader) == "A";
  }

  /** A row holding only the card and name headers and the two blank-header
      columns has no treatment. */
  lemma WitnessRowNoTreatments(row: Row)
    requires row.Keys == {CardHeader, NameHeader, BlankHeader0, BlankHeader1}
    ensures RowTreatments(row) == []
  {
    forall j | 1 <= j <= 5 ensures Value(row, SlotKey("Zabieg", j)) == "" {
      assert SlotKey("Zabieg", j)[0] == 'Z';
      assert SlotKey("Zabieg", j) !in row;
      TrimBlank("");
    }
    NoKindsNoSlots(row, 1);
  }

  /** The witness sheet's positional parse holds a treatment: the block layout
      finds one in column D, and the choice has one when either layout has. */
  lemma WitnessSheet(sheet: Sheet)
    requires |sheet| == 2 && |sheet[1]| == 4 && sheet[1][0] == "1" && sheet[1][3] == "x"
    ensures HasTreatments(ChooseLayout(sheet))
  {
    WitnessCells(sheet);
    BlockRowWithTreatment(sheet, 1, 3);
    ChooseLayoutSpec(sheet);
  }

  /** The witness data row has card "1" in column A and "x" in column D. */
  lemma WitnessCells(sheet: Sheet)
    requires |sheet| == 2 && |sheet[1]| == 4 && sheet[1][0] == "1" && sheet[1][3] == "x"
    ensures 1 < |sheet| && Field(sheet[1], 0) == "1" && Field(sheet[1], 3) == "x"
  {
    TrimIdentity("1");
    TrimIdentity("x");
  }

  lemma OverlayEmpty(m: Registry)
    ensures map[] + m == m
  {
  }
}

=== FILE: layouts.dfy ===
/** The two positional parsers over the raw cell matrix (`rowsA1`, row 0 holds
    the headers) and the fallback between them: the header-driven "new format"
    (main.jsx:836-922), the fixed-column block layout (main.jsx:775-833), and
    the choice made in `handleFile` (main.jsx:946-949). */
module Layouts {
  import opened Text
  import opened Columns
  import opened Model
  import opened Accumulation

  /** The raw matrix of one worksheet. */
  type Sheet = seq<seq<string>>

  /** A cell as text; "" beyond the end of the row and for the column -1 that
      stands for a missing header. */
  function Cell(row: seq<string>, c: int): string {
    if 0 <= c < |row| then row[c] else ""
  }

  // ---------------------------------------------------------------------------
  // Header lookup (main.jsx:841-843)

  /** Column `c` is the first one holding `key`. */
  predicate FirstAt(keys: seq<string>, key: string, c: int) {
    && 0 <= c < |keys|
    && keys[c] == key
    && forall j :: 0 <= j < c ==> keys[j] != key
  }

  /** The normalised header of every column. */
  function HeaderKeys(headers: seq<string>): (keys: seq<string>)
    ensures |keys| == |headers|
  {
    seq(|headers|, c requires 0 <= c < |headers| => NormalizeHeader(headers[c]))
  }

  /** Some header normalises to the same non-empty key as `name`. */
  predicate HeaderPresent(headers: seq<string>, name: string) {
    NormalizeHeader(name) != "" && NormalizeHeader(name) in HeaderKeys(headers)
  }

  /** Every non-empty key mapped to the first column that holds it. */
  function FirstColumns(keys: seq<string>): map<string, nat> {
    if keys == [] then map[]
    else
      var last := |keys| - 1;
      var m := FirstColumns(keys[..last]);
      if keys[last] != "" && keys[last] !in m then m[keys[last] := last] else m
  }

  /** `hmap`: every non-empty normalised header mapped to its first column. */
  function HeaderMap(headers: seq<string>): map<string, nat> {
    FirstColumns(HeaderKeys(headers))
  }

  /** The inner `idx(...names)` over already normalised aliases. */
  function FindColumn(hmap: map<string, nat>, keys: seq<string>): (c: int)
    ensures c >= -1
  {
    if keys == [] then -1
    else if keys[0] in hmap then hmap[keys[0]]
    else FindColumn(hmap, keys[1..])
  }

  /** `idx` over aliases given already normalised. */
  function LocateKeys(headers: seq<string>, keys: seq<string>): (c: int)
    ensures c >= -1
  {
    FindColumn(HeaderMap(headers), keys)
  }

  /** The column of the first alias that some header normalises to, and -1 when none does (`idx(...names)`). */
  function Locate(headers: seq<string>, names: seq<string>): (c: int)
    ensures c >= -1
  {
    LocateKeys(headers, HeaderKeys(names))
  }

  /** The map built over the columns holds exactly the non-empty keys, each with
      the first column that holds it (a later duplicate header is ignored). */
  lemma {:induction false} FirstColumnsSpec(keys: seq<string>)
    ensures forall k :: k in FirstColumns(keys) <==> k != "" && k in keys
    ensures forall k :: k in FirstColumns(keys) ==> FirstAt(keys, k, FirstColumns(keys)[k])
  {
    if keys != [] {
      var last := |keys| - 1;
      var init := keys[..last];
      FirstColumnsSpec(init);
      assert keys == init + [keys[last]];
    }
  }

  /** The aliases are tried in order: -1 exactly when none is in the map, and
      otherwise the column of the first one that is. */
  lemma {:induction false} FindColumnSpec(hmap: map<string, nat>, keys: seq<string>)
    ensures FindColumn(hmap, keys) == -1 <==> forall i :: 0 <= i < |keys| ==> keys[i] !in hmap
    ensures FindColumn(hmap, keys) != -1 ==>
      exists i :: (0 <= i < |keys| && keys[i] in hmap && FindColumn(hmap, keys) == hmap[keys[i]]
                   && forall j :: 0 <= j < i ==> keys[j] !in hmap)
  {
    if keys != [] && keys[0] !in hmap {
      FindColumnSpec(hmap, keys[1..]);
      assert forall i :: 1 <= i < |keys| ==> keys[i] == keys[1..][i - 1];
      if FindColumn(hmap, keys) != -1 {
        var i :| 0 <= i < |keys[1..]| && keys[1..][i] in hmap && FindColumn(hmap, keys) == hmap[keys[1..][i]]
                 && forall j :: 0 <= j < i ==> keys[1..][j] !in hmap;
        assert keys[i + 1] in hmap;
      }
    }
  }

  /** `idx(...names)`: the aliases are tried in order; the first one some header
      matches gives that header's first column; -1 when none matches. */
  lemma LocateSpec(headers: seq<string>, names: seq<string>)
    ensures Locate(headers, names) == -1 <==> forall i :: 0 <= i < |names| ==> !HeaderPresent(headers, names[i])
    ensures Locate(headers, names) != -1 ==>
      exists i :: (0 <= i < |names| && HeaderPresent(headers, names[i])
                   && (forall j :: 0 <= j < i ==> !HeaderPresent(headers, names[j]))
                   && FirstAt(HeaderKeys(headers), NormalizeHeader(names[i]), Locate(headers, names)))
  {
    FirstColumnsSpec(HeaderKeys(headers));
    FindColumnSpec(HeaderMap(headers), HeaderKeys(names));
    assert forall i :: 0 <= i < |names| ==> HeaderKeys(names)[i] == NormalizeHeader(names[i]);
  }

  // ---------------------------------------------------------------------------
  // Treatment slots shared by the two layouts

  /** The non-empty ones of two parts, joined by one space. */
  function JoinPresent(a: string, b: string): string {
    if a != "" && b != "" then a + " " + b else if a != "" then a else b
  }

  lemma JoinPresentNonEmpty(a: string, b: string)
    ensures JoinPresent(a, b) == "" <==> a == "" && b == ""
  {
    if a != "" && b != "" { assert |JoinPresent(a, b)| == |a| + 1 + |b|; }
  }

  /** New-format slots 1 and 2: the slot fixes the kind and the description is
      "type area". The row's own token in the slot column only widens the guard. */
  function TypedSlot(kind: string, keywords: seq<string>, token: string, typ: string, area: string): seq<Treatment> {
    if area != "" || typ != "" || token in keywords then
      var desc := Trim(JoinPresent(typ, area));
      if desc != "" then [Treatment(kind, desc)] else []
    else []
  }

  /** `mapQ[token.toLowerCase()]`: only letter case is folded, diacritics are kept. */
  function AliasKind(token: string): Option<string> {
    var key := Lower(token);
    if key in AliasTable then Some(AliasTable[key]) else None
  }

  /** The kinds the alias table can produce. */
  const AliasKinds: set<string> := {"Laser", "Magnetronik", "Sollux", "Ultradźwięki"}

  /** A recognised token maps to one of the four alias kinds, never to the two
      kinds fixed by their own columns. */
  lemma AliasKindRange(token: string)
    ensures AliasKind(token).Some? ==> AliasKind(token).value in AliasKinds
    ensures Currents !in AliasKinds && Kinesio !in AliasKinds
  {
    var key := Lower(token);
    if key in AliasTable {
      assert key in {"laser", "mtc", "magnetoterapia", "magnetronik", "sollux", "ud", "ultradzwieki", "ultradźwięki"};
    }
  }

  /** A kind-token/area pair (new-format slots 3-5, block columns M/N, O/P, Q/R). */
  function AliasSlot(token: string, area: string): (ts: seq<Treatment>)
    ensures |ts| <= 1
    ensures forall t :: t in ts ==> t.kind in AliasKinds
  {
    AliasKindRange(token);
    if token == "" then []
    else match AliasKind(token)
      case None => []
      case Some(kind) => [Treatment(kind, Trim(area))]
  }

  // ---------------------------------------------------------------------------
  // New format (main.jsx:836-922)

  const CardHeaders: seq<string> := ["Numer karty", "numer karty"]
  const NameHeaders: seq<string> := ["Imię", "Imie"]
  const TimeHeaders: seq<string> := ["Godzina przyjścia", "Godzina przyjscia"]
  const Slot1Headers: seq<string> := ["Zabieg 1", "Z1", "Prądy", "Prady", "Zabieg1"]
  const Area1Headers: seq<string> := ["Okolica 1", "Okolica1"]
  const CurrentTypeHeaders: seq<string> := ["Rodzaj prądu 1", "Rodzaju prądu 1", "Rodzaj pradu 1", "Rodzaj pradu1", "Rodzaj prądu1"]
  const Slot2Headers: seq<string> := ["Zabieg 2", "Z2", "Kineza", "Zabieg2"]
  const Area2Headers: seq<string> := ["Okolica 2", "Okolica2"]
  const KineTypeHeaders: seq<string> := ["Rodzaj kinezy 2", "Rodzaj kinezy2", "Rodzaj kinesy 2", "Rodzaj kinesy2", "Rodzaj kinesy"]
  const Slot3Headers: seq<string> := ["Zabieg 3", "Z3"]
  const Area3Headers: seq<string> := ["Okolica 3", "Okolica3"]
  const Slot4Headers: seq<string> := ["Zabieg 4", "Z4"]
  const Area4Headers: seq<string> := ["Okolica 4", "Okolica4"]
  const Slot5Headers: seq<string> := ["Zabieg 5", "Z5"]
  const Area5Headers: seq<string> := ["Okolica 5", "Okolica5"]

  /** The slot-column tokens that by themselves open slot 1 and slot 2. */
  const CurrentsTokens: seq<string> := ["prądy", "prady"]
  const KinesioTokens: seq<string> := ["kineza"]

  /** The aliases above as `idx` compares them, after `normalizeHeader`: lower
      case, diacritics removed. */
  const CardKeys: seq<string> := ["numer karty", "numer karty"]
  const NameKeys: seq<string> := ["imie", "imie"]
  const TimeKeys: seq<string> := ["godzina przyjscia", "godzina przyjscia"]
  const Slot1Keys: seq<string> := ["zabieg 1", "z1", "prady", "prady", "zabieg1"]
  const Area1Keys: seq<string> := ["okolica 1", "okolica1"]
  const CurrentTypeKeys: seq<string> := ["rodzaj pradu 1", "rodzaju pradu 1", "rodzaj pradu 1", "rodzaj pradu1", "rodzaj pradu1"]
  const Slot2Keys: seq<string> := ["zabieg 2", "z2", "kineza", "zabieg2"]
  const Area2Keys: seq<string> := ["okolica 2", "okolica2"]
  const KineTypeKeys: seq<string> := ["rodzaj kinezy 2", "rodzaj kinezy2", "rodzaj kinesy 2", "rodzaj kinesy2", "rodzaj kinesy"]
  const Slot3Keys: seq<string> := ["zabieg 3", "z3"]
  const Area3Keys: seq<string> := ["okolica 3", "okolica3"]
  const Slot4Keys: seq<string> := ["zabieg 4", "z4"]
  const Area4Keys: seq<string> := ["okolica 4", "okolica4"]
  const Slot5Keys: seq<string> := ["zabieg 5", "z5"]
  const Area5Keys: seq<string> := ["okolica 5", "okolica5"]

  /** The located columns (A, B, C, Z1, O1, RP1, Z2, O2, RK2, Z3..O5 of the source). */
  datatype NewFormatColumns = NewFormatColumns(
    card: int, name: int, time: int,
    slot1: int, area1: int, currentType: int,
    slot2: int, area2: int, kineType: int,
    slot3: int, area3: int,
    slot4: int, area4: int,
    slot5: int, area5: int)

  function LocateColumns(headers: seq<string>): NewFormatColumns {
    NewFormatColumns(
      LocateKeys(headers, CardKeys), LocateKeys(headers, NameKeys), LocateKeys(headers, TimeKeys),
      LocateKeys(headers, Slot1Keys), LocateKeys(headers, Area1Keys), LocateKeys(headers, CurrentTypeKeys),
      LocateKeys(headers, Slot2Keys), LocateKeys(headers, Area2Keys), LocateKeys(headers, KineTypeKeys),
      LocateKeys(headers, Slot3Keys), LocateKeys(headers, Area3Keys),
      LocateKeys(headers, Slot4Keys), LocateKeys(headers, Area4Keys),
      LocateKeys(headers, Slot5Keys), LocateKeys(headers, Area5Keys))
  }

  /** The trimmed text of a located column ("" when the column is missing). */
  function Field(row: seq<string>, c: int): string {
    Trim(Cell(row, c))
  }

  /** The treatments of one new-format row, slot 1 to slot 5. */
  function NewFormatTreatments(cols: NewFormatColumns, row: seq<string>): seq<Treatment> {
    TypedSlot(Currents, CurrentsTokens, Lower(Field(row, cols.slot1)), Field(row, cols.currentType), Field(row, cols.area1))
    + TypedSlot(Kinesio, KinesioTokens, Lower(Field(row, cols.slot2)), Field(row, cols.kineType), Field(row, cols.area2))
    + AliasSlots(cols, row)
  }

  /** Slots 3 to 5. */
  function AliasSlots(cols: NewFormatColumns, row: seq<string>): (ts: seq<Treatment>)
    ensures |ts| <= 3
    ensures forall t :: t in ts ==> t.kind in AliasKinds
  {
    AliasSlot(Field(row, cols.slot3), Field(row, cols.area3))
    + AliasSlot(Field(row, cols.slot4), Field(row, cols.area4))
    + AliasSlot(Field(row, cols.slot5), Field(row, cols.area5))
  }

  /** One data row: skipped when its trimmed card is empty. */
  function NewFormatRow(cols: NewFormatColumns, row: seq<string>): Option<RowRecord> {
    var card := Field(row, cols.card);
    if card == "" then None
    else Some(RowRecord(card, Field(row, cols.name), Field(row, cols.time), NewFormatTreatments(cols, row)))
  }

  function NewFormatRecords(cols: NewFormatColumns, rows: seq<seq<string>>): seq<RowRecord> {
    Somes(seq(|rows|, i requires 0 <= i < |rows| => NewFormatRow(cols, rows[i])))
  }

  /** `parseNewFormatA`: the header row locates the columns, each data row with a card becomes a record. */
  function ParseNewFormat(sheet: Sheet): Registry {
    if sheet == [] then map[]
    else Accumulate(NewFormatRecords(LocateColumns(sheet[0]), sheet[1..]))
  }

  // ---------------------------------------------------------------------------
  // Block layout (main.jsx:775-833)

  /** The zero-based indices of the fixed columns D-H (currents), I-L
      (kinesitherapy) and the token/area pairs M/N, O/P, Q/R; BlockColumnIndices
      shows they are what `letterToIndex` gives for those letters. */
  const CurrentsColumns: seq<int> := [3, 4, 5, 6, 7]
  const KinesioColumns: seq<int> := [8, 9, 10, 11]
  const PairColumns: seq<(int, int)> := [(12, 13), (14, 15), (16, 17)]

  /** One fixed column: a treatment of `kind` when the cell is non-blank, described
      by the column's header label followed by the cell. */
  function LabelledCell(header: seq<string>, row: seq<string>, c: int, kind: string): seq<Treatment> {
    var area := Field(row, c);
    if area == "" then []
    else
      var typ := Field(header, c);
      [Treatment(kind, Trim(if typ != "" then typ + " " + area else area))]
  }

  /** A filled cell gives `type area` (or just `area` under an empty header label),
      which is already trimmed; a blank cell gives nothing. */
  lemma LabelledCellShape(header: seq<string>, row: seq<string>, c: int, kind: string)
    ensures LabelledCell(header, row, c, kind)
         == if Field(row, c) == "" then [] else [Treatment(kind, JoinPresent(Field(header, c), Field(row, c)))]
    ensures Trimmed(JoinPresent(Field(header, c), Field(row, c)))
  {
    if Field(row, c) != "" && Field(header, c) != "" {
      LabelledCellBoth(header, row, c, kind);
    } else if Field(row, c) != "" {
      LabelledCellArea(header, row, c, kind);
    }
  }

  lemma LabelledCellBoth(header: seq<string>, row: seq<string>, c: int, kind: string)
    requires Field(row, c) != "" && Field(header, c) != ""
    ensures LabelledCell(header, row, c, kind) == [Treatment(kind, Field(header, c) + " " + Field(row, c))]
    ensures Trimmed(Field(header, c) + " " + Field(row, c))
  {
    var s := Field(header, c) + " " + Field(row, c);
    TrimJoin(Field(header, c), Field(row, c));
    TrimIdentity(s);
  }

  lemma LabelledCellArea(header: seq<string>, row: seq<string>, c: int, kind: string)
    requires Field(row, c) != "" && Field(header, c) == ""
    ensures LabelledCell(header, row, c, kind) == [Treatment(kind, Field(row, c))]
  {
    TrimIdentity(Field(row, c));
  }

  /** The number of the given columns whose trimmed cell is non-empty. */
  function FilledCells(row: seq<string>, cols: seq<int>): nat {
    if cols == [] then 0 else (if Field(row, cols[0]) != "" then 1 else 0) + FilledCells(row, cols[1..])
  }

  /** A run of fixed columns, left to right: one treatment per filled cell, each
      of the run's kind and with a non-blank trimmed description. */
  function LabelledCells(header: seq<string>, row: seq<string>, cols: seq<int>, kind: string): (ts: seq<Treatment>)
    ensures |ts| == FilledCells(row, cols)
    ensures forall t :: t in ts ==> t.kind == kind && t.desc != "" && Trimmed(t.desc)
  {
    if cols == [] then []
    else
      LabelledCellShape(header, row, cols[0], kind);
      JoinPresentNonEmpty(Field(header, cols[0]), Field(row, cols[0]));
      LabelledCell(header, row, cols[0], kind) + LabelledCells(header, row, cols[1..], kind)
  }

  /** The token/area pairs, left to right: treatments only for tokens of the alias
      table, so only of the table's kinds. */
  function PairCells(row: seq<string>, pairs: seq<(int, int)>): (ts: seq<Treatment>)
    ensures |ts| <= |pairs|
    ensures forall t :: t in ts ==> t.kind in AliasKinds
  {
    if pairs == [] then []
    else
      AliasKindRange(Field(row, pairs[0].0));
      AliasSlot(Field(row, pairs[0].0), Field(row, pairs[0].1)) + PairCells(row, pairs[1..])
  }

  function BlockTreatments(header: seq<string>, row: seq<string>): seq<Treatment> {
    LabelledCells(header, row, CurrentsColumns, Currents)
    + LabelledCells(header, row, KinesioColumns, Kinesio)
    + PairCells(row, PairColumns)
  }

  /** One data row: card, name and time from columns A, B, C; skipped when the card is blank. */
  function BlockRow(header: seq<string>, row: seq<string>): Option<RowRecord> {
    var card := Field(row, 0);
    if card == "" then None
    else Some(RowRecord(card, Field(row, 1), Field(row, 2), BlockTreatments(header, row)))
  }

  function BlockRecords(header: seq<string>, rows: seq<seq<string>>): seq<RowRecord> {
    Somes(seq(|rows|, i requires 0 <= i < |rows| => BlockRow(header, rows[i])))
  }

  /** `parseByBlocksA1`: each data row with a card in column A becomes a record read from the fixed columns. */
  function ParseBlocks(sheet: Sheet): Registry {
    if sheet == [] then map[]
    else Accumulate(BlockRecords(sheet[0], sheet[1..]))
  }

  // ---------------------------------------------------------------------------
  // Fallback (main.jsx:946-949)

  /** The new-format result, unless it holds no treatment at all; then the block layout's. */
  function ChooseLayout(sheet: Sheet): Registry {
    var v2 := ParseNewFormat(sheet);
    if HasTreatments(v2) then v2 else ParseBlocks(sheet)
  }

  // ---------------------------------------------------------------------------
  // Properties

  /** The number of treatments of one kind. */
  function CountKind(ts: seq<Treatment>, kind: string): nat {
    if ts == [] then 0 else (if ts[0].kind == kind then 1 else 0) + CountKind(ts[1..], kind)
  }

  lemma {:induction false} CountKindAppend(a: seq<Treatment>, b: seq<Treatment>, kind: string)
    ensures CountKind(a + b, kind) == CountKind(a, kind) + CountKind(b, kind)
  {
    if a != [] {
      assert (a + b)[1..] == a[1..] + b;
      CountKindAppend(a[1..], b, kind);
    } else {
      assert a + b == b;
    }
  }

  /** Counting a kind that every treatment has gives the length; one that none has gives 0. */
  lemma {:induction false} CountKindUniform(ts: seq<Treatment>, kind: string)
    ensures (forall t: Treatment :: t in ts ==> t.kind == kind) ==> CountKind(ts, kind) == |ts|
    ensures (forall t: Treatment :: t in ts ==> t.kind != kind) ==> CountKind(ts, kind) == 0
  {
    if ts != [] {
      assert forall t :: t in ts[1..] ==> t in ts;
      CountKindUniform(ts[1..], kind);
    }
  }

  /** The fixed block columns are D-H, I-L and the pairs M/N, O/P, Q/R as
      zero-based indices: `letterToIndex` of a single letter is its alphabet position. */
  lemma BlockColumnIndices()
    ensures ColumnIndex("A") == 0 && ColumnIndex("B") == 1 && ColumnIndex("C") == 2
    ensures CurrentsColumns == [ColumnIndex("D"), ColumnIndex("E"), ColumnIndex("F"), ColumnIndex("G"), ColumnIndex("H")]
    ensures KinesioColumns == [ColumnIndex("I"), ColumnIndex("J"), ColumnIndex("K"), ColumnIndex("L")]
    ensures PairColumns == [(ColumnIndex("M"), ColumnIndex("N")), (ColumnIndex("O"), ColumnIndex("P")), (ColumnIndex("Q"), ColumnIndex("R"))]
  {
    forall c | 'A' <= c <= 'R' ensures ColumnIndex([c]) == c as int - 65 {
      SingleLetter(c);
    }
  }

  /** New-format slots 1 and 2 emit exactly when the row has a type or an area;
      the description joins them with one space, and the token in the slot's
      own column never matters. */
  lemma TypedSlotSpec(kind: string, keywords: seq<string>, token: string, typ: string, area: string)
    requires Trimmed(typ) && Trimmed(area)
    ensures TypedSlot(kind, keywords, token, typ, area)
         == if typ == "" && area == "" then [] else [Treatment(kind, JoinPresent(typ, area))]
  {
    var j := JoinPresent(typ, area);
    TrimJoinPresent(typ, area);
    assert Trim(j) == j;
    if typ == "" && area == "" {
      assert j == "";
    } else {
      JoinPresentNonEmpty(typ, area);
    }
  }

  /** `[a, b].filter(Boolean).join(" ").trim()` of two trimmed strings needs no trim. */
  lemma TrimJoinPresent(a: string, b: string)
    requires Trimmed(a) && Trimmed(b)
    ensures Trim(JoinPresent(a, b)) == JoinPresent(a, b)
  {
    if a != "" && b != "" {
      TrimJoin(a, b);
    } else if a != "" {
      TrimIdentity(a);
    } else {
      TrimIdentity(b);
    }
  }

  /** Slots 3-5 and the block pairs: a treatment exactly when the token is in the
      alias table after lower-casing, of the kind the table gives, described by the area. */
  lemma AliasSlotSpec(token: string, area: string)
    requires Trimmed(area)
    ensures AliasSlot(token, area) == match AliasKind(token)
                                      case None => []
                                      case Some(kind) => [Treatment(kind, area)]
  {
    AliasSlotUntrimmed(token, area);
    TrimIdentity(area);
  }

  lemma AliasSlotUntrimmed(token: string, area: string)
    ensures AliasSlot(token, area) == match AliasKind(token)
                                      case None => []
                                      case Some(kind) => [Treatment(kind, Trim(area))]
  {
    if token == "" {
      assert Lower(token) == "";
    }
  }

  /** Counting over three runs: one of kind `k1`, one of kind `k2`, and one of
      neither kind. */
  lemma CountRuns(a: seq<Treatment>, b: seq<Treatment>, rest: seq<Treatment>, k1: string, k2: string)
    requires k1 != k2
    requires forall t :: t in a ==> t.kind == k1
    requires forall t :: t in b ==> t.kind == k2
    requires forall t :: t in rest ==> t.kind != k1 && t.kind != k2
    ensures CountKind(a + b + rest, k1) == |a|
    ensures CountKind(a + b + rest, k2) == |b|
  {
    CountKindUniform(a, k1);
    CountKindUniform(a, k2);
    CountKindUniform(b, k1);
    CountKindUniform(b, k2);
    CountKindUniform(rest, k1);
    CountKindUniform(rest, k2);
    CountKindAppend(a + b, rest, k1);
    CountKindAppend(a, b, k1);
    CountKindAppend(a + b, rest, k2);
    CountKindAppend(a, b, k2);
  }

  /** A new-format row yields a record exactly when its card cell is non-blank,
      and the record carries that card. */
  lemma NewFormatRowCard(cols: NewFormatColumns, row: seq<string>)
    ensures NewFormatRow(cols, row).Some? <==> Field(row, cols.card) != ""
    ensures NewFormatRow(cols, row).Some? ==> NewFormatRow(cols, row).value.card == Field(row, cols.card)
  {
  }

  /** A new-format row has at most one treatment per slot, and one "Prądy"
      (resp. "Kineza") treatment exactly when it fills that slot's type or area. */
  lemma NewFormatRowCounts(cols: NewFormatColumns, row: seq<string>)
    ensures var ts := NewFormatTreatments(cols, row);
      && |ts| <= 5
      && CountKind(ts, Currents) == (if Field(row, cols.currentType) != "" || Field(row, cols.area1) != "" then 1 else 0)
      && CountKind(ts, Kinesio) == (if Field(row, cols.kineType) != "" || Field(row, cols.area2) != "" then 1 else 0)
  {
    var t1 := TypedSlot(Currents, CurrentsTokens, Lower(Field(row, cols.slot1)), Field(row, cols.currentType), Field(row, cols.area1));
    var t2 := TypedSlot(Kinesio, KinesioTokens, Lower(Field(row, cols.slot2)), Field(row, cols.kineType), Field(row, cols.area2));
    TypedSlotCount(Currents, CurrentsTokens, Lower(Field(row, cols.slot1)), Field(row, cols.currentType), Field(row, cols.area1));
    TypedSlotCount(Kinesio, KinesioTokens, Lower(Field(row, cols.slot2)), Field(row, cols.kineType), Field(row, cols.area2));
    AliasKindRange("");
    CountRuns(t1, t2, AliasSlots(cols, row), Currents, Kinesio);
  }

  /** A typed slot gives one treatment of its kind when the row has a type or an area, none otherwise. */
  lemma TypedSlotCount(kind: string, keywords: seq<string>, token: string, typ: string, area: string)
    requires Trimmed(typ) && Trimmed(area)
    ensures |TypedSlot(kind, keywords, token, typ, area)| == if typ != "" || area != "" then 1 else 0
    ensures forall t :: t in TypedSlot(kind, keywords, token, typ, area) ==> t.kind == kind
  {
    TypedSlotSpec(kind, keywords, token, typ, area);
  }

  /** A block row yields a record exactly when column A is non-blank, and the
      record carries that card. */
  lemma BlockRowCard(header: seq<string>, row: seq<string>)
    ensures BlockRow(header, row).Some? <==> Field(row, 0) != ""
    ensures BlockRow(header, row).Some? ==> BlockRow(header, row).value.card == Field(row, 0)
  {
  }

  /** The "Prądy" treatments of a block row are one per filled cell of D-H, its
      "Kineza" ones one per filled cell of I-L, and the pairs add at most three more. */
  lemma BlockRowCounts(header: seq<string>, row: seq<string>)
    ensures var ts := BlockTreatments(header, row);
      && |ts| <= 12
      && CountKind(ts, Currents) == FilledCells(row, CurrentsColumns)
      && CountKind(ts, Kinesio) == FilledCells(row, KinesioColumns)
  {
    FilledCellsBound(row, CurrentsColumns);
    FilledCellsBound(row, KinesioColumns);
    AliasKindRange("");
    CountRuns(LabelledCells(header, row, CurrentsColumns, Currents), LabelledCells(header, row, KinesioColumns, Kinesio),
              PairCells(row, PairColumns), Currents, Kinesio);
  }

  lemma {:induction false} FilledCellsBound(row: seq<string>, cols: seq<int>)
    ensures FilledCells(row, cols) <= |cols|
  {
    if cols != [] { FilledCellsBound(row, cols[1..]); }
  }

  /** A missing column reads as blank. */
  lemma MissingColumnBlank(row: seq<string>)
    ensures Field(row, -1) == ""
  {
  }

  lemma {:induction false} FilledCellsPositive(row: seq<string>, cols: seq<int>, c: int)
    requires c in cols && Field(row, c) != ""
    ensures FilledCells(row, cols) > 0
  {
    if cols[0] != c {
      FilledCellsPositive(row, cols[1..], c);
    }
  }

  /** The cards of the present records are the cards of the `Some` rows. */
  lemma SomesCards(os: seq<Option<RowRecord>>)
    ensures Cards(Somes(os)) == set i | 0 <= i < |os| && os[i].Some? :: os[i].value.card
  {
    var recs := Somes(os);
    var rhs := set i | 0 <= i < |os| && os[i].Some? :: os[i].value.card;
    forall c | c in Cards(recs) ensures c in rhs {
      var i :| 0 <= i < |recs| && recs[i].card == c;
      assert Some(recs[i]) in os;
      var j :| 0 <= j < |os| && os[j] == Some(recs[i]);
    }
    forall c | c in rhs ensures c in Cards(recs) {
      var j :| 0 <= j < |os| && os[j].Some? && os[j].value.card == c;
      assert os[j].value in recs;
      var i :| 0 <= i < |recs| && recs[i] == os[j].value;
    }
  }

  /** A present record with a treatment makes the accumulated result hold one. */
  lemma SomeTreatment(os: seq<Option<RowRecord>>, j: int)
    requires 0 <= j < |os| && os[j].Some? && os[j].value.treatments != []
    ensures HasTreatments(Accumulate(Somes(os)))
  {
    var recs := Somes(os);
    assert os[j].value in recs;
    var i :| 0 <= i < |recs| && recs[i] == os[j].value;
    AccumulateHasTreatments(recs);
  }

  /** No present record has a treatment, so neither does the accumulated result. */
  lemma NoTreatment(os: seq<Option<RowRecord>>)
    requires forall j :: 0 <= j < |os| && os[j].Some? ==> os[j].value.treatments == []
    ensures !HasTreatments(Accumulate(Somes(os)))
  {
    var recs := Somes(os);
    forall i | 0 <= i < |recs| ensures recs[i].treatments == [] {
      assert Some(recs[i]) in os;
    }
    AccumulateHasTreatments(recs);
  }

  /** The trimmed cells of one column over the data rows. */
  function TrimmedColumn(rows: seq<seq<string>>, c: int): (cells: seq<string>)
    ensures |cells| == |rows|
  {
    seq(|rows|, i requires 0 <= i < |rows| => Field(rows[i], c))
  }

  /** The non-blank values among the cells. */
  function NonBlank(cells: seq<string>): set<string> {
    set i | 0 <= i < |cells| && cells[i] != "" :: cells[i]
  }

  /** Rows keyed by their card cells: the accumulated result has exactly the
      non-blank cards as keys. */
  lemma KeysOfRows(os: seq<Option<RowRecord>>, cards: seq<string>)
    requires |os| == |cards|
    requires forall i :: 0 <= i < |os| ==> (os[i].Some? <==> cards[i] != "")
    requires forall i :: 0 <= i < |os| && os[i].Some? ==> os[i].value.card == cards[i]
    ensures Accumulate(Somes(os)).Keys == NonBlank(cards)
  {
    AccumulateSpec(Somes(os));
    SomesCards(os);
  }

  /** The block layout keys exactly the data rows with a non-blank column A,
      by that trimmed cell. */
  lemma BlockKeys(sheet: Sheet)
    requires sheet != []
    ensures ParseBlocks(sheet).Keys == NonBlank(TrimmedColumn(sheet[1..], 0))
  {
    var rows := sheet[1..];
    var os := seq(|rows|, i requires 0 <= i < |rows| => BlockRow(sheet[0], rows[i]));
    var cards := TrimmedColumn(rows, 0);
    forall i | 0 <= i < |rows|
      ensures os[i].Some? <==> cards[i] != ""
      ensures os[i].Some? ==> os[i].value.card == cards[i]
    {
      BlockRowCard(sheet[0], rows[i]);
    }
    KeysOfRows(os, cards);
  }

  /** The new format keys exactly the data rows whose card column is non-blank. */
  lemma NewFormatKeys(cols: NewFormatColumns, rows: seq<seq<string>>)
    ensures Accumulate(NewFormatRecords(cols, rows)).Keys == NonBlank(TrimmedColumn(rows, cols.card))
  {
    var os := seq(|rows|, i requires 0 <= i < |rows| => NewFormatRow(cols, rows[i]));
    var cards := TrimmedColumn(rows, cols.card);
    forall i | 0 <= i < |rows|
      ensures os[i].Some? <==> cards[i] != ""
      ensures os[i].Some? ==> os[i].value.card == cards[i]
    {
      NewFormatRowCard(cols, rows[i]);
    }
    KeysOfRows(os, cards);
  }

  /** Without a card column no row is read at all. */
  lemma NoCardColumnNoRecords(cols: NewFormatColumns, rows: seq<seq<string>>)
    requires cols.card == -1
    ensures Accumulate(NewFormatRecords(cols, rows)) == map[]
  {
    NewFormatKeys(cols, rows);
    var cards := TrimmedColumn(rows, -1);
    forall i | 0 <= i < |cards| ensures cards[i] == "" {
      MissingColumnBlank(rows[i]);
    }
    assert NonBlank(cards) == {};
  }

  /** A header row without cells locates no column. */
  lemma EmptyHeaderRow(header: seq<string>)
    requires |header| == 0
    ensures LocateColumns(header) == NewFormatColumns(-1, -1, -1, -1, -1, -1, -1, -1, -1, -1, -1, -1, -1, -1, -1)
    ensures NoSlotColumns(LocateColumns(header))
  {
    assert |HeaderKeys(header)| == 0;
    assert HeaderMap(header) == map[];
    forall keys: seq<string> ensures FindColumn(map[], keys) == -1 {
      FindColumnSpec(map[], keys);
    }
  }

  /** A sheet without a card header gives the new format nothing at all. */
  lemma NoCardColumn(sheet: Sheet)
    requires sheet != [] && LocateColumns(sheet[0]).card == -1
    ensures ParseNewFormat(sheet) == map[]
  {
    NoCardColumnNoRecords(LocateColumns(sheet[0]), sheet[1..]);
  }

  /** None of the columns that can produce a treatment was found: no type or
      area column for slots 1 and 2, no kind column for slots 3 to 5. */
  predicate NoSlotColumns(cols: NewFormatColumns) {
    && cols.currentType == -1 && cols.area1 == -1
    && cols.kineType == -1 && cols.area2 == -1
    && cols.slot3 == -1 && cols.slot4 == -1 && cols.slot5 == -1
  }

  /** Without any type, area or slot 3-5 column a new-format row has no treatment. */
  lemma NoSlotColumnsRow(cols: NewFormatColumns, row: seq<string>)
    requires NoSlotColumns(cols)
    ensures NewFormatTreatments(cols, row) == []
  {
    MissingColumnBlank(row);
    NewFormatRowCounts(cols, row);
    AliasSlotUntrimmed("", Field(row, cols.area3));
    AliasSlotUntrimmed("", Field(row, cols.area4));
    AliasSlotUntrimmed("", Field(row, cols.area5));
  }

  /** Rows read through columns that have none of the type, area or slot 3-5
      columns hold no treatment. */
  lemma NoSlotColumnsNoTreatments(cols: NewFormatColumns, rows: seq<seq<string>>)
    requires NoSlotColumns(cols)
    ensures !HasTreatments(Accumulate(NewFormatRecords(cols, rows)))
  {
    var os := seq(|rows|, i requires 0 <= i < |rows| => NewFormatRow(cols, rows[i]));
    forall j | 0 <= j < |os| && os[j].Some? ensures os[j].value.treatments == [] {
      NoSlotColumnsRow(cols, rows[j]);
    }
    NoTreatment(os);
  }

  /** A sheet whose header row has none of the type, area or slot 3-5 columns
      gives the new format no treatment ... */
  lemma NoSlotColumnsNoNewFormat(sheet: Sheet)
    requires sheet != [] && NoSlotColumns(LocateColumns(sheet[0]))
    ensures !HasTreatments(ParseNewFormat(sheet))
  {
    NoSlotColumnsNoTreatments(LocateColumns(sheet[0]), sheet[1..]);
  }

  /** ... so the block layout is used. */
  lemma NoSlotColumnsFallsBack(sheet: Sheet)
    requires sheet != [] && NoSlotColumns(LocateColumns(sheet[0]))
    ensures ChooseLayout(sheet) == ParseBlocks(sheet)
  {
    NoSlotColumnsNoNewFormat(sheet);
  }

  /** A block row with a card and a filled cell in D-L has a treatment. */
  lemma BlockRowHasTreatment(header: seq<string>, row: seq<string>, c: int)
    requires Field(row, 0) != ""
    requires 3 <= c <= 11 && Field(row, c) != ""
    ensures BlockRow(header, row).Some? && BlockRow(header, row).value.treatments != []
  {
    if c <= 7 {
      assert CurrentsColumns[c - 3] == c;
      FilledCellsPositive(row, CurrentsColumns, c);
      assert LabelledCells(header, row, CurrentsColumns, Currents) != [];
    } else {
      assert KinesioColumns[c - 8] == c;
      FilledCellsPositive(row, KinesioColumns, c);
      assert LabelledCells(header, row, KinesioColumns, Kinesio) != [];
    }
  }

  /** A data row with a card in column A and any filled cell in D-L gives the
      block layout a treatment. */
  lemma BlockRowWithTreatment(sheet: Sheet, r: int, c: int)
    requires 1 <= r < |sheet|
    requires Field(sheet[r], 0) != ""
    requires 3 <= c <= 11 && Field(sheet[r], c) != ""
    ensures HasTreatments(ParseBlocks(sheet))
  {
    var rows := sheet[1..];
    assert rows[r - 1] == sheet[r];
    BlockRecordsWithTreatment(sheet[0], rows, r - 1, c);
  }

  /** The same for the data rows alone. */
  lemma BlockRecordsWithTreatment(header: seq<string>, rows: seq<seq<string>>, k: int, c: int)
    requires 0 <= k < |rows|
    requires Field(rows[k], 0) != ""
    requires 3 <= c <= 11 && Field(rows[k], c) != ""
    ensures HasTreatments(Accumulate(BlockRecords(header, rows)))
  {
    BlockRowHasTreatment(header, rows[k], c);
    var os := seq(|rows|, i requires 0 <= i < |rows| => BlockRow(header, rows[i]));
    assert os[k] == BlockRow(header, rows[k]);
    SomeTreatment(os, k);
  }

  /** The chosen result has a treatment exactly when either layout finds one. */
  lemma ChooseLayoutSpec(sheet: Sheet)
    ensures HasTreatments(ChooseLayout(sheet)) <==> HasTreatments(ParseNewFormat(sheet)) || HasTreatments(ParseBlocks(sheet))
  {
  }

  /** A data row with a card and a filled slot-1 type or area gives the new
      format a treatment, so the new format's result is the one used. */
  lemma NewFormatChosen(sheet: Sheet, r: int)
    requires 1 <= r < |sheet|
    requires Field(sheet[r], LocateColumns(sheet[0]).card) != ""
    requires Field(sheet[r], LocateColumns(sheet[0]).currentType) != "" || Field(sheet[r], LocateColumns(sheet[0]).area1) != ""
    ensures HasTreatments(ParseNewFormat(sheet))
    ensures ChooseLayout(sheet) == ParseNewFormat(sheet)
  {
    var rows := sheet[1..];
    assert rows[r - 1] == sheet[r];
    NewFormatRecordsWithTreatment(LocateColumns(sheet[0]), rows, r - 1);
  }

  /** The same for the data rows read through given columns. */
  lemma NewFormatRecordsWithTreatment(cols: NewFormatColumns, rows: seq<seq<string>>, k: int)
    requires 0 <= k < |rows|
    requires Field(rows[k], cols.card) != ""
    requires Field(rows[k], cols.currentType) != "" || Field(rows[k], cols.area1) != ""
    ensures HasTreatments(Accumulate(NewFormatRecords(cols, rows)))
  {
    var os := seq(|rows|, i requires 0 <= i < |rows| => NewFormatRow(cols, rows[i]));
    NewFormatRowCounts(cols, rows[k]);
    assert NewFormatTreatments(cols, rows[k]) != [];
    assert os[k] == NewFormatRow(cols, rows[k]);
    SomeTreatment(os, k);
  }

  /** The fallback of a sheet with only fixed block columns: no slot header is
      found, a data row has a card in A and a filled cell in D-L, and the
      chosen result is the block layout's, which holds a treatment. */
  lemma ParserFallback(sheet: Sheet, r: int, c: int)
    requires sheet != [] && NoSlotColumns(LocateColumns(sheet[0]))
    requires 1 <= r < |sheet| && Field(sheet[r], 0) != ""
    requires 3 <= c <= 11 && Field(sheet[r], c) != ""
    ensures ChooseLayout(sheet) == ParseBlocks(sheet)
    ensures HasTreatments(ChooseLayout(sheet))
  {
    NoSlotColumnsFallsBack(sheet);
    BlockRowWithTreatment(sheet, r, c);
  }
}

=== FILE: model.dfy ===
/** The entities of the clinic's import/queue/cohort engine and the application
    state they live in (main.jsx:7, 622-656, 672). Persisted values (the registry,
    day counters, start dates, archive, last file names) are plain fields here. */
module Model {

  datatype Option<T> = None | Some(value: T)

  /** The two independent patient populations ("ambu", "dzienni"). */
  datatype Cohort = Ambu | Dzienni

  /** One treatment of a patient. `kind` is a string: parsers and manual edits can
      produce kinds outside the rendered list (the alias target "Magnetronik", or a
      raw "Zabieg N" cell). */
  datatype Treatment = Treatment(kind: string, desc: string)

  /** A registry record. `time` is the arrival time, "" when the record has none
      (the source tests it with `!p.time`, which treats both alike). */
  datatype Patient = Patient(name: string, time: string, treatments: seq<Treatment>, cohort: Option<Cohort>)

  /** One entry of a per-kind queue. The removal timer handle `t` is not stored
      here: pending timers live in `AppState.timers`. */
  datatype QueueEntry = QueueEntry(
    id: string,
    card: string,
    name: string,
    desc: string,
    done: bool,
    manualPriority: bool,
    manualChangedAt: Option<int>)

  /** A scheduled "remove this entry" callback: the queue kind and the entry id it filters by. */
  datatype TimerKey = TimerKey(kind: string, id: string)

  /** A closed tour: `id` is the ISO timestamp of the close, `archivedAt` an older
      spelling of the same stamp ("" when absent), `name` the last imported file name. */
  datatype ArchivedTour = ArchivedTour(id: string, archivedAt: string, name: Option<string>, patients: map<string, Patient>)

  type Registry = map<string, Patient>
  type Queues = map<string, seq<QueueEntry>>
  type Archive = map<Cohort, seq<ArchivedTour>>

  /** Everything the handlers read and write. `timers` is a multiset because
      deleting an entry does not cancel its timer, so one key can be scheduled twice. */
  datatype AppState = AppState(
    patients: Registry,
    queues: Queues,
    timers: multiset<TimerKey>,
    registered: seq<string>,
    cohortDays: map<Cohort, nat>,
    cohortStart: map<Cohort, string>,
    lastFileName: map<Cohort, string>,
    archived: Archive)

  /** `ALL_TREATMENTS`: the queue kinds that exist from the start and are rendered. */
  const AllTreatments: seq<string> := ["Prądy", "Laser", "Ultradźwięki", "Magnetoterapia", "Sollux", "Kineza"]

  const Currents: string := "Prądy"
  const Kinesio: string := "Kineza"

  /** `mapQ`: lower-cased spreadsheet token to queue kind. Three tokens map to
      "Magnetronik", which is not one of `AllTreatments`. */
  const AliasTable: map<string, string> := map[
    "laser" := "Laser",
    "mtc" := "Magnetronik",
    "magnetoterapia" := "Magnetronik",
    "magnetronik" := "Magnetronik",
    "sollux" := "Sollux",
    "ud" := "Ultradźwięki",
    "ultradzwieki" := "Ultradźwięki",
    "ultradźwięki" := "Ultradźwięki"
  ]

  /** A queue by kind; a kind with no key reads as an empty queue. */
  function Queue(q: Queues, kind: string): seq<QueueEntry> {
    if kind in q then q[kind] else []
  }

  /** The cohort's day counter; an unset counter reads as 0. */
  function Day(st: AppState, c: Cohort): nat {
    if c in st.cohortDays then st.cohortDays[c] else 0
  }

  /** `cohortStart[which]`, "" when unset. */
  function StartDate(st: AppState, c: Cohort): string {
    if c in st.cohortStart then st.cohortStart[c] else ""
  }

  /** The cohort's archived tours; an unset cohort has none. */
  function Tours(a: Archive, c: Cohort): seq<ArchivedTour> {
    if c in a then a[c] else []
  }

  /** Whether a parse result holds any treatment at all. The source sums the
      treatment counts and compares the sum with zero; a sum of counts is zero
      exactly when every count is. */
  predicate HasTreatments(m: Registry) {
    exists card :: card in m && m[card].treatments != []
  }

  /** The values present in a sequence of options, in order. */
  function Somes<T(!new)>(os: seq<Option<T>>): (r: seq<T>)
    ensures |r| <= |os|
    ensures forall x :: x in r <==> Some(x) in os
  {
    if os == [] then []
    else Somes(os[..|os| - 1]) + (match os[|os| - 1] case None => [] case Some(x) => [x])
  }

  /** The state a fresh browser starts from: six empty queues, day counters at 0,
      no start dates, empty archives (main.jsx:639-656, 368). */
  function InitialState(): (st: AppState)
    ensures forall k :: k in st.queues <==> k in AllTreatments
    ensures forall k :: k in st.queues ==> st.queues[k] == []
    ensures Day(st, Ambu) == 0 && Day(st, Dzienni) == 0
  {
    AppState(
      map[],
      map k | k in AllTreatments :: [],
      multiset{},
      [],
      map[Ambu := 0, Dzienni := 0],
      map[Ambu := "", Dzienni := ""],
      map[],
      map[Ambu := [], Dzienni := []])
  }
}

=== FILE: queues.dfy ===
/** The per-kind treatment queues: enrolment (`addToQueues`, main.jsx:1031-1046),
    the done toggle with its delayed removal (`toggleDone`, main.jsx:1080-1100),
    the two manual moves (main.jsx:694-717), the active counts (main.jsx:1102)
    and the removal of a set of cards from every queue. */
module Queues {
  import opened Text
  import opened Model

  // ---------------------------------------------------------------------------
  // Sequence helpers

  /** `arr.findIndex(x => x.id === id)`: the first position holding `id`, or -1. */
  function IndexOf(q: seq<QueueEntry>, id: string): (i: int)
    ensures -1 <= i < |q|
    ensures i >= 0 ==> q[i].id == id && forall j :: 0 <= j < i ==> q[j].id != id
    ensures i == -1 <==> forall j :: 0 <= j < |q| ==> q[j].id != id
  {
    if q == [] then -1
    else if q[0].id == id then 0
    else
      var i := IndexOf(q[1..], id);
      assert forall j :: 1 <= j < |q| ==> q[j] == q[1..][j - 1];
      if i == -1 then -1 else i + 1
  }

  /** Some entry of the queue has this id. */
  predicate HasId(q: seq<QueueEntry>, id: string) {
    exists j :: 0 <= j < |q| && q[j].id == id
  }

  /** The ids of a queue, in queue order. */
  function Ids(q: seq<QueueEntry>): (r: seq<string>)
    ensures |r| == |q|
  {
    seq(|q|, i requires 0 <= i < |q| => q[i].id)
  }

  /** No id occurs twice in the queue. */
  predicate UniqueIds(q: seq<QueueEntry>) {
    forall i, j :: 0 <= i < j < |q| ==> q[i].id != q[j].id
  }

  /** The queue without the entries having this id, in order. */
  function WithoutId(q: seq<QueueEntry>, id: string): (r: seq<QueueEntry>)
    ensures forall e :: e in r <==> e in q && e.id != id
    ensures |r| <= |q|
  {
    if q == [] then []
    else (if q[0].id != id then [q[0]] else []) + WithoutId(q[1..], id)
  }

  /** The queue without the entries of the dropped cards, in order. */
  function WithoutCards(q: seq<QueueEntry>, drop: set<string>): (r: seq<QueueEntry>)
    ensures forall e :: e in r <==> e in q && e.card !in drop
    ensures |r| <= |q|
  {
    if q == [] then []
    else (if q[0].card !in drop then [q[0]] else []) + WithoutCards(q[1..], drop)
  }

  /** Filtering keeps the relative order: it distributes over concatenation. */
  lemma {:induction false} WithoutCardsAppend(a: seq<QueueEntry>, b: seq<QueueEntry>, drop: set<string>)
    ensures WithoutCards(a + b, drop) == WithoutCards(a, drop) + WithoutCards(b, drop)
  {
    if a == [] {
      assert a + b == b;
    } else {
      assert (a + b)[1..] == a[1..] + b;
      WithoutCardsAppend(a[1..], b, drop);
    }
  }

  /** The id filter keeps the relative order too: it distributes over concatenation. */
  lemma {:induction false} WithoutIdAppend(a: seq<QueueEntry>, b: seq<QueueEntry>, id: string)
    ensures WithoutId(a + b, id) == WithoutId(a, id) + WithoutId(b, id)
  {
    if a == [] {
      assert a + b == b;
    } else {
      assert (a + b)[1..] == a[1..] + b;
      WithoutIdAppend(a[1..], b, id);
    }
  }

  /** Dropping no card changes nothing. */
  lemma {:induction false} WithoutNoCards(q: seq<QueueEntry>)
    ensures WithoutCards(q, {}) == q
  {
    if q != [] {
      WithoutNoCards(q[1..]);
    }
  }

  /** Every queue with the entries of the dropped cards filtered out. */
  function DropCards(qs: Queues, drop: set<string>): (r: Queues)
    ensures r.Keys == qs.Keys
  {
    map k | k in qs :: WithoutCards(qs[k], drop)
  }

  // ---------------------------------------------------------------------------
  // Enrolment (main.jsx:1031-1046)

  /** `${card}:${t.kind}:${(t.desc||'').trim()}`: the description is trimmed here
      but stored untrimmed in the entry. */
  function EntryId(card: string, kind: string, desc: string): string {
    card + ":" + kind + ":" + Trim(desc)
  }

  function NewEntry(card: string, name: string, t: Treatment): QueueEntry {
    QueueEntry(EntryId(card, t.kind, t.desc), card, name, t.desc, false, false, None)
  }

  /** One treatment: its queue is created when missing, and an entry is appended
      unless one with the same id is already there. */
  function Enroll(qs: Queues, card: string, name: string, t: Treatment): Queues {
    var q := Queue(qs, t.kind);
    if HasId(q, EntryId(card, t.kind, t.desc)) then qs[t.kind := q]
    else qs[t.kind := q + [NewEntry(card, name, t)]]
  }

  /** The treatments in list order. */
  function EnrollAll(qs: Queues, card: string, name: string, ts: seq<Treatment>): Queues
    decreases |ts|
  {
    if ts == [] then qs else EnrollAll(Enroll(qs, card, name, ts[0]), card, name, ts[1..])
  }

  /** `addToQueues`: a no-op for an unknown card; otherwise every treatment is
      enrolled and the card is appended to the registered list. */
  function AddToQueues(st: AppState, card: string): AppState {
    if card !in st.patients then st
    else
      var p := st.patients[card];
      st.(queues := EnrollAll(st.queues, card, p.name, p.treatments), registered := st.registered + [card])
  }

  /** What enrolment leaves in place: every queue of `qs` is a prefix of the same
      queue afterwards, and the kinds are those of `qs` plus the treatments' kinds. */
  lemma {:induction false} EnrollAllExtends(qs: Queues, card: string, name: string, ts: seq<Treatment>)
    ensures var r := EnrollAll(qs, card, name, ts);
      && (forall k :: k in r <==> k in qs || exists t :: t in ts && t.kind == k)
      && (forall k :: Queue(qs, k) <= Queue(r, k))
    decreases |ts|
  {
    if ts != [] {
      var qs1 := Enroll(qs, card, name, ts[0]);
      EnrollAllExtends(qs1, card, name, ts[1..]);
      forall k ensures Queue(qs, k) <= Queue(qs1, k) {
        if k == ts[0].kind {
          assert Queue(qs, k) <= Queue(qs1, k);
        }
      }
      var r := EnrollAll(qs, card, name, ts);
      forall k | k in r ensures k in qs || exists t :: t in ts && t.kind == k {
        if k !in qs && k != ts[0].kind {
          var t :| t in ts[1..] && t.kind == k;
          assert t in ts;
        }
      }
      forall k | exists t :: t in ts && t.kind == k ensures k in r {
        var t :| t in ts && t.kind == k;
        if t != ts[0] {
          assert t in ts[1..];
        }
      }
    }
  }

  /** One enrolment appends at most the treatment's entry, to its own kind's queue. */
  lemma EnrollQueue(qs: Queues, card: string, name: string, t: Treatment, k: string)
    ensures Queue(Enroll(qs, card, name, t), k)
         == if k == t.kind && !HasId(Queue(qs, k), EntryId(card, t.kind, t.desc)) then Queue(qs, k) + [NewEntry(card, name, t)]
            else Queue(qs, k)
  {
  }

  /** `e` is the entry enrolment makes for one of the treatments `ts` of kind `k`. */
  predicate EnrolledFrom(e: QueueEntry, card: string, name: string, ts: seq<Treatment>, k: string) {
    exists t :: t in ts && t.kind == k && e == NewEntry(card, name, t)
  }

  /** Everything enrolment appends is a fresh, pending entry of this card for
      one of the treatments, under that treatment's id. */
  lemma EnrollAllAppends(qs: Queues, card: string, name: string, ts: seq<Treatment>, k: string)
    ensures var before := Queue(qs, k); var after := Queue(EnrollAll(qs, card, name, ts), k);
      forall i :: |before| <= i < |after| ==>
        && after[i].card == card && after[i].name == name && !after[i].done && !after[i].manualPriority
        && EnrolledFrom(after[i], card, name, ts, k)
  {
    EnrollAllFrom(qs, card, name, ts, k);
    var after := Queue(EnrollAll(qs, card, name, ts), k);
    forall i | |Queue(qs, k)| <= i < |after|
      ensures after[i].card == card && after[i].name == name && !after[i].done && !after[i].manualPriority
    {
      assert EnrolledFrom(after[i], card, name, ts, k);
      var t :| t in ts && t.kind == k && after[i] == NewEntry(card, name, t);
    }
  }

  lemma {:induction false} EnrollAllFrom(qs: Queues, card: string, name: string, ts: seq<Treatment>, k: string)
    ensures forall i :: |Queue(qs, k)| <= i < |Queue(EnrollAll(qs, card, name, ts), k)| ==>
      EnrolledFrom(Queue(EnrollAll(qs, card, name, ts), k)[i], card, name, ts, k)
    decreases |ts|
  {
    if ts != [] {
      var qs1 := Enroll(qs, card, name, ts[0]);
      EnrollAllFrom(qs1, card, name, ts[1..], k);
      EnrollAllExtends(qs1, card, name, ts[1..]);
      EnrollQueue(qs, card, name, ts[0], k);
      var before := Queue(qs, k);
      var mid := Queue(qs1, k);
      var after := Queue(EnrollAll(qs, card, name, ts), k);
      assert EnrollAll(qs, card, name, ts) == EnrollAll(qs1, card, name, ts[1..]);
      assert mid <= after;
      forall i | |before| <= i < |after| ensures EnrolledFrom(after[i], card, name, ts, k) {
        if i < |mid| {
          assert mid == before + [NewEntry(card, name, ts[0])];
          assert after[i] == mid[i] == NewEntry(card, name, ts[0]);
          assert ts[0] in ts;
        } else {
          assert EnrolledFrom(after[i], card, name, ts[1..], k);
          var t :| t in ts[1..] && t.kind == k && after[i] == NewEntry(card, name, t);
          assert t in ts;
        }
      }
    }
  }

  /** After enrolment every treatment has an entry under its id in its kind's queue. */
  lemma {:induction false} EnrollAllCovers(qs: Queues, card: string, name: string, ts: seq<Treatment>)
    ensures var r := EnrollAll(qs, card, name, ts);
      forall t :: t in ts ==> HasId(Queue(r, t.kind), EntryId(card, t.kind, t.desc))
    decreases |ts|
  {
    if ts != [] {
      var qs1 := Enroll(qs, card, name, ts[0]);
      EnrollAllCovers(qs1, card, name, ts[1..]);
      EnrollAllExtends(qs1, card, name, ts[1..]);
      var r := EnrollAll(qs, card, name, ts);
      assert r == EnrollAll(qs1, card, name, ts[1..]);
      var t0 := ts[0];
      var q1 := Queue(qs1, t0.kind);
      assert HasId(q1, EntryId(card, t0.kind, t0.desc)) by {
        var q := Queue(qs, t0.kind);
        if !HasId(q, EntryId(card, t0.kind, t0.desc)) {
          assert q1[|q|].id == EntryId(card, t0.kind, t0.desc);
        }
      }
      var j :| 0 <= j < |q1| && q1[j].id == EntryId(card, t0.kind, t0.desc);
      assert Queue(r, t0.kind)[j] == q1[j];
      forall t | t in ts ensures HasId(Queue(r, t.kind), EntryId(card, t.kind, t.desc)) {
        if t != t0 {
          assert t in ts[1..];
        }
      }
    }
  }

  /** Enrolment never creates a second entry with an id already present. */
  lemma {:induction false} EnrollAllUnique(qs: Queues, card: string, name: string, ts: seq<Treatment>)
    requires forall k :: k in qs ==> UniqueIds(qs[k])
    ensures var r := EnrollAll(qs, card, name, ts); forall k :: k in r ==> UniqueIds(r[k])
    decreases |ts|
  {
    if ts != [] {
      var qs1 := Enroll(qs, card, name, ts[0]);
      forall k | k in qs1 ensures UniqueIds(qs1[k]) {
        var q := Queue(qs, k);
        if k == ts[0].kind && !HasId(q, EntryId(card, k, ts[0].desc)) {
          var q1 := qs1[k];
          forall i, j | 0 <= i < j < |q1| ensures q1[i].id != q1[j].id {
            if j == |q| {
              assert q1[i] == q[i];
            } else {
              assert q1[i] == q[i] && q1[j] == q[j];
            }
          }
        }
      }
      EnrollAllUnique(qs1, card, name, ts[1..]);
      assert EnrollAll(qs, card, name, ts) == EnrollAll(qs1, card, name, ts[1..]);
    }
  }

  /** Enrolling treatments that all have their entries already, into existing
      queues, changes nothing. */
  lemma {:induction false} EnrollAllPresent(qs: Queues, card: string, name: string, ts: seq<Treatment>)
    requires forall t :: t in ts ==> t.kind in qs && HasId(qs[t.kind], EntryId(card, t.kind, t.desc))
    ensures EnrollAll(qs, card, name, ts) == qs
    decreases |ts|
  {
    if ts != [] {
      assert Enroll(qs, card, name, ts[0]) == qs;
      assert forall t :: t in ts[1..] ==> t in ts;
      EnrollAllPresent(qs, card, name, ts[1..]);
    }
  }

  /** Enrolling the same treatments twice gives the queues of enrolling them once. */
  lemma EnrollAllIdempotent(qs: Queues, card: string, name: string, ts: seq<Treatment>)
    ensures var once := EnrollAll(qs, card, name, ts);
      EnrollAll(once, card, name, ts) == once
  {
    var once := EnrollAll(qs, card, name, ts);
    EnrollAllCovers(qs, card, name, ts);
    EnrollAllExtends(qs, card, name, ts);
    forall t | t in ts ensures t.kind in once {
    }
    EnrollAllPresent(once, card, name, ts);
  }

  /** `addToQueues` twice leaves the queues as `addToQueues` once (the card is
      appended to the registered list each time). */
  lemma AddToQueuesIdempotent(st: AppState, card: string)
    ensures AddToQueues(AddToQueues(st, card), card).queues == AddToQueues(st, card).queues
    ensures card !in st.patients ==> AddToQueues(st, card) == st
  {
    if card in st.patients {
      var p := st.patients[card];
      EnrollAllIdempotent(st.queues, card, p.name, p.treatments);
    }
  }

  /** Two treatments of one kind whose descriptions differ only by surrounding
      white space share an id, so the second adds no entry. */
  lemma TrimmedDescriptionsShareEntry(qs: Queues, card: string, name: string, kind: string, desc: string)
    ensures var once := Enroll(qs, card, name, Treatment(kind, Trim(desc)));
      Enroll(once, card, name, Treatment(kind, desc)) == once
  {
    TrimIdempotent(desc);
    var t := Treatment(kind, Trim(desc));
    var once := Enroll(qs, card, name, t);
    EnrollAllCovers(qs, card, name, [t]);
    EnrollAllExtends(qs, card, name, [t]);
    assert EntryId(card, kind, desc) == EntryId(card, kind, Trim(desc));
  }

  // ---------------------------------------------------------------------------
  // Done toggle and delayed removal (main.jsx:1080-1100)

  /** Replaces every entry holding `id` by `item` (the source maps over the queue). */
  function ReplaceById(q: seq<QueueEntry>, id: string, item: QueueEntry): (r: seq<QueueEntry>)
    ensures |r| == |q|
    ensures forall i :: 0 <= i < |q| ==> r[i] == if q[i].id == id then item else q[i]
  {
    seq(|q|, i requires 0 <= i < |q| => if q[i].id == id then item else q[i])
  }

  /** With unique ids the replacement touches the one position holding `id`. */
  lemma ReplaceUnique(q: seq<QueueEntry>, id: string, item: QueueEntry)
    requires UniqueIds(q) && IndexOf(q, id) >= 0
    ensures ReplaceById(q, id, item) == q[IndexOf(q, id) := item]
  {
    var i := IndexOf(q, id);
    forall j | 0 <= j < |q| ensures ReplaceById(q, id, item)[j] == q[i := item][j] {
      if q[j].id == id {
        assert j == i;
      }
    }
  }

  /** A replacement by an entry with the same id keeps the ids unique. */
  lemma ReplaceKeepsUnique(q: seq<QueueEntry>, id: string, item: QueueEntry)
    requires UniqueIds(q) && item.id == id
    ensures UniqueIds(ReplaceById(q, id, item))
  {
    var r := ReplaceById(q, id, item);
    assert forall j :: 0 <= j < |q| ==> r[j].id == q[j].id;
  }

  /** After a replacement every entry is the new one or an untouched one with another id. */
  lemma ReplaceMembers(q: seq<QueueEntry>, id: string, item: QueueEntry)
    ensures forall e :: e in ReplaceById(q, id, item) ==> e == item || (e in q && e.id != id)
  {
    var r := ReplaceById(q, id, item);
    forall e | e in r ensures e == item || (e in q && e.id != id) {
      var j :| 0 <= j < |r| && r[j] == e;
      if q[j].id != id {
        assert q[j] in q;
      }
    }
  }

  /** The queue with the `done` flag of the entry holding `id` flipped (every
      entry with that id is replaced by the flipped first one, as the source maps
      over the queue). */
  function Flipped(q: seq<QueueEntry>, id: string): seq<QueueEntry> {
    var i := IndexOf(q, id);
    if i < 0 then q else ReplaceById(q, id, q[i].(done := !q[i].done))
  }

  /** Scheduling adds one pending removal under the key; cancelling removes one. */
  function Reschedule(timers: multiset<TimerKey>, key: TimerKey, schedule: bool): multiset<TimerKey> {
    if schedule then timers + multiset{key} else timers - multiset{key}
  }

  /** `toggleDone`: flips `done` on the entry with `id`. Going to done schedules its
      removal (one more pending timer under the key); going back cancels it (one
      fewer). A missing id leaves everything as it was, and so does a kind
      without a queue, where the source's handler throws before changing state. */
  function ToggleDone(st: AppState, kind: string, id: string): AppState {
    if kind !in st.queues then st
    else
      var q := st.queues[kind];
      var i := IndexOf(q, id);
      if i < 0 then st
      else
        st.(queues := st.queues[kind := Flipped(q, id)],
            timers := Reschedule(st.timers, TimerKey(kind, id), !q[i].done))
  }

  /** The scheduled removal firing: it runs only while pending and then filters
      every entry with the id out of that kind's queue. */
  function Fire(st: AppState, key: TimerKey): AppState {
    if key !in st.timers then st
    else
      st.(timers := st.timers - multiset{key},
          queues := if key.kind in st.queues then st.queues[key.kind := WithoutId(st.queues[key.kind], key.id)] else st.queues)
  }

  /** A firing touches only its own kind's queue and its own pending removal: a
      pending one is used up and filters exactly the entries with its id out of
      that queue; one that is not pending does nothing. The registry, the other
      queues, the counters, dates, file names and archive stay. */
  lemma FireSpec(st: AppState, key: TimerKey)
    ensures var r := Fire(st, key);
      && r.patients == st.patients && r.registered == st.registered && r.archived == st.archived
      && r.cohortDays == st.cohortDays && r.cohortStart == st.cohortStart && r.lastFileName == st.lastFileName
      && r.queues.Keys == st.queues.Keys
      && (forall k :: k in st.queues && k != key.kind ==> r.queues[k] == st.queues[k])
      && (key in st.timers ==> r.timers == st.timers - multiset{key})
      && (key in st.timers && key.kind in st.queues ==>
            forall e :: e in r.queues[key.kind] <==> e in st.queues[key.kind] && e.id != key.id)
      && (key !in st.timers ==> r == st)
  {
    var r := Fire(st, key);
    if key in st.timers && key.kind in st.queues {
      assert r.queues == st.queues[key.kind := WithoutId(st.queues[key.kind], key.id)];
    }
  }

  /** Ids are unique in every queue and every done entry has a pending removal. */
  predicate QueueInvariant(st: AppState) {
    && (forall k :: k in st.queues ==> UniqueIds(st.queues[k]))
    && (forall k, e :: k in st.queues && e in st.queues[k] && e.done ==> TimerKey(k, e.id) in st.timers)
  }

  /** The toggle flips exactly the entry with that id: every other entry, every
      other queue and the order stay as they were. */
  lemma ToggleDoneSpec(st: AppState, kind: string, id: string)
    requires kind in st.queues && HasId(st.queues[kind], id)
    requires UniqueIds(st.queues[kind])
    ensures var r := ToggleDone(st, kind, id); var q := st.queues[kind];
      && r.queues.Keys == st.queues.Keys
      && (forall k :: k in st.queues && k != kind ==> r.queues[k] == st.queues[k])
      && |r.queues[kind]| == |q|
      && (forall i :: 0 <= i < |q| ==>
            if q[i].id == id then r.queues[kind][i] == q[i].(done := !q[i].done) else r.queues[kind][i] == q[i])
      && r.patients == st.patients
  {
    var q := st.queues[kind];
    var i := IndexOf(q, id);
    forall j | 0 <= j < |q| && q[j].id == id ensures q[j] == q[i] {
    }
  }

  /** A missing id or kind makes the toggle a no-op. */
  lemma ToggleDoneAbsent(st: AppState, kind: string, id: string)
    requires kind !in st.queues || !HasId(st.queues[kind], id)
    ensures ToggleDone(st, kind, id) == st
  {
  }

  /** Flipping twice restores the queue; the first flip keeps the entry's place. */
  lemma FlipTwice(q: seq<QueueEntry>, id: string)
    requires UniqueIds(q) && HasId(q, id)
    ensures var i := IndexOf(q, id);
      && IndexOf(Flipped(q, id), id) == i
      && Flipped(q, id)[i].done == !q[i].done
      && Flipped(Flipped(q, id), id) == q
  {
    var i := IndexOf(q, id);
    var item := q[i].(done := !q[i].done);
    FlipAt(q, id);
    UpdateKeepsIndex(q, i, item);
    UpdateKeepsUnique(q, i, item);
    var q1 := q[i := item];
    FlipAt(q1, id);
    assert q1[i := q1[i].(done := !q1[i].done)] == q;
  }

  /** With unique ids the flip rewrites just the entry's own position. */
  lemma FlipAt(q: seq<QueueEntry>, id: string)
    requires UniqueIds(q) && IndexOf(q, id) >= 0
    ensures var i := IndexOf(q, id); Flipped(q, id) == q[i := q[i].(done := !q[i].done)]
  {
    ReplaceUnique(q, id, q[IndexOf(q, id)].(done := !q[IndexOf(q, id)].done));
  }

  /** Overwriting the first entry with an id by one with the same id keeps it first. */
  lemma UpdateKeepsIndex(q: seq<QueueEntry>, i: int, x: QueueEntry)
    requires 0 <= i < |q| && IndexOf(q, x.id) == i
    ensures IndexOf(q[i := x], x.id) == i
  {
    var q1 := q[i := x];
    assert forall j :: 0 <= j < i ==> q1[j] == q[j] && q1[j].id != x.id;
    assert q1[i].id == x.id;
  }

  /** Overwriting an entry by one with the same id keeps the ids unique. */
  lemma UpdateKeepsUnique(q: seq<QueueEntry>, i: int, x: QueueEntry)
    requires 0 <= i < |q| && UniqueIds(q) && q[i].id == x.id
    ensures UniqueIds(q[i := x])
  {
    assert forall j :: 0 <= j < |q| ==> q[i := x][j].id == q[j].id;
  }

  /** Scheduling and then cancelling, or cancelling a pending removal and then
      scheduling, leaves the pending removals as they were. */
  lemma RescheduleTwice(timers: multiset<TimerKey>, key: TimerKey, schedule: bool)
    requires !schedule ==> key in timers
    ensures Reschedule(Reschedule(timers, key, schedule), key, !schedule) == timers
  {
  }

  /** Toggling twice restores the state: the entry's flag and the pending removals. */
  lemma ToggleTwice(st: AppState, kind: string, id: string)
    requires QueueInvariant(st)
    ensures ToggleDone(ToggleDone(st, kind, id), kind, id) == st
  {
    if kind in st.queues && HasId(st.queues[kind], id) {
      var q := st.queues[kind];
      var i := IndexOf(q, id);
      assert q[i] in q;
      ToggleTwicePresent(st, kind, id);
    }
  }

  lemma ToggleTwicePresent(st: AppState, kind: string, id: string)
    requires kind in st.queues && HasId(st.queues[kind], id) && UniqueIds(st.queues[kind])
    requires var q := st.queues[kind]; q[IndexOf(q, id)].done ==> TimerKey(kind, id) in st.timers
    ensures ToggleDone(ToggleDone(st, kind, id), kind, id) == st
  {
    var q := st.queues[kind];
    var i := IndexOf(q, id);
    var key := TimerKey(kind, id);
    FlipTwice(q, id);
    RescheduleTwice(st.timers, key, !q[i].done);
    var st1 := ToggleDone(st, kind, id);
    ToggleUnfold(st, kind, id);
    assert st1.queues[kind] == Flipped(q, id) && st1.timers == Reschedule(st.timers, key, !q[i].done);
    ToggleUnfold(st1, kind, id);
    assert st1.queues[kind := q] == st.queues;
  }

  /** The toggle of a present entry, as a record update. */
  lemma ToggleUnfold(st: AppState, kind: string, id: string)
    requires kind in st.queues && IndexOf(st.queues[kind], id) >= 0
    ensures var q := st.queues[kind]; var i := IndexOf(q, id);
      ToggleDone(st, kind, id) == st.(queues := st.queues[kind := Flipped(q, id)],
                                      timers := Reschedule(st.timers, TimerKey(kind, id), !q[i].done))
  {
  }

  /** The toggle keeps the invariant. */
  lemma ToggleDoneKeepsInvariant(st: AppState, kind: string, id: string)
    requires QueueInvariant(st)
    ensures QueueInvariant(ToggleDone(st, kind, id))
  {
    if kind in st.queues && HasId(st.queues[kind], id) {
      ToggleKeepsUnique(st, kind, id);
      ToggleKeepsTimers(st, kind, id);
    }
  }

  lemma ToggleKeepsUnique(st: AppState, kind: string, id: string)
    requires kind in st.queues && HasId(st.queues[kind], id)
    requires forall k :: k in st.queues ==> UniqueIds(st.queues[k])
    ensures var r := ToggleDone(st, kind, id); forall k :: k in r.queues ==> UniqueIds(r.queues[k])
  {
    var q := st.queues[kind];
    var i := IndexOf(q, id);
    ReplaceKeepsUnique(q, id, q[i].(done := !q[i].done));
  }

  lemma ToggleKeepsTimers(st: AppState, kind: string, id: string)
    requires kind in st.queues && HasId(st.queues[kind], id)
    requires forall k, e :: k in st.queues && e in st.queues[k] && e.done ==> TimerKey(k, e.id) in st.timers
    ensures var r := ToggleDone(st, kind, id);
      forall k, e :: k in r.queues && e in r.queues[k] && e.done ==> TimerKey(k, e.id) in r.timers
  {
    var q := st.queues[kind];
    var i := IndexOf(q, id);
    var item := q[i].(done := !q[i].done);
    var key := TimerKey(kind, id);
    var r := ToggleDone(st, kind, id);
    ReplaceMembers(q, id, item);
    assert r.queues == st.queues[kind := ReplaceById(q, id, item)];
    assert r.timers == Reschedule(st.timers, key, item.done);
    forall k, e | k in r.queues && e in r.queues[k] && e.done ensures TimerKey(k, e.id) in r.timers {
      if k == kind && e == item {
        assert TimerKey(k, e.id) == key;
      } else {
        assert e in st.queues[k] && TimerKey(k, e.id) != key;
      }
    }
  }

  /** Firing keeps the invariant: the removed entries take their pending key along. */
  lemma FireKeepsInvariant(st: AppState, key: TimerKey)
    requires QueueInvariant(st)
    ensures QueueInvariant(Fire(st, key))
  {
    if key in st.timers && key.kind in st.queues {
      var q := st.queues[key.kind];
      var q1 := WithoutId(q, key.id);
      WithoutIdUnique(q, key.id);
      var r := Fire(st, key);
      forall k, e | k in r.queues && e in r.queues[k] && e.done ensures TimerKey(k, e.id) in r.timers {
        if k == key.kind {
          assert e in q && e.id != key.id;
        }
        assert TimerKey(k, e.id) != key;
      }
    }
  }

  lemma {:induction false} WithoutIdUnique(q: seq<QueueEntry>, id: string)
    requires UniqueIds(q)
    ensures UniqueIds(WithoutId(q, id))
  {
    if q != [] {
      assert UniqueIds(q[1..]) by {
        forall i, j | 0 <= i < j < |q[1..]| ensures q[1..][i].id != q[1..][j].id {
          assert q[1..][i] == q[i + 1] && q[1..][j] == q[j + 1];
        }
      }
      WithoutIdUnique(q[1..], id);
      var rest := WithoutId(q[1..], id);
      if q[0].id != id {
        HeadIdFresh(q);
        var r := [q[0]] + rest;
        forall i, j | 0 <= i < j < |r| ensures r[i].id != r[j].id {
          if i == 0 {
            assert r[j] == rest[j - 1] && r[j] in q[1..];
          } else {
            assert r[i] == rest[i - 1] && r[j] == rest[j - 1];
          }
        }
      }
    }
  }

  /** With unique ids, no later entry shares the head's id. */
  lemma HeadIdFresh(q: seq<QueueEntry>)
    requires q != [] && UniqueIds(q)
    ensures forall e :: e in q[1..] ==> e.id != q[0].id
  {
    forall e | e in q[1..] ensures e.id != q[0].id {
      var k :| 0 <= k < |q[1..]| && q[1..][k] == e;
      assert q[k + 1] == e;
    }
  }

  /** Lifecycle: toggling a pending entry to done and letting its removal fire
      removes it from its queue. */
  lemma DoneThenFireRemoves(st: AppState, kind: string, id: string)
    requires QueueInvariant(st)
    requires kind in st.queues && HasId(st.queues[kind], id)
    requires var i := IndexOf(st.queues[kind], id); !st.queues[kind][i].done
    ensures var r := Fire(ToggleDone(st, kind, id), TimerKey(kind, id));
      kind in r.queues && !HasId(r.queues[kind], id)
  {
    var st1 := ToggleDone(st, kind, id);
    assert TimerKey(kind, id) in st1.timers;
    var rq := Fire(st1, TimerKey(kind, id)).queues[kind];
    forall j | 0 <= j < |rq| ensures rq[j].id != id {
      assert rq[j] in rq;
    }
  }

  /** Lifecycle: toggling to done and back before the removal fires cancels it, so
      the entry is pending again and no removal for it is left over. */
  lemma DoneThenUndoneCancels(st: AppState, kind: string, id: string)
    requires QueueInvariant(st)
    requires kind in st.queues && HasId(st.queues[kind], id)
    requires var i := IndexOf(st.queues[kind], id); !st.queues[kind][i].done
    requires TimerKey(kind, id) !in st.timers
    ensures var r := ToggleDone(ToggleDone(st, kind, id), kind, id);
      r == st && Fire(r, TimerKey(kind, id)) == st
  {
    ToggleTwice(st, kind, id);
  }

  // ---------------------------------------------------------------------------
  // Manual moves (main.jsx:694-717)

  /** `moveUpInQueue`: the entry trades places with its predecessor; at the head,
      or when absent, nothing changes. */
  function MoveUp(qs: Queues, kind: string, id: string): Queues {
    var q := Queue(qs, kind);
    var i := IndexOf(q, id);
    if i > 0 then qs[kind := q[..i - 1] + [q[i], q[i - 1]] + q[i + 1..]] else qs
  }

  /** `moveTopInQueue`: the entry moves to the front and is marked as manually
      prioritised at `now`; at the head, or when absent, nothing changes. */
  function MoveTop(qs: Queues, kind: string, id: string, now: int): Queues {
    var q := Queue(qs, kind);
    var i := IndexOf(q, id);
    if i > 0 then qs[kind := [q[i].(manualPriority := true, manualChangedAt := Some(now))] + q[..i] + q[i + 1..]] else qs
  }

  /** Moving up keeps the queue's entries (as a multiset) and swaps exactly the
      entry with its predecessor. */
  lemma MoveUpSpec(qs: Queues, kind: string, id: string)
    ensures var i := IndexOf(Queue(qs, kind), id); var q := Queue(qs, kind); var r := MoveUp(qs, kind, id);
      && (i <= 0 ==> r == qs)
      && (i > 0 ==>
            && multiset(r[kind]) == multiset(q)
            && r[kind][i - 1] == q[i] && r[kind][i] == q[i - 1]
            && (forall j :: 0 <= j < |q| && j != i && j != i - 1 ==> r[kind][j] == q[j]))
      && (forall k :: k != kind ==> Queue(r, k) == Queue(qs, k))
  {
    var q := Queue(qs, kind);
    var i := IndexOf(q, id);
    if i > 0 {
      SwapAdjacent(q, i);
    }
  }

  /** Swapping two neighbours keeps the multiset and every other position. */
  lemma SwapAdjacent(q: seq<QueueEntry>, i: int)
    requires 0 < i < |q|
    ensures var r := q[..i - 1] + [q[i], q[i - 1]] + q[i + 1..];
      && |r| == |q|
      && multiset(r) == multiset(q)
      && r[i - 1] == q[i] && r[i] == q[i - 1]
      && (forall j :: 0 <= j < |q| && j != i && j != i - 1 ==> r[j] == q[j])
  {
    assert q == q[..i - 1] + [q[i - 1], q[i]] + q[i + 1..];
  }

  /** Moving to the front keeps the queue's ids (as a multiset) and every done
      flag; the moved entry is first and the others keep their order. */
  lemma MoveTopSpec(qs: Queues, kind: string, id: string, now: int)
    ensures var i := IndexOf(Queue(qs, kind), id); var q := Queue(qs, kind); var r := MoveTop(qs, kind, id, now);
      && (i <= 0 ==> r == qs)
      && (i > 0 ==>
            && multiset(Ids(r[kind])) == multiset(Ids(q))
            && r[kind][0] == q[i].(manualPriority := true, manualChangedAt := Some(now))
            && r[kind][1..] == q[..i] + q[i + 1..])
      && (forall k :: k != kind ==> Queue(r, k) == Queue(qs, k))
  {
    var q := Queue(qs, kind);
    var i := IndexOf(q, id);
    if i > 0 {
      FrontIds(q, i, q[i].(manualPriority := true, manualChangedAt := Some(now)));
    }
  }

  /** Moving position `i` to the front, under the same id, keeps the ids as a multiset. */
  lemma FrontIds(q: seq<QueueEntry>, i: int, moved: QueueEntry)
    requires 0 < i < |q| && moved.id == q[i].id
    ensures multiset(Ids([moved] + q[..i] + q[i + 1..])) == multiset(Ids(q))
  {
    var a := q[..i];
    var c := q[i + 1..];
    assert q == a + [q[i]] + c;
    IdsAppend(a + [q[i]], c);
    IdsAppend(a, [q[i]]);
    IdsAppend([moved] + a, c);
    IdsAppend([moved], a);
    assert Ids([moved]) == Ids([q[i]]);
  }

  lemma IdsAppend(a: seq<QueueEntry>, b: seq<QueueEntry>)
    ensures Ids(a + b) == Ids(a) + Ids(b)
  {
  }

  // ---------------------------------------------------------------------------
  // The invariant across the queue operations

  /** The freshly started app has empty queues and no pending removal. */
  lemma InitialStateInvariant()
    ensures QueueInvariant(InitialState())
  {
  }

  /** Enrolling a registered card keeps the invariant: the new entries have fresh
      ids and are pending, and the old ones keep their place. */
  lemma AddToQueuesKeepsInvariant(st: AppState, card: string)
    requires QueueInvariant(st)
    ensures QueueInvariant(AddToQueues(st, card))
  {
    if card in st.patients {
      var p := st.patients[card];
      var r := AddToQueues(st, card);
      assert r.queues == EnrollAll(st.queues, card, p.name, p.treatments);
      EnrollAllUnique(st.queues, card, p.name, p.treatments);
      EnrollAllExtends(st.queues, card, p.name, p.treatments);
      forall k, e | k in r.queues && e in r.queues[k] && e.done ensures TimerKey(k, e.id) in r.timers {
        EnrollAllAppends(st.queues, card, p.name, p.treatments, k);
        var q := Queue(st.queues, k);
        var q1 := r.queues[k];
        var i :| 0 <= i < |q1| && q1[i] == e;
        if i < |q| {
          assert q1[i] == q[i] && k in st.queues;
        }
      }
    }
  }

  /** Moving up keeps the invariant: the queue is the same entries in another order. */
  lemma MoveUpKeepsInvariant(st: AppState, kind: string, id: string)
    requires QueueInvariant(st)
    ensures QueueInvariant(st.(queues := MoveUp(st.queues, kind, id)))
  {
    var q := Queue(st.queues, kind);
    var i := IndexOf(q, id);
    if i > 0 {
      SwapAdjacent(q, i);
      var q1 := q[..i - 1] + [q[i], q[i - 1]] + q[i + 1..];
      assert UniqueIds(q);
      forall a, b | 0 <= a < b < |q1| ensures q1[a].id != q1[b].id {
        var pa := if a == i - 1 then i else if a == i then i - 1 else a;
        var pb := if b == i - 1 then i else if b == i then i - 1 else b;
        assert q1[a] == q[pa] && q1[b] == q[pb];
        if pb < pa {
          assert q[pb].id != q[pa].id;
        }
      }
      forall e | e in q1 ensures e in q {
        assert e in multiset(q1);
      }
    }
  }

  /** Moving to the front keeps the invariant: the moved entry keeps its id and
      its done flag, and the others are the same entries. */
  lemma MoveTopKeepsInvariant(st: AppState, kind: string, id: string, now: int)
    requires QueueInvariant(st)
    ensures QueueInvariant(st.(queues := MoveTop(st.queues, kind, id, now)))
  {
    var q := Queue(st.queues, kind);
    var i := IndexOf(q, id);
    if i > 0 {
      var moved := q[i].(manualPriority := true, manualChangedAt := Some(now));
      FrontUnique(q, i, moved);
      FrontMembers(q, i, moved);
    }
  }

  /** Moving position `i` to the front, under the same id, keeps the ids unique. */
  lemma FrontUnique(q: seq<QueueEntry>, i: int, moved: QueueEntry)
    requires 0 < i < |q| && moved.id == q[i].id && UniqueIds(q)
    ensures UniqueIds([moved] + q[..i] + q[i + 1..])
  {
    var q1 := [moved] + q[..i] + q[i + 1..];
    forall a, b | 0 <= a < b < |q1| ensures q1[a].id != q1[b].id {
      var pa := if a == 0 then i else if a <= i then a - 1 else a;
      var pb := if b <= i then b - 1 else b;
      assert q1[a].id == q[pa].id && q1[b] == q[pb];
      if pb < pa {
        assert q[pb].id != q[pa].id;
      }
    }
  }

  /** After moving position `i` to the front, every entry is the moved one or an
      entry of `q`. */
  lemma FrontMembers(q: seq<QueueEntry>, i: int, moved: QueueEntry)
    requires 0 < i < |q|
    ensures forall e :: e in [moved] + q[..i] + q[i + 1..] ==> e == moved || e in q
  {
    var q1 := [moved] + q[..i] + q[i + 1..];
    forall e | e in q1 && e != moved ensures e in q {
      var j :| 0 <= j < |q1| && q1[j] == e;
      assert e == q[if j <= i then j - 1 else j];
    }
  }

  /** Filtering by card never creates a repeated id. */
  lemma {:induction false} WithoutCardsUnique(q: seq<QueueEntry>, drop: set<string>)
    requires UniqueIds(q)
    ensures UniqueIds(WithoutCards(q, drop))
  {
    if q != [] {
      assert UniqueIds(q[1..]) by {
        forall i, j | 0 <= i < j < |q[1..]| ensures q[1..][i].id != q[1..][j].id {
          assert q[1..][i] == q[i + 1] && q[1..][j] == q[j + 1];
        }
      }
      WithoutCardsUnique(q[1..], drop);
      var rest := WithoutCards(q[1..], drop);
      if q[0].card !in drop {
        HeadIdFresh(q);
        var r := [q[0]] + rest;
        forall i, j | 0 <= i < j < |r| ensures r[i].id != r[j].id {
          if i == 0 {
            assert r[j] == rest[j - 1] && r[j] in q[1..];
          } else {
            assert r[i] == rest[i - 1] && r[j] == rest[j - 1];
          }
        }
      }
    }
  }

  /** Dropping cards from every queue keeps the invariant; the pending removals
      are left as they were. */
  lemma DropCardsKeepsInvariant(st: AppState, drop: set<string>)
    requires QueueInvariant(st)
    ensures QueueInvariant(st.(queues := DropCards(st.queues, drop)))
  {
    var r := DropCards(st.queues, drop);
    forall k | k in r ensures UniqueIds(r[k]) {
      WithoutCardsUnique(st.queues[k], drop);
    }
  }

  // ---------------------------------------------------------------------------
  // Counts (main.jsx:1102)

  /** Entries not yet done. */
  function ActiveCount(q: seq<QueueEntry>): nat {
    if q == [] then 0 else (if q[0].done then 0 else 1) + ActiveCount(q[1..])
  }

  /** `countsActive`: the pending count of every kind of `AllTreatments`; a kind
      outside that list (such as "Magnetronik") is never counted. */
  function CountsActive(qs: Queues): (r: map<string, nat>)
    ensures r.Keys == set k | k in AllTreatments
  {
    map k | k in AllTreatments :: ActiveCount(Queue(qs, k))
  }

  /** Each rendered kind's count is at most its queue's length, equal to it exactly
      when no entry is done, and 0 exactly when every entry is done; a kind
      without a queue counts 0. */
  lemma CountsActiveSpec(qs: Queues, k: string)
    requires k in AllTreatments
    ensures var n := CountsActive(qs)[k]; var q := Queue(qs, k);
      && n <= |q|
      && (n == |q| <==> forall i :: 0 <= i < |q| ==> !q[i].done)
      && (n == 0 <==> forall i :: 0 <= i < |q| ==> q[i].done)
      && (k !in qs ==> n == 0)
  {
    ActiveCountBounds(Queue(qs, k));
  }

  lemma {:induction false} ActiveCountBounds(q: seq<QueueEntry>)
    ensures ActiveCount(q) <= |q|
    ensures ActiveCount(q) == |q| <==> forall i :: 0 <= i < |q| ==> !q[i].done
    ensures ActiveCount(q) == 0 <==> forall i :: 0 <= i < |q| ==> q[i].done
  {
    if q != [] {
      var tail := q[1..];
      ActiveCountBounds(tail);
      assert forall i :: 1 <= i < |q| ==> q[i] == tail[i - 1];
      if forall i :: 0 <= i < |tail| ==> !tail[i].done {
        assert forall i :: 1 <= i < |q| ==> !q[i].done;
      }
      if forall i :: 0 <= i < |tail| ==> tail[i].done {
        assert forall i :: 1 <= i < |q| ==> q[i].done;
      }
    }
  }

  lemma {:induction false} ActiveCountAppend(a: seq<QueueEntry>, b: seq<QueueEntry>)
    ensures ActiveCount(a + b) == ActiveCount(a) + ActiveCount(b)
  {
    if a == [] {
      assert a + b == b;
    } else {
      assert (a + b)[1..] == a[1..] + b;
      ActiveCountAppend(a[1..], b);
    }
  }

  /** Toggling a pending entry to done lowers its kind's pending count by one;
      toggling a done entry back raises it by one. */
  lemma ToggleDoneCount(st: AppState, kind: string, id: string)
    requires kind in st.queues && HasId(st.queues[kind], id) && UniqueIds(st.queues[kind])
    ensures var q := st.queues[kind]; var i := IndexOf(q, id);
      ActiveCount(ToggleDone(st, kind, id).queues[kind]) == if q[i].done then ActiveCount(q) + 1 else ActiveCount(q) - 1
  {
    var q := st.queues[kind];
    var i := IndexOf(q, id);
    var item := q[i].(done := !q[i].done);
    ReplaceUnique(q, id, item);
    assert ToggleDone(st, kind, id).queues[kind] == q[i := item];
    ActiveCountUpdate(q, i, item);
  }

  /** Overwriting one entry changes the pending count by the change in that entry. */
  lemma {:induction false} ActiveCountUpdate(q: seq<QueueEntry>, i: int, x: QueueEntry)
    requires 0 <= i < |q|
    ensures ActiveCount(q[i := x]) + (if q[i].done then 0 else 1) == ActiveCount(q) + (if x.done then 0 else 1)
  {
    if i == 0 {
      assert q[i := x][1..] == q[1..];
    } else {
      ActiveCountUpdate(q[1..], i - 1, x);
      assert q[i := x][1..] == q[1..][i - 1 := x];
    }
  }

  /** The kinds the queue view renders: `AllTreatments` in order, restricted to
      the visible ones. */
  function KindsToShow(visible: seq<string>): (r: seq<string>)
    ensures forall k :: k in r <==> k in AllTreatments && k in visible
  {
    KindsAmong(AllTreatments, visible)
  }

  function KindsAmong(kinds: seq<string>, visible: seq<string>): (r: seq<string>)
    ensures forall k :: k in r <==> k in kinds && k in visible
  {
    if kinds == [] then []
    else (if kinds[0] in visible then [kinds[0]] else []) + KindsAmong(kinds[1..], visible)
  }

  /** The alias table's "Magnetronik" queue is created by enrolment but never
      rendered or counted, whatever is visible. */
  lemma MagnetronikNeverShown(visible: seq<string>, qs: Queues)
    ensures "Magnetronik" !in KindsToShow(visible)
    ensures "Magnetronik" !in CountsActive(qs)
    ensures "mtc" in AliasTable && AliasTable["mtc"] == "Magnetronik"
  {
  }
}

=== FILE: registry.dfy ===
/** Edits of the patient registry from the patients view and the archive view
    (main.jsx:192-231, 405-411) and the two searches over it (main.jsx:205,
    1027-1029). */
module Registry {
  import opened Text
  import opened Model
  import opened Queues
  import opened Cohorts

  // ---------------------------------------------------------------------------
  // Deletion (main.jsx:192-202)

  /** `deleteOne`: the record goes, and so does every queue entry of the card.
      Pending removals are not cancelled. */
  function DeleteOne(st: AppState, card: string): AppState {
    st.(patients := st.patients - {card}, queues := DropCards(st.queues, {card}))
  }

  /** `deleteMany`: the listed cards leave the registry and every queue. */
  function DeleteMany(st: AppState, cards: seq<string>): AppState {
    var drop := set c | c in cards;
    st.(patients := map c | c in st.patients && c !in drop :: st.patients[c], queues := DropCards(st.queues, drop))
  }

  /** Deleting removes exactly the listed cards from the registry and exactly
      their entries from every queue; everything else stays. */
  lemma DeleteManySpec(st: AppState, cards: seq<string>)
    ensures var r := DeleteMany(st, cards);
      && (forall c :: c in r.patients <==> c in st.patients && c !in cards)
      && (forall c :: c in r.patients ==> r.patients[c] == st.patients[c])
      && r.queues.Keys == st.queues.Keys
      && (forall k, e :: k in st.queues ==> (e in r.queues[k] <==> e in st.queues[k] && e.card !in cards))
      && r.timers == st.timers && r.archived == st.archived
  {
  }

  /** Deleting one card is deleting the one-card list. */
  lemma DeleteOneIsDeleteMany(st: AppState, card: string)
    ensures DeleteOne(st, card) == DeleteMany(st, [card])
  {
    assert (set c | c in [card]) == {card};
  }

  /** Deleting one card keeps the queue invariant. */
  lemma DeleteOneKeepsInvariant(st: AppState, card: string)
    requires QueueInvariant(st)
    ensures QueueInvariant(DeleteOne(st, card))
  {
    DropCardsKeepsInvariant(st, {card});
  }

  /** Deleting a list of cards keeps the queue invariant. */
  lemma DeleteManyKeepsInvariant(st: AppState, cards: seq<string>)
    requires QueueInvariant(st)
    ensures QueueInvariant(DeleteMany(st, cards))
  {
    var drop := set c | c in cards;
    DropCardsKeepsInvariant(st, drop);
    assert DeleteMany(st, cards).queues == DropCards(st.queues, drop);
  }

  // ---------------------------------------------------------------------------
  // Adding and editing (main.jsx:212-231)

  /** `addRow`: card and name are trimmed; nothing happens when either is blank
      or the card is already registered; otherwise a record without treatments
      joins the import cohort. */
  function AddRow(reg: Registry, card: string, name: string, importCohort: Cohort): Registry {
    var c := Trim(card);
    var n := Trim(name);
    if c == "" || n == "" || c in reg then reg
    else reg[c := Patient(n, "", [], Some(importCohort))]
  }

  /** `saveEdit`: the record is replaced by the edited name and treatments only,
      so it loses its arrival time and its cohort. */
  function SaveEdit(reg: Registry, card: string, name: string, treatments: seq<Treatment>): Registry {
    reg[card := Patient(name, "", treatments, None)]
  }

  /** `restorePatient`: an archived record comes back under the viewed cohort,
      unless the card is registered already. */
  function RestorePatient(reg: Registry, card: string, p: Patient, c: Cohort): Registry {
    if card in reg then reg else reg[card := p.(cohort := Some(c))]
  }

  /** Adding never overwrites: every existing record stays, and at most the
      trimmed card is new. Adding the same row again changes nothing. */
  lemma AddRowSpec(reg: Registry, card: string, name: string, importCohort: Cohort)
    ensures var r := AddRow(reg, card, name, importCohort);
      && (forall c :: c in reg ==> c in r && r[c] == reg[c])
      && (r.Keys == reg.Keys || r.Keys == reg.Keys + {Trim(card)})
      && (Trim(card) !in reg && Trim(card) != "" && Trim(name) != "" <==> Trim(card) in r && Trim(card) !in reg)
      && (Trim(card) in r && Trim(card) !in reg ==> r[Trim(card)] == Patient(Trim(name), "", [], Some(importCohort)) && Trimmed(r[Trim(card)].name))
      && AddRow(r, card, name, importCohort) == r
  {
  }

  /** An edited patient belongs to no cohort: a new day or a close of either
      cohort no longer touches it, while every other record is unchanged. */
  lemma SaveEditLeavesCohort(reg: Registry, card: string, name: string, treatments: seq<Treatment>, which: Cohort)
    ensures var r := SaveEdit(reg, card, name, treatments);
      && card in r && r[card].name == name && r[card].treatments == treatments
      && card !in CohortCards(r, which)
      && (forall c :: c in reg && c != card ==> r[c] == reg[c])
  {
  }

  /** Restoring never overwrites a registered card. */
  lemma RestoreKeeps(reg: Registry, card: string, p: Patient, c: Cohort)
    ensures var r := RestorePatient(reg, card, p, c);
      && (forall k :: k in reg ==> k in r && r[k] == reg[k])
      && r.Keys == reg.Keys + {card}
      && (card !in reg ==> r[card].cohort == Some(c) && r[card].treatments == p.treatments && r[card].name == p.name)
  {
  }

  /** Round trip: a patient archived by closing its cohort, restored from that
      tour into the same cohort, comes back exactly as it was, unless its card
      was registered again meanwhile. */
  lemma CloseThenRestore(st: AppState, which: Cohort, stamp: string, card: string)
    requires card in st.patients && st.patients[card].cohort == Some(which)
    ensures var r := CloseCohort(st, which, stamp); var tours := Tours(r.archived, which);
      var tour := tours[|tours| - 1];
      && card in tour.patients
      && RestorePatient(r.patients, card, tour.patients[card], which)[card] == st.patients[card]
  {
    CloseCohortPartition(st, which, stamp);
  }

  // ---------------------------------------------------------------------------
  // Searches (main.jsx:205, 1027-1029)

  /** One line of the patients table. */
  datatype PatientRow = PatientRow(card: string, name: string, count: nat)

  /** The patients table: the registered cards of `order` (the registry's
      enumeration order) whose lower-cased card contains the lower-cased term. */
  function PatientRows(reg: Registry, order: seq<string>, term: string): (rows: seq<PatientRow>)
    ensures |rows| <= |order|
    ensures forall r :: r in rows ==>
      (r.card in reg && r.name == reg[r.card].name && r.count == |reg[r.card].treatments| && Contains(Lower(r.card), Lower(term)))
    ensures forall c :: c in order && c in reg && Contains(Lower(c), Lower(term)) ==>
      PatientRow(c, reg[c].name, |reg[c].treatments|) in rows
  {
    if order == [] then []
    else
      var c := order[0];
      (if c in reg && Contains(Lower(c), Lower(term)) then [PatientRow(c, reg[c].name, |reg[c].treatments|)] else [])
      + PatientRows(reg, order[1..], term)
  }

  /** The quick search predicate: a non-empty query found in the card as typed,
      or in the lower-cased name. */
  predicate QuickMatch(card: string, p: Patient, q: string) {
    q != "" && (Contains(card, q) || Contains(Lower(p.name), Lower(q)))
  }

  /** All quick-search hits, in enumeration order. */
  function AllMatches(reg: Registry, order: seq<string>, q: string): (hits: seq<string>)
    ensures forall c :: c in hits <==> c in order && c in reg && QuickMatch(c, reg[c], q)
  {
    if order == [] then []
    else
      (if order[0] in reg && QuickMatch(order[0], reg[order[0]], q) then [order[0]] else [])
      + AllMatches(reg, order[1..], q)
  }

  /** The quick search: the first ten hits. */
  function Matches(reg: Registry, order: seq<string>, q: string): seq<string> {
    var hits := AllMatches(reg, order, q);
    if |hits| <= 10 then hits else hits[..10]
  }

  /** The quick search returns at most ten hits, each a real hit, in order; with
      fewer than eleven hits it returns them all, and an empty query finds nothing. */
  lemma MatchesSpec(reg: Registry, order: seq<string>, q: string)
    ensures var m := Matches(reg, order, q);
      && |m| <= 10
      && m <= AllMatches(reg, order, q)
      && (forall c :: c in m ==> c in reg && QuickMatch(c, reg[c], q))
      && (|AllMatches(reg, order, q)| <= 10 ==> forall c :: c in order && c in reg && QuickMatch(c, reg[c], q) ==> c in m)
      && (q == "" ==> m == [])
  {
    var hits := AllMatches(reg, order, q);
    var m := Matches(reg, order, q);
    forall c | c in m ensures c in reg && QuickMatch(c, reg[c], q) {
      var i :| 0 <= i < |m| && m[i] == c;
      assert hits[i] == c;
    }
  }

  /** The card part of the quick search compares characters as typed, the name
      part ignores case. A query holding a character the card lacks (an upper-case
      letter against a lower-case card, say) matches exactly when the lower-cased
      name contains the lower-cased query; a non-empty query occurring in the card
      as typed always matches; and a name hit survives any change of case in the
      query or the name. */
  lemma QuickMatchCase(card: string, p: Patient, q: string, k: int, q2: string, name2: string)
    ensures (exists j :: 0 <= j < |q| && q[j] !in card) ==>
              (QuickMatch(card, p, q) <==> Contains(Lower(p.name), Lower(q)))
    ensures q != "" && OccursAt(card, q, k) ==> QuickMatch(card, p, q)
    ensures q2 != "" && Lower(q2) == Lower(q) && Lower(name2) == Lower(p.name) && Contains(Lower(p.name), Lower(q)) ==>
              QuickMatch(card, p.(name := name2), q2)
  {
    if exists j :: 0 <= j < |q| && q[j] !in card {
      if Contains(card, q) {
        ContainsSound(card, q);
      }
    }
    if q != "" && OccursAt(card, q, k) {
      ContainsComplete(card, q, k);
    }
  }

  /** An instance: card "ab" is not found by "AB", while name "AB" is found by "ab". */
  lemma QuickMatchCaseSensitiveCard()
    ensures !QuickMatch("ab", Patient("", "", [], None), "AB")
    ensures QuickMatch("ab", Patient("AB", "", [], None), "ab")
  {
    assert Lower("") == "";
    assert !Contains("", "AB");
    assert !Contains("b", "AB");
    assert "ab"[0] != "AB"[0] && "ab"[1..] == "b";
    assert !Contains("ab", "AB");
    assert OccursAt(Lower("AB"), Lower("ab"), 0);
    ContainsComplete(Lower("AB"), Lower("ab"), 0);
  }
}

=== FILE: text.dfy ===
/** String helpers that mirror the JavaScript string operations the import code
    relies on: `trim`, `toLowerCase`, `includes`, the `\s+` run collapse, and the
    header normalisation built from them (main.jsx:769-772). */
module Text {

  /** ECMAScript white space and line terminators: exactly what `trim()` strips
      and what the regular expression class `\s` matches. */
  predicate IsSpace(c: char) {
    || ('\t' <= c <= '\r')
    || c == ' '
    || c == '\U{A0}'
    || c == '\U{1680}'
    || ('\U{2000}' <= c <= '\U{200A}')
    || c == '\U{2028}'
    || c == '\U{2029}'
    || c == '\U{202F}'
    || c == '\U{205F}'
    || c == '\U{3000}'
    || c == '\U{FEFF}'
  }

  /** The string without its leading white space (`trimStart`). */
  function TrimStart(s: string): string {
    if s != [] && IsSpace(s[0]) then TrimStart(s[1..]) else s
  }

  /** The string without its trailing white space (`trimEnd`). */
  function TrimEnd(s: string): string {
    if s != [] && IsSpace(s[|s| - 1]) then TrimEnd(s[..|s| - 1]) else s
  }

  /** `trimStart` drops the leading white space and nothing else. */
  lemma {:induction false} TrimStartSpec(s: string)
    ensures var r := TrimStart(s);
      && |r| <= |s| && r == s[|s| - |r|..]
      && (forall i :: 0 <= i < |s| - |r| ==> IsSpace(s[i]))
      && (r == [] || !IsSpace(r[0]))
  {
    if s != [] && IsSpace(s[0]) {
      TrimStartSpec(s[1..]);
      var r := TrimStart(s);
      assert forall i :: 1 <= i < |s| - |r| ==> s[i] == s[1..][i - 1];
    }
  }

  /** `trimEnd` drops the trailing white space and nothing else. */
  lemma {:induction false} TrimEndSpec(s: string)
    ensures var r := TrimEnd(s);
      && |r| <= |s| && r == s[..|r|]
      && (forall i :: |r| <= i < |s| ==> IsSpace(s[i]))
      && (r == [] || !IsSpace(r[|r| - 1]))
  {
    if s != [] && IsSpace(s[|s| - 1]) {
      TrimEndSpec(s[..|s| - 1]);
    }
  }

  /** A string that neither starts nor ends with white space. */
  predicate Trimmed(s: string) {
    s == [] || (!IsSpace(s[0]) && !IsSpace(s[|s| - 1]))
  }

  /** What `trimStart` and `trimEnd` together keep and drop. */
  lemma TrimParts(s: string)
    ensures var t := TrimStart(s); var r := TrimEnd(t);
      && |r| <= |s|
      && (r != [] ==> !IsSpace(r[0]) && !IsSpace(r[|r| - 1]))
      && (r == [] <==> forall i :: 0 <= i < |s| ==> IsSpace(s[i]))
  {
    var t := TrimStart(s);
    var r := TrimEnd(t);
    TrimStartSpec(s);
    TrimEndSpec(t);
    var off := |s| - |t|;
    if r != [] {
      assert r[0] == t[0];
      assert !IsSpace(s[off]) by { assert s[off] == t[0]; }
    } else {
      assert t == [];
    }
  }

  /** The string without white space at either end (`trim`). */
  function Trim(s: string): (r: string)
    ensures Trimmed(r)
    ensures |r| <= |s|
  {
    TrimParts(s);
    TrimEnd(TrimStart(s))
  }

  /** Trimming leaves nothing exactly when `s` is all white space. */
  lemma TrimBlank(s: string)
    ensures Trim(s) == [] <==> forall i :: 0 <= i < |s| ==> IsSpace(s[i])
  {
    TrimParts(s);
  }

  /** Trimming changes nothing exactly when there is no white space at either end. */
  lemma TrimIdentity(s: string)
    ensures Trim(s) == s <==> Trimmed(s)
  {
    if Trimmed(s) && s != [] {
      assert TrimStart(s) == s;
      assert TrimEnd(s) == s;
    } else if Trim(s) == s {
      TrimParts(s);
    }
  }

  lemma TrimIdempotent(s: string)
    ensures Trim(Trim(s)) == Trim(s)
  {
    TrimIdentity(Trim(s));
  }

  /** Gluing two trimmed, non-empty pieces around one space gives a trimmed string,
      so a trailing `.trim()` on `type + " " + area` changes nothing. */
  lemma TrimJoin(a: string, b: string)
    requires a != [] && b != [] && Trimmed(a) && Trimmed(b)
    ensures Trim(a + " " + b) == a + " " + b
  {
    var s := a + " " + b;
    assert s[0] == a[0] && s[|s| - 1] == b[|b| - 1];
    TrimIdentity(s);
  }

  /** `c.toLowerCase()` for ASCII, Latin-1 and the Polish letters; other code points are kept. */
  function LowerChar(c: char): char {
    if 'A' <= c <= 'Z' || ('\U{C0}' <= c <= '\U{DE}' && c != '\U{D7}') then
      (c as int + 32) as char
    else if c in {'\U{104}', '\U{106}', '\U{118}', '\U{141}', '\U{143}', '\U{15A}', '\U{179}', '\U{17B}'} then
      (c as int + 1) as char
    else
      c
  }

  /** `s.toLowerCase()`, one code point at a time. */
  function Lower(s: string): string {
    seq(|s|, i requires 0 <= i < |s| => LowerChar(s[i]))
  }

  lemma LowerIdempotent(s: string)
    ensures Lower(Lower(s)) == Lower(s)
  {
  }

  /** Characters that carry the Unicode `Diacritic` property and are removed by
      `replace(/\p{Diacritic}/gu, '')`: the spacing accents of ASCII and Latin-1
      and the combining diacritical marks that NFD decomposition produces. */
  predicate IsDiacritic(c: char) {
    || c in {'^', '`', '\U{A8}', '\U{AF}', '\U{B4}', '\U{B7}', '\U{B8}'}
    || ('\U{300}' <= c <= '\U{34E}')
  }

  /** Base letter of each Polish letter that NFD decomposes into letter + mark;
      every other character is its own base. `Ł`/`ł` have no canonical
      decomposition and keep their stroke. */
  function BaseLetter(c: char): char {
    match c
    case '\U{104}' => 'A'
    case '\U{105}' => 'a'
    case '\U{106}' => 'C'
    case '\U{107}' => 'c'
    case '\U{118}' => 'E'
    case '\U{119}' => 'e'
    case '\U{143}' => 'N'
    case '\U{144}' => 'n'
    case '\U{D3}' => 'O'
    case '\U{F3}' => 'o'
    case '\U{15A}' => 'S'
    case '\U{15B}' => 's'
    case '\U{179}' => 'Z'
    case '\U{17A}' => 'z'
    case '\U{17B}' => 'Z'
    case '\U{17C}' => 'z'
    case _ => c
  }

  /** NFD decomposition of one character followed by removal of its diacritic marks. */
  function FoldChar(c: char): seq<char> {
    if IsDiacritic(c) then [] else [BaseLetter(c)]
  }

  /** Folding a folded character changes nothing. */
  lemma FoldCharFolded(c: char)
    ensures forall d :: d in FoldChar(c) ==> FoldChar(d) == [d]
  {
  }

  /** `s.normalize('NFD').replace(/\p{Diacritic}/gu, '')` over the table above. */
  function Fold(s: string): string {
    if s == [] then [] else FoldChar(s[0]) + Fold(s[1..])
  }

  /** `s.replace(/\s+/g, ' ')` written as a scan that remembers whether it is
      inside a run of white space. */
  function CollapseAfter(s: string, inRun: bool): string {
    if s == [] then []
    else if IsSpace(s[0]) then (if inRun then [] else [' ']) + CollapseAfter(s[1..], true)
    else [s[0]] + CollapseAfter(s[1..], false)
  }

  function CollapseSpaces(s: string): string {
    CollapseAfter(s, false)
  }

  /** `normalizeHeader`: strip diacritics, lower-case, collapse white-space runs, trim.
      The source's `if (!h) return ""` guard is subsumed: the empty string maps to itself. */
  function NormalizeHeader(h: string): string {
    Trim(CollapseSpaces(Lower(Fold(h))))
  }

  /** A character that folding, lower-casing and collapsing leave alone. */
  predicate StableChar(c: char) {
    FoldChar(c) == [c] && LowerChar(c) == c && (IsSpace(c) ==> c == ' ')
  }

  predicate AllStable(s: string) {
    forall i :: 0 <= i < |s| ==> StableChar(s[i])
  }

  predicate StableOrSpace(s: string) {
    forall i :: 0 <= i < |s| ==> IsSpace(s[i]) || StableChar(s[i])
  }

  /** No two spaces in a row. */
  predicate SingleSpaced(s: string) {
    forall i :: 0 <= i < |s| - 1 ==> s[i] == ' ' ==> s[i + 1] != ' '
  }

  /** The strings `NormalizeHeader` produces: stable characters, single inner
      spaces, no space at either end. */
  predicate Canonical(s: string) {
    AllStable(s) && SingleSpaced(s) && Trimmed(s)
  }

  lemma {:induction false} FoldOutputFolded(s: string)
    ensures forall i :: 0 <= i < |Fold(s)| ==> FoldChar(Fold(s)[i]) == [Fold(s)[i]]
  {
    if s != [] {
      FoldOutputFolded(s[1..]);
      var head := FoldChar(s[0]);
      var tail := Fold(s[1..]);
      FoldCharFolded(s[0]);
      assert Fold(s) == head + tail;
      forall i | 0 <= i < |head + tail| ensures FoldChar((head + tail)[i]) == [(head + tail)[i]] {
        if i >= |head| {
          assert (head + tail)[i] == tail[i - |head|];
        } else {
          assert (head + tail)[i] in head;
        }
      }
    }
  }

  /** After folding and lower-casing, every character is stable or white space. */
  lemma LowerFoldStable(s: string)
    ensures StableOrSpace(Lower(Fold(s)))
  {
    FoldOutputFolded(s);
    var f := Fold(s);
    var l := Lower(f);
    forall i | 0 <= i < |l| ensures IsSpace(l[i]) || StableChar(l[i]) {
      assert FoldChar(f[i]) == [f[i]];
    }
  }

  /** Collapsing emits only stable characters and never two spaces in a row. */
  lemma {:induction false} CollapseShape(s: string, inRun: bool)
    requires StableOrSpace(s)
    ensures AllStable(CollapseAfter(s, inRun))
    ensures SingleSpaced(CollapseAfter(s, inRun))
    ensures inRun ==> CollapseAfter(s, inRun) == [] || CollapseAfter(s, inRun)[0] != ' '
  {
    if s != [] {
      var rest := CollapseAfter(s[1..], IsSpace(s[0]));
      assert StableOrSpace(s[1..]) by {
        forall i | 0 <= i < |s[1..]| ensures IsSpace(s[1..][i]) || StableChar(s[1..][i]) {
          assert s[1..][i] == s[i + 1];
        }
      }
      CollapseShape(s[1..], IsSpace(s[0]));
      var head := if IsSpace(s[0]) then (if inRun then [] else [' ']) else [s[0]];
      var r := head + rest;
      assert r == CollapseAfter(s, inRun);
      assert IsSpace(s[0]) ==> rest == [] || rest[0] != ' ';
      assert StableChar(' ');
      assert forall i :: |head| <= i < |r| ==> r[i] == rest[i - |head|];
    }
  }

  /** A slice keeps the stability of its characters and the single spacing. */
  lemma SliceShape(s: string, lo: int, hi: int)
    requires 0 <= lo <= hi <= |s|
    requires AllStable(s) && SingleSpaced(s)
    ensures AllStable(s[lo..hi]) && SingleSpaced(s[lo..hi])
  {
    var t := s[lo..hi];
    forall i | 0 <= i < |t| ensures StableChar(t[i]) {
      assert t[i] == s[lo + i];
    }
    forall i | 0 <= i < |t| - 1 ensures t[i] == ' ' ==> t[i + 1] != ' ' {
      assert t[i] == s[lo + i] && t[i + 1] == s[lo + i + 1];
    }
  }

  /** Every normalised header is canonical. */
  lemma NormalizeIsCanonical(h: string)
    ensures Canonical(NormalizeHeader(h))
  {
    var l := Lower(Fold(h));
    LowerFoldStable(h);
    var c := CollapseSpaces(l);
    CollapseShape(l, false);
    var t := TrimStart(c);
    TrimStartSpec(c);
    SliceShape(c, |c| - |t|, |c|);
    var r := TrimEnd(t);
    TrimEndSpec(t);
    SliceShape(t, 0, |r|);
    assert r == Trim(c);
  }

  lemma {:induction false} FoldFixed(s: string)
    requires AllStable(s)
    ensures Fold(s) == s
  {
    if s != [] {
      FoldFixed(s[1..]);
    }
  }

  lemma {:induction false} CollapseFixed(s: string, inRun: bool)
    requires AllStable(s) && SingleSpaced(s)
    requires inRun ==> s == [] || !IsSpace(s[0])
    ensures CollapseAfter(s, inRun) == s
  {
    if s != [] {
      CollapseFixed(s[1..], IsSpace(s[0]));
    }
  }

  /** Normalisation leaves canonical strings alone. */
  lemma CanonicalFixed(s: string)
    requires Canonical(s)
    ensures NormalizeHeader(s) == s
  {
    FoldFixed(s);
    assert Lower(s) == s;
    CollapseFixed(s, false);
    TrimIdentity(s);
  }

  /** Normalising a header twice is the same as normalising it once. */
  lemma NormalizeIdempotent(h: string)
    ensures NormalizeHeader(NormalizeHeader(h)) == NormalizeHeader(h)
  {
    NormalizeIsCanonical(h);
    CanonicalFixed(NormalizeHeader(h));
  }

  /** `sub` occurs in `s` starting at offset `k`. */
  predicate OccursAt(s: string, sub: string, k: int) {
    0 <= k && k + |sub| <= |s| && s[k..k + |sub|] == sub
  }

  /** `s.includes(sub)`: `sub` occurs somewhere in `s`. */
  predicate Contains(s: string, sub: string) {
    sub <= s || (s != [] && Contains(s[1..], sub))
  }

  /** Every `Contains` answer has a witness offset. */
  lemma {:induction false} ContainsSound(s: string, sub: string)
    requires Contains(s, sub)
    ensures exists k :: OccursAt(s, sub, k)
  {
    if sub <= s {
      assert OccursAt(s, sub, 0);
    } else {
      ContainsSound(s[1..], sub);
      var k :| OccursAt(s[1..], sub, k);
      assert s[1..][k..k + |sub|] == s[k + 1..k + 1 + |sub|];
      assert OccursAt(s, sub, k + 1);
    }
  }

  /** Every occurrence is found by `Contains`. */
  lemma {:induction false} ContainsComplete(s: string, sub: string, k: int)
    requires OccursAt(s, sub, k)
    ensures Contains(s, sub)
    decreases k
  {
    if k == 0 {
      assert sub == s[..|sub|];
    } else {
      assert s[1..][k - 1..k - 1 + |sub|] == s[k..k + |sub|];
      ContainsComplete(s[1..], sub, k - 1);
    }
  }
}
